=== FILE: README.md ===
# IMF-NVC decoder and client bookkeeping, modelled in Dafny

IMF-NVC streams video as per-frame tokens and rebuilds the frames in the
browser. This project models the parts that can be checked once I/O is
abstracted away.

The Rust WebAssembly decoder crate `imf-decoder`:
- the staged frame queue and its frames;
- the decode-worker and player state machines;
- the `IMFDecoder` glue: reference-data validation, token admission, the
  prefetch loop, the player-loop flags and the render path's choice of frame;
- the rolling metrics windows, the allocation counters and the tensor
  reshape guard.

The TypeScript/JavaScript client:
- the performance monitor;
- the neural codec's shape detection, 4-D reshape, frame buffer and frame
  stepping;
- the WebRTC codec's tensor split, reference-feature check, token chunking,
  reconnect retries and playback state;
- the service worker's model-file list, stale-cache filter and cache-first
  fetch;
- the layers-model configuration repair;
- the colour-inversion loop of the video test page.

One Dafny module models each source file:

| file | module | source |
|---|---|---|
| common.dfy | Common | shared `byte`, `Option`, `Result` and nested JavaScript arrays |
| frame.dfy | Frames | imf-decoder/src/decoder/frame.rs |
| window.dfy | RollingWindow | the bounded window shared by the metric recorders |
| queue.dfy | FrameQueue | imf-decoder/src/decoder/queue.rs |
| bindings.dfy | Bindings | imf-decoder/src/wasm/bindings.rs |
| worker.dfy | Worker | imf-decoder/src/decoder/worker.rs |
| player.dfy | Player | imf-decoder/src/player.rs |
| tensor.dfy | Tensors | imf-decoder/src/decoder/tensor.rs |
| metrics.dfy | DecoderMetrics | imf-decoder/src/utils/mod.rs |
| memory.dfy | MemoryCounters | imf-decoder/src/utils/memory.rs |
| performance_monitor.dfy | PerformanceMonitoring | imf-decoder/js/utils/performance-monitor.ts |
| neural_codec.dfy | NeuralCodec | src/components/NeuralVideoCodec.ts |
| rtc_codec.dfy | RtcCodec | src/components/RTCNeuralCodec.ts |
| service_worker.dfy | ServiceWorker | public/service-worker.js |
| tf_layers.dfy | LayerConfigFix | src/utils/TensorFlowModelLoaderLayers.ts |
| video_codec.dfy | VideoCodecTest | test/video-codec.js |

Objects whose fields the source updates in place are classes. This covers:
- the queue, frame, worker, player, tensor, metrics, memory counters and
  performance monitor;
- the `IMFDecoder` and both codec clients;
- the parsed model description.

Their methods carry `modifies` clauses, and ghost histories record what was
admitted or recorded. Pure logic is written as functions and lemmas.
Loops of the source that change state step by step are methods with a
`while` loop, proved against a specification function. Two array callbacks
became such loops:
- the `layers.forEach` callback that rewrites input layers
  (src/utils/TensorFlowModelLoaderLayers.ts:28-32) is the `while` loop of
  `LayerConfigFix.ModelJson.FixModelConfig`;
- the `cachedRanges.some(...)` test in `prefetchFrames` is the inner `while`
  loop of `NeuralCodec.NeuralVideoCodec.PrefetchFrames`.

Loops and pipelines that only compute a value are written as the functions
they compute:
- `iter().sum()` in imf-decoder/src/utils/mod.rs and
  imf-decoder/src/decoder/queue.rs is `Common.Sum`;
- `iter().product()` in imf-decoder/src/decoder/tensor.rs is `Tensors.Product`;
- `token.iter().map(..).collect()` in imf-decoder/src/wasm/bindings.rs is
  `Bindings.TokenBytes`;
- the `for...of` loop with its `reduce` in `getAverageMetrics` is the map
  comprehension of `PerformanceMonitoring.PerformanceMonitor.GetAverageMetrics`
  over `PerformanceMonitoring.Mean`;
- the `every` callback of `verifyShape` is the sequence comparison in
  `NeuralCodec.VerifyShape`;
- the `filter`/`map` over cache names in public/service-worker.js is the
  recursive function `ServiceWorker.StaleCaches`.

The environment enters as parameters:
- network answers;
- `performance.now()`;
- `window.requestAnimationFrame`;
- the tensor library's memory report;
- model inference;
- whether a `postMessage` succeeded.

Where the source's behaviour and its evident intent differ, the class and
method models follow the code. The evidently intended behaviour is modelled
beside it only for the three entries under "## Findings". Examples:
- `DecoderWorker` has a `Ready` status that no method ever assigns, so
  `start` can never succeed. `Worker.StartNeverSucceeds` states this.
- `cleanup` in the WebRTC codec keeps a current video id of 0, because it
  tests the id for truthiness.
- `processNextFrame` in the neural codec stops at frame `frameCount - 1`,
  and `NeuralCodec.NeuralVideoCodec.ProcessNextFrame` does the same.
- A token whose length is not `width * height * 4` makes `Frame::set_data`
  panic in the middle of `process_tokens` or `fetch_bulk_tokens`. The model
  returns `DataLengthPanic` at that point and keeps the frames already pushed.

## Model

| member | source | states |
|---|---|---|
| Frames.ZeroFrame | imf-decoder/src/decoder/frame.rs:13-21 | a well-formed `width x height` frame whose bytes are all 0, timestamp 0, not a keyframe |
| Frames.Frame.constructor | imf-decoder/src/decoder/frame.rs:13-21 | `Frame::new` establishes the length invariant `|data| == w*h*4`, and its value is the zero frame |
| Frames.Frame.SetData | imf-decoder/src/decoder/frame.rs:23-26 | requires exactly `w*h*4` bytes (the assert); replaces `data` and leaves width, height, timestamp and keyframe flag unchanged, keeping the invariant |
| RollingWindow.SlideKeepsNewest | imf-decoder/src/utils/mod.rs:25-44 | push-then-drop-oldest turns the window of a history into the window of the extended history: the newest `cap` samples in arrival order, of length min(n, cap) |
| RollingWindow.SlideBounded | imf-decoder/js/utils/performance-monitor.ts:43-48 | one push never exceeds the capacity, keeps the new sample last and drops only the oldest |
| FrameQueue.Queue.constructor | imf-decoder/src/decoder/queue.rs:38-47 | three empty stages, zero counters, empty time window, utilization 0 |
| FrameQueue.Queue.Push | imf-decoder/src/decoder/queue.rs:49-58 | admits iff input is below `max_size`, appending at the back; otherwise returns false, counts one drop and changes no stage (reject newest, never evict); keeps the queue invariant |
| FrameQueue.Queue.ProcessFrame | imf-decoder/src/decoder/queue.rs:95-100 | moves the processing head to the back of output and returns it; None on an empty processing stage |
| FrameQueue.Queue.UpdateMetrics | imf-decoder/src/decoder/queue.rs:171-174 | the utilization numerator becomes the total of the three stage sizes |
| FrameQueue.Queue.ProcessNext | imf-decoder/src/decoder/queue.rs:60-93 | returns and removes the input head, appends an identical copy to output, leaves processing empty and counts one processed frame; on empty input changes no stage; the time window slides by the measured sample and keeps the newest 100 |
| FrameQueue.Queue.ProcessBatch | imf-decoder/src/decoder/queue.rs:102-110 | returns exactly min(`batch_size`, input length) frames, the oldest first, as a prefix of input; they are appended to output, `frames_processed` rises by that count, nothing is admitted or dropped; the time history gains the measured sample of each call in order, the window holds its newest 100, and `last_process_time` is the latest sample (unchanged when none was measured) |
| FrameQueue.Queue.Size | imf-decoder/src/decoder/queue.rs:129-131 | the input length never exceeds `max_size` |
| FrameQueue.Queue.RemainingCapacity | imf-decoder/src/decoder/queue.rs:187-189 | remaining capacity plus size is `max_size`, and the subtraction never underflows |
| FrameQueue.Queue.IsFull | imf-decoder/src/decoder/queue.rs:183-185 | full iff the remaining capacity is 0 |
| FrameQueue.Queue.IsEmpty | imf-decoder/src/decoder/queue.rs:177-181 | empty iff nothing has been admitted since creation or the last `clear` |
| FrameQueue.Queue.QueueSizes | imf-decoder/src/decoder/queue.rs:141-147 | processing is 0 between calls, input is within capacity, and the three sizes add up to the admitted count |
| FrameQueue.Queue.GetMetrics | imf-decoder/src/decoder/queue.rs:113-126 | the snapshot's utilization equals input plus output, which is everything admitted; its counters are the queue's; the average is 0 on an empty window |
| FrameQueue.Queue.Clear | imf-decoder/src/decoder/queue.rs:191-196 | all three stages empty and every metric back to its default |
| FrameQueue.OverflowScenario | imf-decoder/src/decoder/queue.rs:238-254 | with capacity 2, the first two pushes succeed, the third is rejected, the queue is full and one frame is dropped |
| FrameQueue.BatchScenario | imf-decoder/src/decoder/queue.rs:221-236 | five frames, batch 3: successive batches yield 3, 2 and 0 frames, five are processed and input is empty |
| FrameQueue.MetricsScenario | imf-decoder/src/decoder/queue.rs:256-268 | utilization is 0 on a fresh queue and positive after one push; nothing is processed or dropped |
| Bindings.FirstShapeMismatch | imf-decoder/src/wasm/bindings.rs:581-588 | None iff every pair that `zip` forms matches; otherwise the first mismatching position among those pairs |
| Bindings.ShortFeatureListsPass | imf-decoder/src/wasm/bindings.rs:581-588 | fewer than four features that match the expected prefix pass the shape check |
| Bindings.TrailingFeaturesIgnored | imf-decoder/src/wasm/bindings.rs:581-588 | features after the fourth never change the verdict |
| Bindings.FloatToByte | imf-decoder/src/wasm/bindings.rs:257 | the saturating `f32 as u8` cast: 0 below 0, 255 from 255 up, truncation in between |
| Bindings.TokenBytes | imf-decoder/src/wasm/bindings.rs:257 | one byte per token element, each the cast of that element |
| Bindings.TokenFrames | imf-decoder/src/wasm/bindings.rs:254-260 | one frame per token entry, in iteration order, each built from that token's bytes |
| Bindings.FitPrefix | imf-decoder/src/decoder/frame.rs:23-26 | the number of leading tokens before the first one whose length is not `width*height*4`; it equals the token count iff every token fits |
| Bindings.IMFDecoder.MakeTokenFrame | imf-decoder/src/wasm/bindings.rs:255-258 | `Frame::new` then `set_data` of the cast bytes gives the token's frame |
| Bindings.LoopRequestsAreAdjacentChunks | imf-decoder/src/wasm/bindings.rs:271-287 | request k of the background loop is exactly [s + 100k, s + 100k + 99], and there are no more requests than rounds |
| Bindings.LoopRequestsContiguous | imf-decoder/src/wasm/bindings.rs:295-316 | consecutive requests are adjacent and strictly increasing |
| Bindings.LoopStopsAtFirstFailure | imf-decoder/src/wasm/bindings.rs:275-285 | every request except the last succeeded and found the running flag still up |
| Bindings.IMFDecoder.constructor | imf-decoder/src/wasm/bindings.rs:104-135 | an empty queue of 60 with batch 4, no render context, loop stopped, no reference data |
| Bindings.IMFDecoder.InitializeRenderContext | imf-decoder/src/wasm/bindings.rs:139-150 | the context is stored and Ok returned iff the GPU side created one |
| Bindings.IMFDecoder.SetDiagnosticMode | imf-decoder/src/wasm/bindings.rs:557-566 | the getter returns the value set |
| Bindings.IMFDecoder.GetReferenceStatus | imf-decoder/src/wasm/bindings.rs:816-825 | reports the feature count iff reference data is present |
| Bindings.IMFDecoder.SetReferenceData | imf-decoder/src/wasm/bindings.rs:568-596 | a deserialization error, then the first shape mismatch over the `zip` pairs, then a token length other than 32; Ok iff none applies; reference data replaced on Ok and unchanged on every error |
| Bindings.IMFDecoder.LoadReferenceData | imf-decoder/src/wasm/bindings.rs:153-195 | a network failure is an error; Ok iff the response's shapes pass, with no token-length check; reference data replaced only on Ok |
| Bindings.IMFDecoder.PushTokens | imf-decoder/src/wasm/bindings.rs:254-260 | stops at the first token `set_data` panics on and completes iff every token has `width*height*4` values; of the frames before that point, admits the longest prefix that fits the input stage and counts the others as dropped; output, the processed count and the time metrics are unchanged |
| Bindings.IMFDecoder.ProcessTokens | imf-decoder/src/wasm/bindings.rs:242-263 | a deserialization error pushes nothing; otherwise the admission of `PushTokens`, returning the token count when every token fits and `DataLengthPanic` otherwise; output, the processed count and the time metrics are unchanged |
| Bindings.IMFDecoder.FetchBulkTokens | imf-decoder/src/wasm/bindings.rs:198-239 | a network failure pushes and drops nothing; otherwise the same admission and result as `process_tokens`; output, the processed count and the time metrics are unchanged |
| Bindings.IMFDecoder.ProcessBatch | imf-decoder/src/wasm/bindings.rs:809-814 | reports k = min(4, input length) frames processed; exactly those leave input and are appended to output; the processed count rises by k; nothing is admitted or dropped; the time history and `last_process_time` follow the k measured calls |
| Bindings.StartLoop | imf-decoder/src/wasm/bindings.rs:623-669 | starting leaves the loop running; it errs iff the loop was stopped and the request failed; the id and the closure change only when a stopped loop got a request id |
| Bindings.IMFDecoder.StartPlayerLoop | imf-decoder/src/wasm/bindings.rs:623-669 | a no-op returning Ok when already running; otherwise raises the flag and keeps the animation id and closure only when the request succeeded; a failed request is an error after the flag is raised; the outcome is `StartLoop` of the loop state found |
| Bindings.IMFDecoder.StopPlayerLoop | imf-decoder/src/wasm/bindings.rs:690-709 | running flag, animation id and closure all cleared |
| Bindings.IMFDecoder.BackgroundTokenFetch | imf-decoder/src/wasm/bindings.rs:267-317 | the loop issues exactly the chunk requests of the loop specification for its rounds, and leaves the player loop cleared iff it ended by seeing a stop during a wait, otherwise unchanged |
| Bindings.IMFDecoder.StartPlaybackAsWritten | imf-decoder/src/wasm/bindings.rs:603-621 | reference errors abort before any request or loop, leaving the queue and the loop state unchanged; accepted reference data is stored; only [0, 89] is requested, never anything at or past 90, and the prefetch changes the queue exactly as `fetch_bulk_tokens` does; a failed (`NetworkFailed`) or panicking (`DataLengthPanic`) prefetch aborts before the player loop; on success result and loop state are those of `start_player_loop`; render context and diagnostic flag untouched |
| Bindings.IMFDecoder.StartPlayback | imf-decoder/src/wasm/bindings.rs:603-621 | as intended: the prefetch [0, 89] is followed by the background chunks from 90 on; reference data, queue and error results as in the as-written method; on success the result is that of `start_player_loop`, and the loop state is what it leaves unless the background loop saw a stop, which leaves it cleared |
| Bindings.IMFDecoder.RenderFrame | imf-decoder/src/wasm/bindings.rs:711-724 | without a render context an error and no queue change; otherwise the input head, moved to output and counted as processed, or the zero frame with no stage change when input is empty; the measured time, if any, is recorded; nothing is admitted or dropped |
| Bindings.PrefetchMeetsBackground | imf-decoder/src/wasm/bindings.rs:611-615 | the prefetch and the first background chunk meet without gap or overlap, at [90, 189] |
| Bindings.AsWrittenNeverFetchesPastPrefetch | imf-decoder/src/wasm/bindings.rs:615 | the as-written requests miss [90, 189], which the intended ones contain |
| Worker.Step | imf-decoder/src/decoder/worker.rs:63-109 | a failing command changes nothing and posts nothing; `initialize` always succeeds into `Inited` |
| Worker.OnlyIdleOrInitedReachable | imf-decoder/src/decoder/worker.rs:5-14 | from `Idle` or `Inited`, any command sequence stays within those two statuses |
| Worker.StartNeverSucceeds | imf-decoder/src/decoder/worker.rs:76-109 | from a fresh worker, `start`, `pause` and `process_frame` always fail |
| Worker.PauseLeftOnlyByInitialize | imf-decoder/src/decoder/worker.rs:63-96 | `Pause` and `Closed` are left only through `initialize` |
| Worker.DecoderWorker.constructor | imf-decoder/src/decoder/worker.rs:43-56 | status `Idle`, a 1920x1080 decoder, and exactly one message, `DecoderCreated` |
| Worker.DecoderWorker.Initialize | imf-decoder/src/decoder/worker.rs:63-74 | from any status, ends in `Inited` after posting `DecoderInit` then `DecoderInited` |
| Worker.DecoderWorker.Start | imf-decoder/src/decoder/worker.rs:76-85 | an error with no effect unless `Ready`; from `Ready`, `Open` plus `DecoderStarted` |
| Worker.DecoderWorker.Pause | imf-decoder/src/decoder/worker.rs:87-96 | an error with no effect unless `Open`; from `Open`, `Pause` plus `DecoderPaused` |
| Worker.DecoderWorker.ProcessFrame | imf-decoder/src/decoder/worker.rs:98-109 | an error unless `Open`; status never changes; a deserialization failure or a token of the wrong length is an error that posts nothing; `DecodedVideoFrame` is posted iff the tokens decode and fit; the queue is unchanged when not `Open` or not deserialized, as `process_tokens` leaves it after a panic, and otherwise all tokens pushed then one batch of up to 4 moved to output with its timing recorded |
| Player.Step | imf-decoder/src/player.rs:38-73 | a failing command changes nothing; a status change needs success, a worker and a delivered post |
| Player.NeverDestroyed | imf-decoder/src/player.rs:4-11 | no command sequence reaches `Destroyed` |
| Player.TransitionsAreGuarded | imf-decoder/src/player.rs:38-73 | `Playing` is entered only by `start` from `Ready`, `Pause` only by `pause` from `Playing`, `Ready` only by `initialize`; `Pause` is left only by `initialize` |
| Player.Player.constructor | imf-decoder/src/player.rs:24-35 | status `Idle` with a worker and nothing posted |
| Player.Player.Initialize | imf-decoder/src/player.rs:38-45 | no guard; a delivered post gives `Ready`; a failed post returns an error before the status changes |
| Player.Player.Start | imf-decoder/src/player.rs:48-59 | an error with no effect unless `Ready`; from `Ready`, a delivered "start" gives `Playing` |
| Player.Player.Pause | imf-decoder/src/player.rs:62-73 | an error with no effect unless `Playing`; from `Playing`, a delivered "pause" gives `Pause` |
| Tensors.ProductConcat | imf-decoder/src/decoder/tensor.rs:16-18 | the element count of a concatenated shape is the product of the parts' counts |
| Tensors.ProductZero | imf-decoder/src/decoder/tensor.rs:16-18 | a shape describes no elements iff one axis is 0 |
| Tensors.Tensor.constructor | imf-decoder/src/decoder/tensor.rs:11-14 | data and shape stored unchanged and unchecked |
| Tensors.Tensor.Reshape | imf-decoder/src/decoder/tensor.rs:16-20 | requires the element counts to agree (the assert); only the shape changes; the tensor is empty iff the new shape has a zero axis |
| Tensors.Tensor.GetData | imf-decoder/src/decoder/tensor.rs:22-24 | returns a sequence equal to the data |
| Tensors.MergeLeadingAxes | imf-decoder/src/decoder/tensor.rs:16-18 | merging two leading axes keeps the element count, so `reshape` accepts the merged shape |
| Tensors.MergeAndRestore | imf-decoder/src/decoder/tensor.rs:16-20 | reshaping a consistent tensor to its shape with the two leading axes merged and back is accepted both times and restores shape and data |
| DecoderMetrics.Metrics.constructor | imf-decoder/src/utils/mod.rs:16-23 | three empty series and window 60 |
| DecoderMetrics.Metrics.RecordFrameTime | imf-decoder/src/utils/mod.rs:25-30 | only the frame-time series slides, to the newest 60 samples of its history |
| DecoderMetrics.Metrics.RecordQueueSize | imf-decoder/src/utils/mod.rs:32-37 | only the queue-size series slides, to the newest 60 samples of its history |
| DecoderMetrics.Metrics.RecordProcessingTime | imf-decoder/src/utils/mod.rs:39-44 | only the processing-time series slides, to the newest 60 samples of its history |
| DecoderMetrics.Metrics.AverageFps | imf-decoder/src/utils/mod.rs:46-51 | 0 with no samples; otherwise 1000 over the mean frame time, and None exactly when that mean is 0 |
| DecoderMetrics.WindowScenario | imf-decoder/src/utils/mod.rs:25-30 | after 61 recordings the series holds samples 1 to 60 |
| MemoryCounters.WrappingAdd | imf-decoder/src/utils/memory.rs:17 | 32-bit `usize` addition: exact below 2^32, otherwise wrapped below the first operand |
| MemoryCounters.WrappingSub | imf-decoder/src/utils/memory.rs:33 | 32-bit `usize` subtraction: exact when no underflow, otherwise wrapped above the first operand |
| MemoryCounters.Memory.constructor | imf-decoder/src/utils/memory.rs:9-14 | both counters 0 |
| MemoryCounters.Memory.Allocate | imf-decoder/src/utils/memory.rs:16-30 | `allocated` grows by `size` (wrapping); `peak` becomes the larger of itself and the new total, so it never drops and bounds `allocated` |
| MemoryCounters.Memory.Deallocate | imf-decoder/src/utils/memory.rs:32-34 | `allocated` shrinks by `size` (wrapping); `peak` untouched |
| MemoryCounters.ApplyAll | imf-decoder/src/utils/memory.rs:16-34 | any sequence of calls keeps both counters within `usize` |
| MemoryCounters.PeakIsMonotoneAndBounds | imf-decoder/src/utils/memory.rs:16-34 | over any call sequence that never frees more than is allocated, `peak` never decreases and stays at or above `allocated` |
| MemoryCounters.AllocatedIsBalance | imf-decoder/src/utils/memory.rs:16-34 | without wrap-around, `allocated` is the running sum of allocations minus deallocations |
| PerformanceMonitoring.FpsSample | imf-decoder/js/utils/performance-monitor.ts:24-27 | `1000 / (now - last)`: infinite iff the interval is 0, else the value times the interval is 1000 |
| PerformanceMonitoring.Mean | imf-decoder/js/utils/performance-monitor.ts:53-57 | the mean of a series is infinite iff one of its samples is |
| PerformanceMonitoring.PushKeepsWindows | imf-decoder/js/utils/performance-monitor.ts:43-48 | pushing onto one series keeps every series the newest 60 samples of its history |
| PerformanceMonitoring.PerformanceMonitor.constructor | imf-decoder/js/utils/performance-monitor.ts:5-18 | four empty series and no previous frame time |
| PerformanceMonitoring.PerformanceMonitor.PushMetric | imf-decoder/js/utils/performance-monitor.ts:43-48 | only the named series changes; it slides, stays within 60 and ends with the new sample |
| PerformanceMonitoring.PerformanceMonitor.RecordMetrics | imf-decoder/js/utils/performance-monitor.ts:20-35 | an fps sample only when `lastFrameTime > 0`; `lastFrameTime` becomes `now`; exactly one inference, memory and tensor-count sample |
| PerformanceMonitoring.PerformanceMonitor.RecordMemoryUsage | imf-decoder/js/utils/performance-monitor.ts:37-41 | one memory and one tensor-count sample; the other series are untouched |
| PerformanceMonitoring.PerformanceMonitor.GetAverageMetrics | imf-decoder/js/utils/performance-monitor.ts:50-61 | a key exactly for each non-empty series, with an infinite average iff that series holds an infinite sample |
| PerformanceMonitoring.PerformanceMonitor.Reset | imf-decoder/js/utils/performance-monitor.ts:75-80 | four empty series, `lastFrameTime` 0, and no averages |
| PerformanceMonitoring.FirstFrameScenario | imf-decoder/js/utils/performance-monitor.ts:20-35 | the first recording adds no fps sample and the second adds one |
| NeuralCodec.ShapeOf | src/components/NeuralVideoCodec.ts:638-646 | non-empty iff the value is an array, led by its length; `[]` has shape `[0]` |
| NeuralCodec.GetShape | src/components/NeuralVideoCodec.ts:638-646 | the loop returns the lengths along the first-element chain |
| NeuralCodec.VerifyShape | src/components/NeuralVideoCodec.ts:632-636 | true iff the detected shape equals the target, in rank and on every axis |
| NeuralCodec.At | src/components/NeuralVideoCodec.ts:605-613 | indexing a flat array, `undefined` past its end |
| NeuralCodec.Build4DAt | src/components/NeuralVideoCodec.ts:600-619 | element (b, c, h, w) of the result is flat element ((b*C + c)*H + h)*W + w, and every level has its axis length |
| NeuralCodec.Build4DHasTargetShape | src/components/NeuralVideoCodec.ts:591-621 | with non-empty axes and scalar data, the built array has the target shape, so reshaping it again returns it unchanged |
| NeuralCodec.ReshapeFeatureData | src/components/NeuralVideoCodec.ts:591-621 | input returned unchanged when it has the target shape; otherwise the B x C x H x W array read from the flat data with one running index |
| NeuralCodec.DefaultBufferSize | src/components/NeuralVideoCodec.ts:89-97 | `bufferSize` or 30 when it is missing or 0 |
| NeuralCodec.Evict | src/components/NeuralVideoCodec.ts:1213-1219 | keeps exactly the buffered frames at or above the bound, unchanged |
| NeuralCodec.NextToBuffer | src/components/NeuralVideoCodec.ts:1222-1226 | one past the highest buffered index, or the current frame when the buffer is empty |
| NeuralCodec.IntendedStepsProcessEveryFrame | src/components/NeuralVideoCodec.ts:1066-1070 | with the intended stop rule, successful steps process every frame from the start to `frameCount - 1` once, in order |
| NeuralCodec.AsWrittenStepsSkipLastFrame | src/components/NeuralVideoCodec.ts:1066-1070 | as written, successful steps stop before frame `frameCount - 1` |
| NeuralCodec.OneFrameVideoIsNeverShown | src/components/NeuralVideoCodec.ts:1066-1070 | a one-frame video stops at once as written but shows frame 0 with the intended rule |
| NeuralCodec.NeuralVideoCodec.constructor | src/components/NeuralVideoCodec.ts:86-119 | an empty buffer whose capacity and size are `bufferSize || 30`, frame 0, not playing |
| NeuralCodec.NeuralVideoCodec.ApplyServerConfig | src/components/NeuralVideoCodec.ts:426-431 | a server configuration caps the buffer size at the smaller of the two, and the capacity follows |
| NeuralCodec.NeuralVideoCodec.Pause | src/components/NeuralVideoCodec.ts:949-951 | playback stops |
| NeuralCodec.NeuralVideoCodec.Resume | src/components/NeuralVideoCodec.ts:953-958 | playing afterwards; the loop is started only when not already playing |
| NeuralCodec.NeuralVideoCodec.Stop | src/components/NeuralVideoCodec.ts:960-964 | not playing, buffer and queue emptied |
| NeuralCodec.NeuralVideoCodec.EnsureFrameLoaded | src/components/NeuralVideoCodec.ts:347-370 | a buffered frame is returned untouched; otherwise non-empty fetched data is stored and returned; an existing entry is never replaced |
| NeuralCodec.NeuralVideoCodec.HandleFrameData | src/components/NeuralVideoCodec.ts:871-884 | stores pushed data only for an index not yet buffered |
| NeuralCodec.NeuralVideoCodec.PrefetchFrames | src/components/NeuralVideoCodec.ts:1030-1061 | existing entries are kept; `processWithCache` throwing ends the loop and reports that index, which was a qualifying one; before that point (or over the whole window) a new entry appears exactly for the unbuffered indices that lie in a cached range and have a token-cache entry, holding the rendered data; direct fetches are discarded |
| NeuralCodec.NeuralVideoCodec.EvictBelow | src/components/NeuralVideoCodec.ts:1213-1219 | the buffer becomes the eviction of the old buffer |
| NeuralCodec.NeuralVideoCodec.NextFrameToBuffer | src/components/NeuralVideoCodec.ts:1222-1226 | the loop finds one past the highest buffered index |
| NeuralCodec.NeuralVideoCodec.MaintainBuffer | src/components/NeuralVideoCodec.ts:1211-1253 | evicts below `currentFrame - 5`, then loads the next frame only when it is before the end and within `capacity` of the current frame; nothing below the bound stays |
| NeuralCodec.NeuralVideoCodec.ProcessNextFrame | src/components/NeuralVideoCodec.ts:1066-1124 | as written, an empty queue at or past frame `frameCount - 1` stops playback and clears buffer and queue, leaving the token cache; otherwise success emits `frameReady`, dequeues and advances by one, and failure counts a drop and dequeues; server tokens are cached; cached ranges and loop starts are never touched |
| RtcCodec.SplitCount | src/components/RTCNeuralCodec.ts:550-552 | at least 1; exactly 1 below twice the size limit; otherwise the floor of `4 * size / MAX_TENSOR_SIZE` |
| RtcCodec.SliceLengthIsCeiling | src/components/RTCNeuralCodec.ts:553 | the slice length is the ceiling of `n / splitDim` |
| RtcCodec.SplitTensor4D | src/components/RTCNeuralCodec.ts:544-574 | the loop yields `splitDim` slices, slice i starting at `i*s` and ending at `min(i*s + s, n)` |
| RtcCodec.SlicesPartitionAxis | src/components/RTCNeuralCodec.ts:555-566 | every index of the first axis lies in exactly one slice |
| RtcCodec.SlicesAreAdjacent | src/components/RTCNeuralCodec.ts:555-566 | consecutive slices meet while they start inside the axis |
| RtcCodec.SliceExtentSign | src/components/RTCNeuralCodec.ts:555-566 | a slice's extent is negative iff it starts past the end of the axis |
| RtcCodec.ThreeWaySplitOfOneRow | src/components/RTCNeuralCodec.ts:555-566 | an axis of length 1 cut three ways has a last slice of extent -1 |
| RtcCodec.ValidateReferenceFeatures | src/components/RTCNeuralCodec.ts:1611-1632 | true iff there are exactly four features, each with a present, undisposed tensor |
| RtcCodec.KeptTokensConcat | src/components/RTCNeuralCodec.ts:1644-1655 | the token filter keeps map order: filtering a concatenation filters each part |
| RtcCodec.KeptTokensWellFormed | src/components/RTCNeuralCodec.ts:1644-1655 | every kept token has 32 values, and nothing is dropped when every entry has 32 |
| RtcCodec.ChunksPartitionBatch | src/components/RTCNeuralCodec.ts:1665-1667 | the chunks are non-empty, at most 10 long, `ceil(n/10)` in number, and concatenate back to the batch |
| RtcCodec.KeepWellFormedTokens | src/components/RTCNeuralCodec.ts:1644-1655 | the first loop keeps exactly the filtered tokens |
| RtcCodec.ProcessTokenBatch | src/components/RTCNeuralCodec.ts:1634-1684 | the processed chunks are a prefix of the chunking; it succeeds iff inference passes every chunk, else it stops at the first failing one; report k is `min(10(k+1), n)` of n |
| RtcCodec.InferChunks | src/components/RTCNeuralCodec.ts:1665-1679 | the chunk loop: inference on each chunk in order, a report after each passing chunk, and a stop at the first failure; the processed chunks are a prefix of the chunking |
| RtcCodec.FailingChunkStopsBatch | src/components/RTCNeuralCodec.ts:1665-1679 | a processed prefix ending in a failing chunk means not every chunk passes |
| RtcCodec.ChunkStep | src/components/RTCNeuralCodec.ts:1666-1667 | the chunk at i is the head of the chunking of the rest |
| RtcCodec.RetryDelay | src/components/RTCNeuralCodec.ts:792-797 | the pre-jitter delay lies between 1 s and 30 s |
| RtcCodec.RetryDelayGrows | src/components/RTCNeuralCodec.ts:792-797 | the delay never shrinks as the retry count grows |
| RtcCodec.RetryDelaysOfFiveAttempts | src/components/RTCNeuralCodec.ts:1776-1800 | the five attempts wait 2, 4, 8, 16 and 30 seconds |
| RtcCodec.Reconnect | src/components/RTCNeuralCodec.ts:1776-1790 | "maximum retries" is reported iff five attempts were made; the count rises by at most one |
| RtcCodec.RetryStepsKeepInvariant | src/components/RTCNeuralCodec.ts:1776-1871 | every retry step, including a fired timer with any reconnect outcome, keeps at most five attempts and a timer pending whenever reconnecting; a fired timer always leaves `isReconnecting` false; `handleReconnect` and the signaling-error dispatch also keep "pending exactly while reconnecting" |
| RtcCodec.RetryFiredOutcomes | src/components/RTCNeuralCodec.ts:1381-1420 | a fired timer whose `connect()` fails (setup, socket, or a restored playback) leaves attempt 1 pending with `isReconnecting` false, whatever the count was, so the timer and the flag disagree; a success resets the count to 0; a socket that is not CLOSED only clears timer and flag |
| RtcCodec.IntendedRetryContinuesCycle | src/components/RTCNeuralCodec.ts:1802-1814 | under the intended rule a failed retry below five attempts schedules the next one with the grown delay, a success or the fifth failure ends the cycle, and both retry invariants are kept |
| RtcCodec.IntendedRetriesReachMaximum | src/components/RTCNeuralCodec.ts:1776-1814 | under the intended rule, consecutive failed retries from attempt n reach attempt n+k while that is at most five, and then stop with nothing pending |
| RtcCodec.AsWrittenRetriesNeverEnd | src/components/RTCNeuralCodec.ts:1381-1420 | as written, any number of failing retries leaves the count at 1 with another retry pending, so the five-attempt cap is never reached |
| RtcCodec.OneClosureRetryCycle | src/components/RTCNeuralCodec.ts:1776-1814 | after one abnormal closure, failing retries go on without end at attempt 1 as written, but make five attempts and stop as intended |
| RtcCodec.SignalingErrorOutcomes | src/components/RTCNeuralCodec.ts:1846-1871 | 1000 does nothing; 1001 and 1006 reconnect; other codes emit the error and reconnect only below five attempts |
| RtcCodec.ClosuresStopAfterFiveAttempts | src/components/RTCNeuralCodec.ts:1776-1871 | repeated abnormal closures whose retries find no CLOSED socket make one attempt each, up to five, then none |
| RtcCodec.ClosuresRestartAtOne | src/components/RTCNeuralCodec.ts:1381-1420 | repeated abnormal closures whose retries reach `connect()` and fail never accumulate attempts: each round ends at attempt 1 with a retry pending |
| RtcCodec.ClosuresRestartAtOneFrom | src/components/RTCNeuralCodec.ts:1846-1871 | from attempt 1 with a retry pending, a closure and its failed retry restore the same state |
| RtcCodec.SixthClosureReportsMaxRetries | src/components/RTCNeuralCodec.ts:1777-1781 | after five attempts a closure only reports the maximum |
| RtcCodec.PrefetchSize | src/components/RTCNeuralCodec.ts:1568-1572 | `ceil(capacity * 1.5)` |
| RtcCodec.RtcNeuralCodec.constructor | src/components/RTCNeuralCodec.ts:271 | stopped, no video, no retries, capacity `bufferSize || 60` |
| RtcCodec.RtcNeuralCodec.HandleReconnect | src/components/RTCNeuralCodec.ts:1776-1815 | a no-op when reconnecting or at five attempts (reporting the maximum then); otherwise one more attempt with a timer at the capped delay |
| RtcCodec.RtcNeuralCodec.ConnectAttempt | src/components/RTCNeuralCodec.ts:1381-1420 | `connect()` run by a retry: the retry state becomes `ConnectSettled` of the outcome (count reset, `cleanup(true)` unless one is running, the failing socket's own `handleReconnect`, or `onopen`'s reset), at most attempt 1, no event, and `cleanup`'s effects on the other fields |
| RtcCodec.RtcNeuralCodec.RetryTimerFired | src/components/RTCNeuralCodec.ts:1802-1831 | the retry state follows `RetryFired` for the reconnect outcome (`connect()`'s count reset and `cleanup(true)`, the new socket's own `handleReconnect`, the catch and `finally`); no event; `cleanup`'s effects on in-flight inferences, video id and released references whenever `connect()` runs and no cleanup was in progress |
| RtcCodec.RtcNeuralCodec.HandleSignalingError | src/components/RTCNeuralCodec.ts:1846-1871 | the retry state and events follow the signaling-error dispatch |
| RtcCodec.RtcNeuralCodec.Pause | src/components/RTCNeuralCodec.ts:1076-1111 | only from PLAYING: PAUSED at the audio time and frame `floor(t * fps)`, with a metrics event |
| RtcCodec.RtcNeuralCodec.Stop | src/components/RTCNeuralCodec.ts:1137-1147 | STOPPED, with pause point, frame index, video and in-flight inferences cleared |
| RtcCodec.RtcNeuralCodec.StartPlayback | src/components/RTCNeuralCodec.ts:1531-1609 | the same paused video resumes; otherwise success needs the model, valid reference features, a prefetch of [0, p-1] and audio; any failure leaves STOPPED with no video or frame index and an error event; a failure after the model check still records the prefetch once the features validate and the background start once the prefetch succeeded; without the model neither is recorded |
| RtcCodec.RtcNeuralCodec.Cleanup | src/components/RTCNeuralCodec.ts:1874-1954 | re-entry guarded; clears retries and in-flight inferences; releases and forgets a truthy video id; keeps the model iff asked; keeps the retry invariant; playback state, pause position and last frame index untouched |
| RtcCodec.PauseResumeScenario | src/components/RTCNeuralCodec.ts:1076-1147 | a pause at 2.5 s of 24 fps survives a resume of the same video, and `stop` clears it |
| ServiceWorker.NatToString | public/service-worker.js:21 | decimal digits, with no leading zero above 9 |
| ServiceWorker.GenerateShardUrls | public/service-worker.js:15-24 | the manifest URL followed by shard URLs 1 to n, in order |
| ServiceWorker.NatToStringInjective | public/service-worker.js:21 | different shard numbers are spelled differently |
| ServiceWorker.ShardUrlsDistinct | public/service-worker.js:15-24 | the listed URLs are pairwise distinct, so each file is cached once |
| ServiceWorker.ShardUrlsDiffer | public/service-worker.js:21 | two different shard numbers give two different shard URLs |
| ServiceWorker.DigitsBeforeSuffix | public/service-worker.js:21 | a shard URL determines its shard number |
| ServiceWorker.ManifestIsNotAShard | public/service-worker.js:18-21 | the manifest URL differs from every shard URL |
| ServiceWorker.ModelUrlsHas61Entries | public/service-worker.js:27 | `MODEL_URLS` has 61 entries, the last for shard 60 of 60 |
| ServiceWorker.StaleCaches | public/service-worker.js:111-115 | a cache is deleted iff it has the model-cache prefix and is not the current cache |
| ServiceWorker.ActivationKeepsCurrentCache | public/service-worker.js:42-55 | the current cache and caches outside the prefix survive activation; an older version does not |
| ServiceWorker.HandleFetch | public/service-worker.js:58-95 | only model paths are intercepted; a hit is served from the cache; a failed or non-ok fetch is an error that caches nothing; an ok response on a miss is returned and cached under the path |
| ServiceWorker.SecondFetchHitsCache | public/service-worker.js:64-87 | once fetched from the network, a model file is served from the cache whatever the network then does |
| LayerConfigFix.FixLayer | src/utils/TensorFlowModelLoaderLayers.ts:28-32 | an input layer gets the fixed batch input shape; any other layer is unchanged |
| LayerConfigFix.FixNodeData | src/utils/TensorFlowModelLoaderLayers.ts:35-37 | a truthy non-array node data is wrapped in a list; anything else is unchanged |
| LayerConfigFix.ModelJson.FixModelConfig | src/utils/TensorFlowModelLoaderLayers.ts:24-40 | mutates the layers and the node data in place as specified and returns the same object |
| LayerConfigFix.FixedModelIsWellShaped | src/utils/TensorFlowModelLoaderLayers.ts:28-37 | afterwards every input layer has the fixed shape, others are untouched, and node data is never a bare object |
| LayerConfigFix.FixIsIdempotent | src/utils/TensorFlowModelLoaderLayers.ts:24-40 | repairing twice is the same as repairing once |
| VideoCodecTest.InvertColors | test/video-codec.js:49-53 | the array afterwards is the inversion of the old one: colour bytes mirrored, alpha untouched, length unchanged |
| VideoCodecTest.InvertedIsInvolution | test/video-codec.js:49-53 | inverting twice restores the buffer |
| VideoCodecTest.InvertedKeepsAlpha | test/video-codec.js:49-53 | every alpha byte is unchanged and every colour byte plus its new value is 255 |

## Left out

- GPU work is not modelled: the WebGPU render context, texture upload and the render pass. `render_frame` is modelled only up to its choice of frame.
- Canvas drawing, tfjs and ONNX inference, and model loading are left out. Inference and drawing enter only as success flags or oracles.
- Network and host I/O become parameters: the HTTP requests, the WebSocket/WebRTC signalling, the Cache API and `postMessage`. The service worker's install step, which hands `MODEL_URLS` to `cache.addAll`, is left out beyond the list itself.
- Time and randomness are not modelled: `performance.now()` and `Date.now()` values are parameters, and the 1 s wait between background requests and the 16.666 ms frame gate are left out. The random jitter that `getRetryDelay` adds is left out; only the delay before jitter is modelled.
- Floating point is not modelled: the f32 `queue_utilization` is kept as its integer numerator, and averages use reals without rounding. `FloatToByte` does not model NaN, which the Rust cast maps to 0.
- Concurrency is modelled one call at a time. This covers the `spawn_local` task, the `requestAnimationFrame` closure over a raw pointer, the atomic counters and their compare-exchange loop, and the interleaving of the TypeScript `await`s.
- Tensors.Tensor.Reshape: the element count is an unbounded product; a `usize` overflow of `iter().product()` is not modelled.
- NeuralCodec.NeuralVideoCodec.ApplyServerConfig: a server configuration without a `bufferSize` makes `Math.min` return NaN; this is not modelled, and the server size is taken as present whenever a configuration is.
- NeuralCodec.NeuralVideoCodec.PrefetchFrames: the closing `updateBufferStatus` (buffer-health metric and `bufferStatus` event) and the entries' `Date.now()` timestamps are not modelled; the direct fetches are not recorded, since their results are discarded and `fetchFrame` catches its own errors.
- NeuralCodec.ReshapeFeatureData: requires a four-axis target, because the only caller passes one of four fixed 4-D shapes.
- RtcCodec.SplitTensor4D models only the slice ranges. What `tensor.slice` does with a negative extent ("to the end") is left out, as are the tensor copies.
- RtcCodec.RtcNeuralCodec.StartPlayback: the outcomes of awaited calls are parameters. This covers the data-channel sends and the audio element.
- RtcCodec.RtcNeuralCodec.RetryTimerFired: how `reconnect()` goes is a parameter. The `startPlayback` it makes to restore playback enters only as whether it throws; its effects on playback state, prefetches and events are not applied. A later `onclose` of the failed socket is a separate `HandleSignalingError` call. The delay's random jitter is not modelled.
- RtcCodec.RtcNeuralCodec.Pause and RtcCodec.RtcNeuralCodec.Stop model the later definitions in the file, which override the earlier ones at run time. The earlier duplicates are not modelled.
- The background fetch of src/components/RTCNeuralCodec.ts (lines 1160-1181) is not modelled: it tests an `isPlaying` field that is never declared. The Rust loop in bindings.rs is the modelled prefetch loop.
- Player.Player.constructor models `Player::new` after `Worker::new` succeeded; the failure path is not modelled.
- Bindings: the `HashMap` of tokens is a sequence of entries in an arbitrary order, so no ordering by frame index is claimed.
- Bindings: the second queue inside `IMFDecoderInner`, the `Clone` implementation and `get_capabilities` are not modelled. Only `self.frame_queue` feeds rendering and token admission.
- Bindings.IMFDecoder.PushTokens: the `set_data` panic is a wasm trap that the JavaScript caller sees as an exception. The model returns `DataLengthPanic` with the frames pushed so far kept; what the trap does to later calls on the instance is not modelled.
- Bindings.IMFDecoder.BackgroundTokenFetch models only the chunk requests; what the answers push is modelled separately by `FetchBulkTokens`.
- PerformanceMonitoring: `getMetricsReport` is string formatting with `toFixed` and is left out.
- Layers loader: the other loader classes and the model load itself are left out.
- Video test page: the frame capture, drawing and encoding around the inversion loop are left out.

## Findings

| source | as written | input that shows it | evidently intended | confidence | as-written member | corrected member |
|---|---|---|---|---|---|---|
| imf-decoder/src/wasm/bindings.rs:615 | `self.start_background_token_fetching(video_id, prefetch_size);` calls an `async fn` without `.await`. The returned future is dropped unpolled, so `spawn_local` never runs and no background chunk is ever requested. | any successful `start_playback`: frames 90 and later are never requested | the background loop runs and requests [90, 189], [190, 289], … after the prefetch [0, 89] | medium, not executed | Bindings.IMFDecoder.StartPlaybackAsWritten | Bindings.IMFDecoder.StartPlayback |
| src/components/NeuralVideoCodec.ts:1068 | with an empty queue, playback stops once `currentFrame >= frameCount - 1`, before the last frame is processed | `frameCount = 1`, `currentFrame = 0`, empty processing queue: playback stops and frame 0 is never shown | stop only once `currentFrame >= frameCount`, so every frame is processed | medium, not executed | NeuralCodec.AsWrittenStepsSkipLastFrame | NeuralCodec.IntendedStepsProcessEveryFrame |
| src/components/RTCNeuralCodec.ts:1384 | every retry runs `connect()`, which sets `retryCount` to 0 and calls `cleanup(true)` (lines 1884-1891 clear the count again). A failing new socket then schedules attempt 1 from its own handler (lines 1417, 1764, 1773), so the five-attempt cap is never reached. The timer's `finally` (line 1812) then clears `isReconnecting` while that retry is pending. | a fresh connection closed with code 1006, after which every retry's new socket fails: retries go on without end, each at attempt 1 with a 2 s delay, and "maximum retries" is never reported | at most five attempts with growing delays, then the cycle stops and reports the maximum | medium, not executed | RtcCodec.AsWrittenRetriesNeverEnd | RtcCodec.IntendedRetriesReachMaximum |

Both halves of each finding are in the model:
- `Bindings.AsWrittenNeverFetchesPastPrefetch` exhibits the first discrepancy, and `Bindings.PrefetchMeetsBackground` proves the intended prefetch and loop contiguous.
- `NeuralCodec.OneFrameVideoIsNeverShown` exhibits the second. `NeuralCodec.NeuralVideoCodec.ProcessNextFrame` keeps the stop rule as written, `NeuralCodec.StopsAsWritten`. The corrected rule `NeuralCodec.Stops` is the one under which `NeuralCodec.IntendedStepsProcessEveryFrame` proves every frame processed.
- `RtcCodec.AsWrittenRetriesNeverEnd` and the second clause of `RtcCodec.OneClosureRetryCycle` exhibit the third, and `RtcCodec.RetryFiredOutcomes` shows the pending timer with `isReconnecting` cleared. `RtcCodec.RtcNeuralCodec.RetryTimerFired` keeps the code as written, `RtcCodec.RetryFired`. The corrected rule `RtcCodec.RetryFiredIntended` is the one under which `RtcCodec.IntendedRetryContinuesCycle` and `RtcCodec.IntendedRetriesReachMaximum` prove the cycle makes five attempts and stops, with a timer pending exactly while reconnecting.

=== FILE: bindings.dfy ===
/** The modellable part of `IMFDecoder` (imf-decoder/src/wasm/bindings.rs):
    reference-data validation, token-to-frame admission into the frame queue,
    the chunked prefetch loop, the player-loop flags and the render path's
    choice of frame. Network, GPU and host scheduling enter as parameters. */
module Bindings {
  import opened Common
  import opened Frames
  import opened FrameQueue

  /** `QUEUE_SIZE` and `BATCH_SIZE` in `IMFDecoder::new`. */
  const QUEUE_SIZE: nat := 60
  const BATCH_SIZE: nat := 4
  /** Tokens requested per background fetch. */
  const CHUNK_SIZE: nat := 100
  /** Required length of the reference token. */
  const REFERENCE_TOKEN_LENGTH: nat := 32

  /** The shapes the four reference feature tensors must have, in order. */
  const EXPECTED_SHAPES: seq<seq<nat>> :=
    [[1, 128, 64, 64], [1, 256, 32, 32], [1, 512, 16, 16], [1, 512, 8, 8]]

  datatype ReferenceFeature = ReferenceFeature(tensor: seq<real>, shape: seq<nat>)
  datatype ReferenceData = ReferenceData(features: seq<ReferenceFeature>, token: seq<real>)

  /** A decoded `BulkTokenResponse`. The `HashMap` of tokens is given as its
      entries in whatever order the map iterates them. */
  datatype BulkTokenResponse = BulkTokenResponse(tokens: seq<(nat, seq<real>)>, totalFrames: nat, processedFrames: nat)

  datatype DecoderError =
    | DeserializeFailed
    | InvalidShape(actual: seq<nat>, expected: seq<nat>)
    | BadReferenceToken
    | NetworkFailed
    | NoRenderContext
    | AnimationRequestFailed
    /** The `assert_eq!` of `Frame::set_data` failed: a token whose length is
        not `width * height * 4`. */
    | DataLengthPanic

  /** What `get_reference_status` reports. */
  datatype ReferenceStatus = Loaded(featureCount: nat) | NotLoaded

  /** What `window.request_animation_frame` did: no window at all, an error,
      or a request id. */
  datatype AnimationRequest = NoWindow | RequestFailed | Requested(id: int)

  /** One round of the background fetch loop as the environment decides it:
      whether the chunk request succeeded, and whether another task cleared
      the running flag (`stop_player_loop`) while the loop was waiting. */
  datatype FetchRound = FetchRound(ok: bool, stoppedDuringWait: bool)

  /** The player-loop part of the decoder's state: the running flag, the
      animation-frame id and whether the animation closure is held. */
  datatype PlayerLoop = PlayerLoop(running: bool, animationId: Option<int>, hasClosure: bool)

  /** The player-loop state `stop_player_loop` leaves. */
  const STOPPED_LOOP := PlayerLoop(false, None, false)

  /** What `start_player_loop` reports and leaves, from the state it finds. */
  function StartLoop(s: PlayerLoop, request: AnimationRequest): (out: (Result<(), DecoderError>, PlayerLoop))
    ensures out.1.running
    ensures out.0.Err? <==> !s.running && request.RequestFailed?
    ensures out.1.animationId == (if !s.running && request.Requested? then Some(request.id) else s.animationId)
    ensures out.1.hasClosure == ((!s.running && request.Requested?) || s.hasClosure)
  {
    if s.running then (Ok(()), s)
    else match request
      case NoWindow => (Ok(()), s.(running := true))
      case RequestFailed => (Err(AnimationRequestFailed), s.(running := true))
      case Requested(id) => (Ok(()), PlayerLoop(true, Some(id), true))
  }

  /** Whether a background loop that finds the running flag `running` ends
      by seeing a stop: each successful round may be followed by a stop
      during its wait, which the next check of the flag sees. */
  function LoopStopped(running: bool, rounds: seq<FetchRound>): bool
    decreases |rounds|
  {
    running && rounds != [] && rounds[0].ok
    && (rounds[0].stoppedDuringWait || LoopStopped(true, rounds[1..]))
  }

  /** The index of the first reference feature whose shape differs from the
      expected shape at the same position, looking only at the pairs that
      `zip` forms (the first min(|features|, 4)), starting at `from`. */
  function FirstShapeMismatch(features: seq<ReferenceFeature>, from: nat): (r: Option<nat>)
    decreases |EXPECTED_SHAPES| - from
    ensures r.None? <==>
      forall i :: from <= i < Min(|features|, |EXPECTED_SHAPES|) ==> features[i].shape == EXPECTED_SHAPES[i]
    ensures r.Some? ==>
      && from <= r.value < Min(|features|, |EXPECTED_SHAPES|)
      && features[r.value].shape != EXPECTED_SHAPES[r.value]
      && forall i :: from <= i < r.value ==> features[i].shape == EXPECTED_SHAPES[i]
  {
    if from >= |features| || from >= |EXPECTED_SHAPES| then None
    else if features[from].shape != EXPECTED_SHAPES[from] then Some(from)
    else FirstShapeMismatch(features, from + 1)
  }

  /** The shape check of `set_reference_data` and `load_reference_data` passes. */
  predicate ShapesAccepted(features: seq<ReferenceFeature>)
  {
    FirstShapeMismatch(features, 0).None?
  }

  /** Because of `zip`, any prefix of the expected shapes passes, so fewer
      than four features are accepted ... */
  lemma ShortFeatureListsPass(features: seq<ReferenceFeature>)
    requires |features| <= |EXPECTED_SHAPES|
    requires forall i :: 0 <= i < |features| ==> features[i].shape == EXPECTED_SHAPES[i]
    ensures ShapesAccepted(features)
  {
  }

  /** ... and anything after the fourth feature is never looked at. */
  lemma TrailingFeaturesIgnored(features: seq<ReferenceFeature>, extra: seq<ReferenceFeature>)
    requires |features| == |EXPECTED_SHAPES|
    ensures ShapesAccepted(features + extra) <==> ShapesAccepted(features)
  {
    assert forall i :: 0 <= i < |features| ==> (features + extra)[i] == features[i];
  }

  /** Rust's saturating `f32 as u8` cast: negative values give 0, values of
      255 and above give 255, anything else is truncated toward zero. */
  function FloatToByte(x: real): (b: byte)
    ensures 0.0 <= x < 255.0 ==> b as int == x.Floor
    ensures x < 0.0 ==> b == 0
    ensures x >= 255.0 ==> b == 255
  {
    if x <= 0.0 then 0 else if x >= 255.0 then 255 else x.Floor as byte
  }

  /** The bytes a token becomes: each element cast to `u8`. */
  function TokenBytes(token: seq<real>): (bytes: seq<byte>)
    ensures |bytes| == |token|
    ensures forall i :: 0 <= i < |token| ==> bytes[i] == FloatToByte(token[i])
  {
    seq(|token|, i requires 0 <= i < |token| => FloatToByte(token[i]))
  }

  /** The frame a token becomes: a fresh `width x height` frame whose data is
      the token's bytes. */
  function TokenFrame(width: nat, height: nat, token: seq<real>): FrameValue
  {
    FrameValue(width, height, TokenBytes(token), 0.0, false)
  }

  /** The frames a token map becomes, in iteration order. */
  function TokenFrames(width: nat, height: nat, entries: seq<(nat, seq<real>)>): (frames: seq<FrameValue>)
    ensures |frames| == |entries|
    ensures forall i :: 0 <= i < |entries| ==> frames[i] == TokenFrame(width, height, entries[i].1)
  {
    seq(|entries|, i requires 0 <= i < |entries| => TokenFrame(width, height, entries[i].1))
  }

  /** Every token has the length `Frame::set_data` asserts. */
  predicate TokensFit(width: nat, height: nat, entries: seq<(nat, seq<real>)>)
  {
    forall i :: 0 <= i < |entries| ==> |entries[i].1| == ByteLength(width, height)
  }

  /** How many leading tokens have the length `Frame::set_data` asserts:
      the tokens pushed before the first one that makes it panic. */
  function FitPrefix(width: nat, height: nat, entries: seq<(nat, seq<real>)>): (n: nat)
    ensures n <= |entries|
    ensures forall i :: 0 <= i < n ==> |entries[i].1| == ByteLength(width, height)
    ensures n < |entries| ==> |entries[n].1| != ByteLength(width, height)
    ensures n == |entries| <==> TokensFit(width, height, entries)
    decreases |entries|
  {
    if entries == [] || |entries[0].1| != ByteLength(width, height) then 0
    else
      var rest := FitPrefix(width, height, entries[1..]);
      assert forall i :: 1 <= i < 1 + rest ==> entries[i] == entries[1..][i - 1];
      1 + rest
  }

  /** Initial fetch size of `start_playback`: `(max_size as f32 * 1.5) as usize`. */
  function PrefetchSize(maxSize: nat): nat
  {
    maxSize * 3 / 2
  }

  /** The chunk requested in round `k` of a background loop started at `start`. */
  function Chunk(start: nat, k: nat): (nat, nat)
  {
    (start + k * CHUNK_SIZE, start + k * CHUNK_SIZE + CHUNK_SIZE - 1)
  }

  /** The chunk requests a background loop issues, given the running flag at
      its first check and the environment's rounds: the flag is checked
      before every request, a failed request ends the loop, and a stop during
      the wait is seen at the next check. The loop ends when the script does. */
  function LoopRequests(start: nat, running: bool, rounds: seq<FetchRound>): seq<(nat, nat)>
    decreases |rounds|
  {
    if !running || rounds == [] then []
    else if !rounds[0].ok then [(start, start + CHUNK_SIZE - 1)]
    else [(start, start + CHUNK_SIZE - 1)] + LoopRequests(start + CHUNK_SIZE, !rounds[0].stoppedDuringWait, rounds[1..])
  }

  /** The loop requests chunks strictly in increasing order, each adjacent to
      the previous one, starting at `start`: request k is exactly `Chunk(start, k)`. */
  lemma {:induction false} LoopRequestsAreAdjacentChunks(start: nat, running: bool, rounds: seq<FetchRound>)
    ensures |LoopRequests(start, running, rounds)| <= |rounds|
    ensures forall k :: 0 <= k < |LoopRequests(start, running, rounds)| ==>
      LoopRequests(start, running, rounds)[k] == Chunk(start, k)
    decreases |rounds|
  {
    if running && rounds != [] && rounds[0].ok {
      var rest := LoopRequests(start + CHUNK_SIZE, !rounds[0].stoppedDuringWait, rounds[1..]);
      LoopRequestsAreAdjacentChunks(start + CHUNK_SIZE, !rounds[0].stoppedDuringWait, rounds[1..]);
      forall k | 0 < k <= |rest|
        ensures ([(start, start + CHUNK_SIZE - 1)] + rest)[k] == Chunk(start, k)
      {
        assert ([(start, start + CHUNK_SIZE - 1)] + rest)[k] == rest[k - 1];
        assert Chunk(start + CHUNK_SIZE, k - 1) == Chunk(start, k);
      }
    }
  }

  /** Consequence: consecutive requests are adjacent (`end + 1` is the next
      start) and strictly increasing. */
  lemma LoopRequestsContiguous(start: nat, running: bool, rounds: seq<FetchRound>, k: nat)
    requires k + 1 < |LoopRequests(start, running, rounds)|
    ensures LoopRequests(start, running, rounds)[k].1 + 1 == LoopRequests(start, running, rounds)[k + 1].0
    ensures LoopRequests(start, running, rounds)[k].0 < LoopRequests(start, running, rounds)[k + 1].0
  {
    LoopRequestsAreAdjacentChunks(start, running, rounds);
  }

  /** A request fails only as the last request of the loop, and once the
      flag is down no request is issued. */
  lemma {:induction false} LoopStopsAtFirstFailure(start: nat, running: bool, rounds: seq<FetchRound>, k: nat)
    requires k < |LoopRequests(start, running, rounds)| - 1
    ensures k < |rounds| && rounds[k].ok && !rounds[k].stoppedDuringWait
    decreases |rounds|
  {
    if k > 0 {
      LoopStopsAtFirstFailure(start + CHUNK_SIZE, !rounds[0].stoppedDuringWait, rounds[1..], k - 1);
    }
  }

  class IMFDecoder {
    const width: nat
    const height: nat
    const frameQueue: Queue
    var hasRenderContext: bool
    var animationId: Option<int>
    var hasAnimationClosure: bool
    var isRunning: bool
    var diagnosticMode: bool
    var referenceData: Option<ReferenceData>

    ghost predicate Valid()
      reads this, frameQueue
    {
      frameQueue.Valid() && frameQueue.maxSize == QUEUE_SIZE && frameQueue.batchSize == BATCH_SIZE
    }

    /** The player-loop fields as one value. */
    ghost function Loop(): PlayerLoop
      reads this
    {
      PlayerLoop(isRunning, animationId, hasAnimationClosure)
    }

    /** `IMFDecoder::new`: an empty 60-frame queue with batch size 4, no
        render context, the player loop stopped, no reference data. */
    constructor (width: nat, height: nat)
      ensures Valid() && fresh(frameQueue)
      ensures this.width == width && this.height == height
      ensures frameQueue.Admitted == [] && frameQueue.framesDropped == 0 && frameQueue.framesProcessed == 0
      ensures !hasRenderContext && animationId == None && !hasAnimationClosure && !isRunning
      ensures !diagnosticMode && referenceData == None
    {
      this.width := width;
      this.height := height;
      frameQueue := new Queue(QUEUE_SIZE, BATCH_SIZE);
      hasRenderContext := false;
      animationId := None;
      hasAnimationClosure := false;
      isRunning := false;
      diagnosticMode := false;
      referenceData := None;
    }

    /** `initialize_render_context`: stores the context iff the GPU side
        could create one. */
    method InitializeRenderContext(created: bool) returns (r: Result<(), DecoderError>)
      modifies this`hasRenderContext
      ensures hasRenderContext == (created || old(hasRenderContext))
      ensures r.Ok? <==> created
    {
      if created {
        hasRenderContext := true;
        r := Ok(());
      } else {
        r := Err(NoRenderContext);
      }
    }

    /** `diagnostic_mode` getter. */
    function DiagnosticMode(): bool
      reads this
    {
      diagnosticMode
    }

    /** `diagnostic_mode` setter: the getter returns the value set. */
    method SetDiagnosticMode(value: bool)
      modifies this`diagnosticMode
      ensures DiagnosticMode() == value
    {
      diagnosticMode := value;
    }

    /** `get_reference_status`: the feature count iff reference data is present. */
    function GetReferenceStatus(): (s: ReferenceStatus)
      reads this
      ensures s.Loaded? <==> referenceData.Some?
      ensures s.Loaded? ==> s.featureCount == |referenceData.value.features|
    {
      match referenceData
      case Some(data) => Loaded(|data.features|)
      case None => NotLoaded
    }

    /** `set_reference_data`. `data` is None when deserialization fails.
        The shape check (over the pairs `zip` forms) comes first, then the
        token length; on any error the stored reference data is unchanged. */
    method SetReferenceData(data: Option<ReferenceData>) returns (r: Result<(), DecoderError>)
      modifies this`referenceData
      ensures data.None? ==> r == Err(DeserializeFailed)
      ensures data.Some? && !ShapesAccepted(data.value.features) ==>
        var i := FirstShapeMismatch(data.value.features, 0).value;
        r == Err(InvalidShape(data.value.features[i].shape, EXPECTED_SHAPES[i]))
      ensures data.Some? && ShapesAccepted(data.value.features) && |data.value.token| != REFERENCE_TOKEN_LENGTH ==>
        r == Err(BadReferenceToken)
      ensures r.Ok? <==>
        data.Some? && ShapesAccepted(data.value.features) && |data.value.token| == REFERENCE_TOKEN_LENGTH
      ensures referenceData == if r.Ok? then data else old(referenceData)
    {
      if data.None? {
        return Err(DeserializeFailed);
      }
      var features := data.value.features;
      var i := 0;
      while i < |features| && i < |EXPECTED_SHAPES|
        invariant 0 <= i <= Min(|features|, |EXPECTED_SHAPES|)
        invariant FirstShapeMismatch(features, 0) == FirstShapeMismatch(features, i)
      {
        if features[i].shape != EXPECTED_SHAPES[i] {
          return Err(InvalidShape(features[i].shape, EXPECTED_SHAPES[i]));
        }
        i := i + 1;
      }
      if |data.value.token| != REFERENCE_TOKEN_LENGTH {
        return Err(BadReferenceToken);
      }
      referenceData := data;
      r := Ok(());
    }

    /** `load_reference_data` with the HTTP exchange abstracted: `response` is
        the parsed body, or None when the request, the status or the parse
        failed. Only the shapes are checked here, not the token length. */
    method LoadReferenceData(response: Option<ReferenceData>) returns (r: Result<(), DecoderError>)
      modifies this`referenceData
      ensures response.None? ==> r == Err(NetworkFailed)
      ensures r.Ok? <==> response.Some? && ShapesAccepted(response.value.features)
      ensures referenceData == if r.Ok? then response else old(referenceData)
    {
      if response.None? {
        return Err(NetworkFailed);
      }
      var features := response.value.features;
      var i := 0;
      while i < |features| && i < |EXPECTED_SHAPES|
        invariant 0 <= i <= Min(|features|, |EXPECTED_SHAPES|)
        invariant FirstShapeMismatch(features, 0) == FirstShapeMismatch(features, i)
      {
        if features[i].shape != EXPECTED_SHAPES[i] {
          return Err(InvalidShape(features[i].shape, EXPECTED_SHAPES[i]));
        }
        i := i + 1;
      }
      referenceData := response;
      r := Ok(());
    }

    /** `Frame::new(width, height)` followed by `set_data` with the token's
        bytes, for a token of the asserted length. */
    method MakeTokenFrame(token: seq<real>) returns (frame: FrameValue)
      requires |token| == ByteLength(width, height)
      ensures frame == TokenFrame(width, height, token)
    {
      var f := new Frame(width, height);
      f.SetData(TokenBytes(token));
      frame := f.Value();
    }

    /** The loop shared by `process_tokens` and `fetch_bulk_tokens`: one
        `Frame::new` + `set_data` + `push` per token, push results ignored.
        Once input is full every later frame is rejected, so the admitted
        frames are a prefix of the token frames and the rest are dropped. A
        token of the wrong length makes `set_data` panic: the frames before
        it stay pushed and the loop ends there (`completed` false). */
    method PushTokens(entries: seq<(nat, seq<real>)>) returns (completed: bool)
      requires Valid()
      modifies frameQueue
      ensures Valid()
      ensures completed <==> TokensFit(width, height, entries)
      ensures var frames := TokenFrames(width, height, entries[..FitPrefix(width, height, entries)]);
        var k := Min(|frames|, QUEUE_SIZE - |old(frameQueue.input)|);
        && frameQueue.input == old(frameQueue.input) + frames[..k]
        && frameQueue.framesDropped == old(frameQueue.framesDropped) + (|frames| - k)
        && frameQueue.Admitted == old(frameQueue.Admitted) + frames[..k]
      ensures frameQueue.output == old(frameQueue.output)
      ensures frameQueue.framesProcessed == old(frameQueue.framesProcessed)
      ensures frameQueue.TimeHistory == old(frameQueue.TimeHistory)
      ensures frameQueue.lastProcessTime == old(frameQueue.lastProcessTime)
    {
      ghost var fit := FitPrefix(width, height, entries);
      ghost var frames := TokenFrames(width, height, entries[..fit]);
      ghost var room := QUEUE_SIZE - |frameQueue.input|;
      var j := 0;
      // The loop ends at the end of the tokens or where set_data's
      // assert_eq! panics.
      while j < |entries| && |entries[j].1| == ByteLength(width, height)
        invariant 0 <= j <= fit
        invariant Valid()
        invariant frameQueue.input == old(frameQueue.input) + frames[..Min(j, room)]
        invariant frameQueue.Admitted == old(frameQueue.Admitted) + frames[..Min(j, room)]
        invariant frameQueue.framesDropped == old(frameQueue.framesDropped) + (j - Min(j, room))
        invariant frameQueue.output == old(frameQueue.output)
        invariant frameQueue.framesProcessed == old(frameQueue.framesProcessed)
        invariant frameQueue.TimeHistory == old(frameQueue.TimeHistory)
        invariant frameQueue.lastProcessTime == old(frameQueue.lastProcessTime)
      {
        var frame := MakeTokenFrame(entries[j].1);
        assert frame == frames[j] by {
          assert entries[..fit][j] == entries[j];
        }
        var admitted := frameQueue.Push(frame);
        if admitted {
          assert frames[..j + 1] == frames[..j] + [frames[j]];
        }
        j := j + 1;
      }
      assert j == fit;
      completed := j == |entries|;
    }

    /** `process_tokens`: nothing is pushed when the payload does not
        deserialize (`tokens` None); otherwise one push attempt per token,
        up to the first token `set_data` panics on. */
    method ProcessTokens(tokens: Option<BulkTokenResponse>) returns (r: Result<nat, DecoderError>)
      requires Valid()
      modifies frameQueue
      ensures Valid()
      ensures tokens.None? ==>
        r == Err(DeserializeFailed) && frameQueue.input == old(frameQueue.input)
        && frameQueue.framesDropped == old(frameQueue.framesDropped)
      ensures tokens.Some? ==>
        var entries := tokens.value.tokens;
        var frames := TokenFrames(width, height, entries[..FitPrefix(width, height, entries)]);
        var k := Min(|frames|, QUEUE_SIZE - |old(frameQueue.input)|);
        && r == (if TokensFit(width, height, entries) then Ok(|entries|) else Err(DataLengthPanic))
        && frameQueue.input == old(frameQueue.input) + frames[..k]
        && frameQueue.framesDropped == old(frameQueue.framesDropped) + (|frames| - k)
      ensures frameQueue.output == old(frameQueue.output)
      ensures frameQueue.framesProcessed == old(frameQueue.framesProcessed)
      ensures frameQueue.TimeHistory == old(frameQueue.TimeHistory)
      ensures frameQueue.lastProcessTime == old(frameQueue.lastProcessTime)
    {
      if tokens.None? {
        return Err(DeserializeFailed);
      }
      var completed := PushTokens(tokens.value.tokens);
      r := if completed then Ok(|tokens.value.tokens|) else Err(DataLengthPanic);
    }

    /** `fetch_bulk_tokens` with the HTTP exchange abstracted: `response` is
        the parsed body or None on any network, status or parse failure. On
        success the tokens are pushed exactly as `process_tokens` does. */
    method FetchBulkTokens(response: Option<BulkTokenResponse>) returns (r: Result<nat, DecoderError>)
      requires Valid()
      modifies frameQueue
      ensures Valid()
      ensures response.None? ==>
        r == Err(NetworkFailed) && frameQueue.input == old(frameQueue.input)
        && frameQueue.framesDropped == old(frameQueue.framesDropped)
      ensures response.Some? ==>
        var entries := response.value.tokens;
        var frames := TokenFrames(width, height, entries[..FitPrefix(width, height, entries)]);
        var k := Min(|frames|, QUEUE_SIZE - |old(frameQueue.input)|);
        && r == (if TokensFit(width, height, entries) then Ok(|entries|) else Err(DataLengthPanic))
        && frameQueue.input == old(frameQueue.input) + frames[..k]
        && frameQueue.framesDropped == old(frameQueue.framesDropped) + (|frames| - k)
      ensures frameQueue.output == old(frameQueue.output)
      ensures frameQueue.framesProcessed == old(frameQueue.framesProcessed)
      ensures frameQueue.TimeHistory == old(frameQueue.TimeHistory)
      ensures frameQueue.lastProcessTime == old(frameQueue.lastProcessTime)
    {
      if response.None? {
        return Err(NetworkFailed);
      }
      var completed := PushTokens(response.value.tokens);
      r := if completed then Ok(|response.value.tokens|) else Err(DataLengthPanic);
    }

    /** `process_batch`: one queue batch; reports how many frames came out. */
    method ProcessBatch(timing: nat -> Option<real>) returns (r: Result<nat, DecoderError>)
      requires Valid()
      modifies frameQueue
      ensures Valid()
      ensures var k := Min(BATCH_SIZE, |old(frameQueue.input)|);
        && r == Ok(k)
        && frameQueue.input == old(frameQueue.input)[k..]
        && frameQueue.output == old(frameQueue.output) + old(frameQueue.input)[..k]
        && frameQueue.framesProcessed == old(frameQueue.framesProcessed) + k
        && frameQueue.TimeHistory == old(frameQueue.TimeHistory) + Recorded(timing, k)
        && frameQueue.lastProcessTime == LastRecorded(timing, k, old(frameQueue.lastProcessTime))
      ensures frameQueue.framesDropped == old(frameQueue.framesDropped)
      ensures frameQueue.Admitted == old(frameQueue.Admitted)
    {
      var batch := frameQueue.ProcessBatch(timing);
      r := Ok(|batch|);
    }

    /** `start_player_loop`: a no-op when already running; otherwise raise the
        running flag and ask the host for an animation frame, keeping the id
        and the closure only when the request succeeded. A failed request is
        reported after the flag has been raised. */
    method StartPlayerLoop(request: AnimationRequest) returns (r: Result<(), DecoderError>)
      modifies this`isRunning, this`animationId, this`hasAnimationClosure
      ensures old(isRunning) ==>
        r.Ok? && isRunning
        && animationId == old(animationId) && hasAnimationClosure == old(hasAnimationClosure)
      ensures !old(isRunning) ==> isRunning
      ensures !old(isRunning) && request.Requested? ==>
        r.Ok? && animationId == Some(request.id) && hasAnimationClosure
      ensures !old(isRunning) && request.NoWindow? ==>
        r.Ok? && animationId == old(animationId) && hasAnimationClosure == old(hasAnimationClosure)
      ensures !old(isRunning) && request.RequestFailed? ==>
        r == Err(AnimationRequestFailed) && animationId == old(animationId) && hasAnimationClosure == old(hasAnimationClosure)
      ensures (r, Loop()) == StartLoop(old(Loop()), request)
    {
      if isRunning {
        return Ok(());
      }
      isRunning := true;
      match request
      case NoWindow =>
        r := Ok(());
      case RequestFailed =>
        r := Err(AnimationRequestFailed);
      case Requested(id) =>
        animationId := Some(id);
        hasAnimationClosure := true;
        r := Ok(());
    }

    /** `stop_player_loop`: clear the running flag, the animation id and the
        closure. */
    method StopPlayerLoop()
      modifies this`isRunning, this`animationId, this`hasAnimationClosure
      ensures !isRunning && animationId == None && !hasAnimationClosure
    {
      isRunning := false;
      animationId := None;
      hasAnimationClosure := false;
    }

    /** The background loop of `start_background_token_fetching` (and of
        `background_token_fetch_loop`, which is the same loop): while the
        running flag is up, request the next 100 tokens; on success advance
        by 100 and wait, on the first failure stop. Only the requests are
        modelled, not what the answers push. */
    method BackgroundTokenFetch(startFrame: nat, rounds: seq<FetchRound>) returns (requested: seq<(nat, nat)>)
      modifies this`isRunning, this`animationId, this`hasAnimationClosure
      ensures requested == LoopRequests(startFrame, old(isRunning), rounds)
      ensures Loop() == if LoopStopped(old(isRunning), rounds) then STOPPED_LOOP else old(Loop())
    {
      var currentStart := startFrame;
      var i := 0;
      requested := [];
      ghost var stopped := false;
      while isRunning && i < |rounds|
        invariant 0 <= i <= |rounds|
        invariant currentStart == startFrame + i * CHUNK_SIZE
        invariant requested + LoopRequests(currentStart, isRunning, rounds[i..])
               == LoopRequests(startFrame, old(isRunning), rounds)
        invariant LoopStopped(old(isRunning), rounds) == (stopped || LoopStopped(isRunning, rounds[i..]))
        invariant Loop() == if stopped then STOPPED_LOOP else old(Loop())
        decreases |rounds| - i
      {
        requested := requested + [(currentStart, currentStart + CHUNK_SIZE - 1)];
        if !rounds[i].ok {
          assert LoopRequests(currentStart, isRunning, rounds[i..]) == [(currentStart, currentStart + CHUNK_SIZE - 1)];
          assert !LoopStopped(isRunning, rounds[i..]);
          return;
        }
        assert rounds[i..][1..] == rounds[i + 1..];
        assert LoopRequests(currentStart, true, rounds[i..])
            == [(currentStart, currentStart + CHUNK_SIZE - 1)]
               + LoopRequests(currentStart + CHUNK_SIZE, !rounds[i].stoppedDuringWait, rounds[i + 1..]);
        assert LoopStopped(true, rounds[i..]) == (rounds[i].stoppedDuringWait || LoopStopped(true, rounds[i + 1..]));
        currentStart := currentStart + CHUNK_SIZE;
        if rounds[i].stoppedDuringWait {
          StopPlayerLoop();
          stopped := true;
        }
        i := i + 1;
      }
    }

    /** `start_playback` as written. The reference data is loaded, then the
        first `PrefetchSize(60)` = 90 tokens [0, 89] are fetched, and an error
        in either aborts before any loop starts. The call
        `self.start_background_token_fetching(..)` is not awaited, and a
        Rust future does nothing unless polled, so no background request is
        ever issued; only the player loop is started. */
    method StartPlaybackAsWritten(reference: Option<ReferenceData>, prefetch: Option<BulkTokenResponse>, request: AnimationRequest)
      returns (r: Result<(), DecoderError>, requested: seq<(nat, nat)>)
      requires Valid()
      modifies this, frameQueue
      ensures Valid()
      ensures reference.None? || !ShapesAccepted(reference.value.features) ==>
        r.Err? && requested == [] && isRunning == old(isRunning)
      ensures reference.Some? && ShapesAccepted(reference.value.features) ==>
        requested == [(0, PrefetchSize(QUEUE_SIZE) - 1)]
      ensures (reference.Some? && ShapesAccepted(reference.value.features)
               && (prefetch.None? || !TokensFit(width, height, prefetch.value.tokens))) ==>
        r.Err? && isRunning == old(isRunning)
      ensures forall k :: 0 <= k < |requested| ==> requested[k].1 < PrefetchSize(QUEUE_SIZE)
      ensures r.Ok? ==> isRunning
      ensures referenceData ==
        if reference.Some? && ShapesAccepted(reference.value.features) then reference else old(referenceData)
      ensures hasRenderContext == old(hasRenderContext) && diagnosticMode == old(diagnosticMode)
      ensures reference.Some? && ShapesAccepted(reference.value.features) && prefetch.None? ==> r == Err(NetworkFailed)
      ensures (reference.Some? && ShapesAccepted(reference.value.features)
               && prefetch.Some? && !TokensFit(width, height, prefetch.value.tokens)) ==>
        r == Err(DataLengthPanic)
      ensures reference.None? || !ShapesAccepted(reference.value.features) || prefetch.None? ==>
        frameQueue.input == old(frameQueue.input) && frameQueue.framesDropped == old(frameQueue.framesDropped)
      ensures (reference.Some? && ShapesAccepted(reference.value.features) && prefetch.Some?) ==>
        var entries := prefetch.value.tokens;
        var frames := TokenFrames(width, height, entries[..FitPrefix(width, height, entries)]);
        var k := Min(|frames|, QUEUE_SIZE - |old(frameQueue.input)|);
        && frameQueue.input == old(frameQueue.input) + frames[..k]
        && frameQueue.framesDropped == old(frameQueue.framesDropped) + (|frames| - k)
      ensures frameQueue.output == old(frameQueue.output)
      ensures frameQueue.framesProcessed == old(frameQueue.framesProcessed)
      ensures frameQueue.TimeHistory == old(frameQueue.TimeHistory)
      ensures frameQueue.lastProcessTime == old(frameQueue.lastProcessTime)
      ensures !(reference.Some? && ShapesAccepted(reference.value.features)
                && prefetch.Some? && TokensFit(width, height, prefetch.value.tokens)) ==>
        Loop() == old(Loop())
      ensures (reference.Some? && ShapesAccepted(reference.value.features)
               && prefetch.Some? && TokensFit(width, height, prefetch.value.tokens)) ==>
        (r, Loop()) == StartLoop(old(Loop()), request)
    {
      requested := [];
      r := LoadReferenceData(reference);
      if r.Err? {
        return;
      }
      var prefetchSize := PrefetchSize(frameQueue.maxSize);
      requested := [(0, prefetchSize - 1)];
      var fetched := FetchBulkTokens(prefetch);
      if fetched.Err? {
        return Err(fetched.error), requested;
      }
      // start_background_token_fetching(video_id, prefetch_size): never polled.
      r := StartPlayerLoop(request);
    }

    /** `start_playback` as evidently intended: as above, but the spawned
        background loop really runs. It is scheduled before the player loop
        starts and first runs after `start_playback` has raised the running
        flag, so it requests chunks from `PrefetchSize(60)` on, continuing the
        prefetch without gap or overlap. */
    method StartPlayback(reference: Option<ReferenceData>, prefetch: Option<BulkTokenResponse>,
                         request: AnimationRequest, rounds: seq<FetchRound>)
      returns (r: Result<(), DecoderError>, requested: seq<(nat, nat)>)
      requires Valid()
      modifies this, frameQueue
      ensures Valid()
      ensures reference.None? || !ShapesAccepted(reference.value.features) ==>
        r.Err? && requested == [] && isRunning == old(isRunning)
      ensures (reference.Some? && ShapesAccepted(reference.value.features)
               && (prefetch.None? || !TokensFit(width, height, prefetch.value.tokens))) ==>
        r.Err? && requested == [(0, PrefetchSize(QUEUE_SIZE) - 1)] && isRunning == old(isRunning)
      ensures (reference.Some? && ShapesAccepted(reference.value.features)
               && prefetch.Some? && TokensFit(width, height, prefetch.value.tokens)) ==>
        requested == [(0, PrefetchSize(QUEUE_SIZE) - 1)] + LoopRequests(PrefetchSize(QUEUE_SIZE), true, rounds)
      ensures referenceData ==
        if reference.Some? && ShapesAccepted(reference.value.features) then reference else old(referenceData)
      ensures hasRenderContext == old(hasRenderContext) && diagnosticMode == old(diagnosticMode)
      ensures reference.Some? && ShapesAccepted(reference.value.features) && prefetch.None? ==> r == Err(NetworkFailed)
      ensures (reference.Some? && ShapesAccepted(reference.value.features)
               && prefetch.Some? && !TokensFit(width, height, prefetch.value.tokens)) ==>
        r == Err(DataLengthPanic)
      ensures reference.None? || !ShapesAccepted(reference.value.features) || prefetch.None? ==>
        frameQueue.input == old(frameQueue.input) && frameQueue.framesDropped == old(frameQueue.framesDropped)
      ensures (reference.Some? && ShapesAccepted(reference.value.features) && prefetch.Some?) ==>
        var entries := prefetch.value.tokens;
        var frames := TokenFrames(width, height, entries[..FitPrefix(width, height, entries)]);
        var k := Min(|frames|, QUEUE_SIZE - |old(frameQueue.input)|);
        && frameQueue.input == old(frameQueue.input) + frames[..k]
        && frameQueue.framesDropped == old(frameQueue.framesDropped) + (|frames| - k)
      ensures frameQueue.output == old(frameQueue.output)
      ensures frameQueue.framesProcessed == old(frameQueue.framesProcessed)
      ensures frameQueue.TimeHistory == old(frameQueue.TimeHistory)
      ensures frameQueue.lastProcessTime == old(frameQueue.lastProcessTime)
      ensures !(reference.Some? && ShapesAccepted(reference.value.features)
                && prefetch.Some? && TokensFit(width, height, prefetch.value.tokens)) ==>
        Loop() == old(Loop())
      ensures (reference.Some? && ShapesAccepted(reference.value.features)
               && prefetch.Some? && TokensFit(width, height, prefetch.value.tokens)) ==>
        && r == StartLoop(old(Loop()), request).0
        && Loop() == if LoopStopped(true, rounds) then STOPPED_LOOP else StartLoop(old(Loop()), request).1
    {
      requested := [];
      r := LoadReferenceData(reference);
      if r.Err? {
        return;
      }
      var prefetchSize := PrefetchSize(frameQueue.maxSize);
      requested := [(0, prefetchSize - 1)];
      var fetched := FetchBulkTokens(prefetch);
      if fetched.Err? {
        return Err(fetched.error), requested;
      }
      r := StartPlayerLoop(request);
      var background := BackgroundTokenFetch(prefetchSize, rounds);
      requested := requested + background;
    }

    /** The frame choice of `render_frame`: fail without a render context;
        otherwise take the next frame through the queue, or a zero-filled
        `width x height` frame when the queue has none. GPU upload and
        drawing are not modelled. */
    method RenderFrame(elapsed: Option<real>) returns (r: Result<FrameValue, DecoderError>)
      requires Valid()
      modifies frameQueue
      ensures Valid()
      ensures !hasRenderContext ==>
        && r == Err(NoRenderContext) && frameQueue.input == old(frameQueue.input)
        && frameQueue.output == old(frameQueue.output)
        && frameQueue.framesProcessed == old(frameQueue.framesProcessed)
        && frameQueue.TimeHistory == old(frameQueue.TimeHistory)
        && frameQueue.lastProcessTime == old(frameQueue.lastProcessTime)
      ensures hasRenderContext && old(frameQueue.input) != [] ==>
        && r == Ok(old(frameQueue.input)[0]) && frameQueue.input == old(frameQueue.input)[1..]
        && frameQueue.output == old(frameQueue.output) + [old(frameQueue.input)[0]]
        && frameQueue.framesProcessed == old(frameQueue.framesProcessed) + 1
      ensures hasRenderContext && old(frameQueue.input) == [] ==>
        && r == Ok(ZeroFrame(width, height)) && frameQueue.input == []
        && frameQueue.output == old(frameQueue.output)
        && frameQueue.framesProcessed == old(frameQueue.framesProcessed)
      ensures hasRenderContext ==>
        && frameQueue.TimeHistory == old(frameQueue.TimeHistory) + (if elapsed.Some? then [elapsed.value] else [])
        && frameQueue.lastProcessTime == (if elapsed.Some? then elapsed.value else old(frameQueue.lastProcessTime))
      ensures frameQueue.framesDropped == old(frameQueue.framesDropped)
      ensures frameQueue.Admitted == old(frameQueue.Admitted)
    {
      if !hasRenderContext {
        return Err(NoRenderContext);
      }
      var next := frameQueue.ProcessNext(elapsed);
      if next.Some? {
        r := Ok(next.value);
      } else {
        var dummy := new Frame(width, height);
        dummy.SetData(seq(ByteLength(width, height), _ => 0 as byte));
        r := Ok(dummy.Value());
      }
    }
  }

  /** The prefetch [0, p-1] and the first background chunk [p, p+99] of the
      intended `start_playback` meet without gap or overlap. */
  lemma PrefetchMeetsBackground(rounds: seq<FetchRound>)
    requires rounds != []
    ensures var all := [(0, PrefetchSize(QUEUE_SIZE) - 1)] + LoopRequests(PrefetchSize(QUEUE_SIZE), true, rounds);
      |all| >= 2 && all[0].1 + 1 == all[1].0 && all[1] == (90, 189)
  {
  }

  /** Finding: with the call not awaited, a successful `start_playback`
      requests only the prefetch, so the chunk [90, 189] that the intended
      one requests first, whatever the network then answers, never is. */
  lemma AsWrittenNeverFetchesPastPrefetch(rounds: seq<FetchRound>)
    requires rounds != []
    ensures var asWritten := [(0, PrefetchSize(QUEUE_SIZE) - 1)];
      var intended := asWritten + LoopRequests(PrefetchSize(QUEUE_SIZE), true, rounds);
      && (90, 189) !in asWritten
      && (90, 189) in intended
  {
    var intended := [(0, PrefetchSize(QUEUE_SIZE) - 1)] + LoopRequests(PrefetchSize(QUEUE_SIZE), true, rounds);
    assert intended[1] == (90, 189);
  }
}

=== FILE: common.dfy ===
/** Small shared types: bytes, optional values, results, and the loosely
    typed nested arrays that the TypeScript client passes around. */
module Common {

  /** An unsigned 8-bit value (Rust `u8`, one slot of a `Uint8ClampedArray`). */
  newtype byte = x: int | 0 <= x < 256

  datatype Option<T> = None | Some(value: T)

  datatype Result<T, E> = Ok(value: T) | Err(error: E)

  /** A JavaScript value as far as array nesting is concerned: a number,
      `undefined` (what indexing past the end of an array yields), or an array. */
  datatype Js = Num(x: real) | Undefined | Arr(items: seq<Js>)

  /** Smaller of two integers (`Math.min`). */
  function Min(a: int, b: int): (r: int)
    ensures r <= a && r <= b && (r == a || r == b)
  {
    if a <= b then a else b
  }

  /** Larger of two integers (`Math.max`). */
  function Max(a: int, b: int): (r: int)
    ensures r >= a && r >= b && (r == a || r == b)
  {
    if a >= b then a else b
  }

  /** Whether `prefix` is a prefix of `s` (`String.prototype.startsWith`). */
  predicate StartsWith(s: string, prefix: string)
  {
    |prefix| <= |s| && s[..|prefix|] == prefix
  }

  /** The sum of a sequence of samples (`iter().sum()`). */
  function Sum(s: seq<real>): real
  {
    if s == [] then 0.0 else Sum(s[..|s| - 1]) + s[|s| - 1]
  }
}

=== FILE: frame.dfy ===
/** A decoded picture: a `width * height` RGBA byte buffer with a
    presentation timestamp and a keyframe flag (imf-decoder/src/decoder/frame.rs). */
module Frames {
  import opened Common

  /** The number of bytes a `width * height` RGBA frame holds. */
  function ByteLength(width: nat, height: nat): nat
  {
    width * height * 4
  }

  /** A frame as a value: what the queue stages hold once a `Frame` has been
      moved or cloned into them. */
  datatype FrameValue = FrameValue(width: nat, height: nat, data: seq<byte>, timestamp: real, isKeyframe: bool)
  {
    /** The buffer-length invariant of a frame. */
    predicate WellFormed()
    {
      |data| == ByteLength(width, height)
    }
  }

  /** A zero-filled `width * height` frame with timestamp 0, not a keyframe. */
  function ZeroFrame(width: nat, height: nat): (f: FrameValue)
    ensures f.WellFormed() && f.width == width && f.height == height
    ensures forall i :: 0 <= i < |f.data| ==> f.data[i] == 0
    ensures f.timestamp == 0.0 && !f.isKeyframe
  {
    FrameValue(width, height, seq(ByteLength(width, height), _ => 0 as byte), 0.0, false)
  }

  /** The mutable frame: `set_data` overwrites the buffer in place. */
  class Frame {
    var width: nat
    var height: nat
    var data: seq<byte>
    var timestamp: real
    var isKeyframe: bool

    ghost predicate Valid()
      reads this
    {
      |data| == ByteLength(width, height)
    }

    /** The frame's current contents as a value. */
    function Value(): (v: FrameValue)
      reads this
      ensures Valid() ==> v.WellFormed()
    {
      FrameValue(width, height, data, timestamp, isKeyframe)
    }

    /** `Frame::new`: width and height as given, `width * height * 4` zero
        bytes, timestamp 0, not a keyframe. */
    constructor (width: nat, height: nat)
      ensures Valid()
      ensures Value() == ZeroFrame(width, height)
    {
      this.width := width;
      this.height := height;
      this.data := seq(ByteLength(width, height), _ => 0 as byte);
      this.timestamp := 0.0;
      this.isKeyframe := false;
    }

    /** `Frame::set_data`: the buffer must have exactly `width * height * 4`
        bytes (the source asserts it and panics otherwise); it replaces `data`
        and nothing else. */
    method SetData(newData: seq<byte>)
      requires |newData| == ByteLength(width, height)
      modifies this
      ensures Valid()
      ensures data == newData
      ensures width == old(width) && height == old(height)
      ensures timestamp == old(timestamp) && isKeyframe == old(isKeyframe)
    {
      data := newData;
    }
  }
}

=== FILE: memory.dfy ===
/** The allocation counters of imf-decoder/src/utils/memory.rs: bytes
    currently allocated and the peak ever seen, both `usize`. On the wasm32
    target a `usize` is 32 bits wide and the atomic `fetch_add`/`fetch_sub`
    wrap around, so the counters are kept modulo 2^32. The calls are
    modelled one at a time. */
module MemoryCounters {

  const USIZE_MODULUS: nat := 0x1_0000_0000

  /** A 32-bit `usize` value. */
  predicate IsUsize(x: int)
  {
    0 <= x < USIZE_MODULUS
  }

  /** Wrapping `usize` addition. */
  function WrappingAdd(a: nat, b: nat): (r: nat)
    requires IsUsize(a) && IsUsize(b)
    ensures IsUsize(r)
    ensures a + b < USIZE_MODULUS ==> r == a + b
    ensures a + b >= USIZE_MODULUS ==> r == a + b - USIZE_MODULUS && r < a
  {
    (a + b) % USIZE_MODULUS
  }

  /** Wrapping `usize` subtraction. */
  function WrappingSub(a: nat, b: nat): (r: nat)
    requires IsUsize(a) && IsUsize(b)
    ensures IsUsize(r)
    ensures b <= a ==> r == a - b
    ensures b > a ==> r == a - b + USIZE_MODULUS && r > a
  {
    (a - b) % USIZE_MODULUS
  }

  class Memory {
    var allocatedBytes: nat
    var peak: nat

    ghost predicate Valid()
      reads this
    {
      IsUsize(allocatedBytes) && IsUsize(peak)
    }

    /** `Memory::new`: both counters 0. */
    constructor ()
      ensures Valid() && allocatedBytes == 0 && peak == 0
    {
      allocatedBytes := 0;
      peak := 0;
    }

    /** `allocate`: add `size` to `allocatedBytes` (wrapping) and raise `peak` to
        the new total if that is larger. */
    method Allocate(size: nat)
      requires Valid() && IsUsize(size)
      modifies this
      ensures Valid()
      ensures allocatedBytes == WrappingAdd(old(allocatedBytes), size)
      ensures peak == if allocatedBytes > old(peak) then allocatedBytes else old(peak)
      ensures peak >= old(peak) && peak >= allocatedBytes
      ensures (allocatedBytes, peak) == Apply((old(allocatedBytes), old(peak)), AllocateCall(size))
    {
      var newAllocated := WrappingAdd(allocatedBytes, size);
      allocatedBytes := newAllocated;
      // The compare-exchange retry loop: with one caller at a time nothing
      // changes `peak` between its load and the exchange, so the first
      // exchange succeeds whenever the new total is larger.
      if newAllocated > peak {
        peak := newAllocated;
      }
    }

    /** `deallocate`: subtract `size` from `allocatedBytes` (wrapping); `peak` is
        untouched. */
    method Deallocate(size: nat)
      requires Valid() && IsUsize(size)
      modifies this
      ensures Valid()
      ensures allocatedBytes == WrappingSub(old(allocatedBytes), size)
      ensures peak == old(peak)
      ensures (allocatedBytes, peak) == Apply((old(allocatedBytes), old(peak)), DeallocateCall(size))
    {
      allocatedBytes := WrappingSub(allocatedBytes, size);
    }
  }

  /** The abstract effect of one call on (allocated, peak). */
  datatype MemoryCall = AllocateCall(size: nat) | DeallocateCall(size: nat)

  function Apply(state: (nat, nat), call: MemoryCall): (nat, nat)
    requires IsUsize(state.0) && IsUsize(state.1) && IsUsize(call.size)
  {
    match call
    case AllocateCall(size) =>
      var a := WrappingAdd(state.0, size);
      (a, if a > state.1 then a else state.1)
    case DeallocateCall(size) => (WrappingSub(state.0, size), state.1)
  }

  predicate CallsFit(calls: seq<MemoryCall>)
  {
    forall i :: 0 <= i < |calls| ==> IsUsize(calls[i].size)
  }

  /** The counters after a sequence of calls from `state`. */
  function ApplyAll(state: (nat, nat), calls: seq<MemoryCall>): (r: (nat, nat))
    requires IsUsize(state.0) && IsUsize(state.1) && CallsFit(calls)
    ensures IsUsize(r.0) && IsUsize(r.1)
    decreases |calls|
  {
    if calls == [] then state else ApplyAll(Apply(state, calls[0]), calls[1..])
  }

  /** The number of bytes still allocated when nothing wraps: what was
      allocated minus what was freed. */
  function Balance(calls: seq<MemoryCall>): int
  {
    if calls == [] then 0
    else (if calls[0].AllocateCall? then calls[0].size else -(calls[0].size as int)) + Balance(calls[1..])
  }

  /** `peak` never decreases, and `peak >= allocatedBytes` is kept by every call
      as long as no `deallocate` frees more than is allocated. */
  lemma {:induction false} PeakIsMonotoneAndBounds(state: (nat, nat), calls: seq<MemoryCall>)
    requires IsUsize(state.0) && IsUsize(state.1) && CallsFit(calls)
    requires state.1 >= state.0
    requires forall i :: 0 <= i < |calls| && calls[i].DeallocateCall? ==>
      calls[i].size <= ApplyAll(state, calls[..i]).0
    ensures ApplyAll(state, calls).1 >= state.1
    ensures ApplyAll(state, calls).1 >= ApplyAll(state, calls).0
    decreases |calls|
  {
    if calls != [] {
      var next := Apply(state, calls[0]);
      assert calls[..0] == [];
      forall i | 0 <= i < |calls[1..]| && calls[1..][i].DeallocateCall?
        ensures calls[1..][i].size <= ApplyAll(next, calls[1..][..i]).0
      {
        assert calls[..i + 1] == [calls[0]] + calls[1..][..i];
        assert ApplyAll(state, calls[..i + 1]) == ApplyAll(next, calls[1..][..i]);
      }
      PeakIsMonotoneAndBounds(next, calls[1..]);
    }
  }

  /** With no wrap-around, the allocated counter is the running balance of
      allocations minus deallocations. */
  lemma {:induction false} AllocatedIsBalance(start: nat, calls: seq<MemoryCall>, peak: nat)
    requires IsUsize(start) && IsUsize(peak) && CallsFit(calls)
    requires forall i :: 0 <= i <= |calls| ==> 0 <= start + Balance(calls[..i]) < USIZE_MODULUS
    ensures ApplyAll((start, peak), calls).0 == start + Balance(calls)
    decreases |calls|
  {
    if calls != [] {
      assert calls[..1] == [calls[0]];
      assert Balance([calls[0]]) == (if calls[0].AllocateCall? then calls[0].size else -(calls[0].size as int));
      var next := Apply((start, peak), calls[0]);
      assert next.0 == start + Balance(calls[..1]);
      forall i | 0 <= i <= |calls[1..]|
        ensures 0 <= next.0 + Balance(calls[1..][..i]) < USIZE_MODULUS
      {
        assert calls[..i + 1] == [calls[0]] + calls[1..][..i];
        assert ([calls[0]] + calls[1..][..i])[1..] == calls[1..][..i];
      }
      AllocatedIsBalance(next.0, calls[1..], next.1);
      assert calls == calls[..|calls|];
    }
  }
}

=== FILE: metrics.dfy ===
/** The decoder's rolling performance metrics (`Metrics` in
    imf-decoder/src/utils/mod.rs): three bounded series that keep the newest
    `window_size` samples each. */
module DecoderMetrics {
  import opened Common
  import opened RollingWindow

  class Metrics {
    var frameTimes: seq<real>
    var queueSizes: seq<nat>
    var processingTimes: seq<real>
    const windowSize: nat

    /** Every sample ever recorded, per series. */
    ghost var FrameTimeHistory: seq<real>
    ghost var QueueSizeHistory: seq<nat>
    ghost var ProcessingTimeHistory: seq<real>

    /** Each series is the newest `windowSize` samples of its history. */
    ghost predicate Valid()
      reads this
    {
      && frameTimes == LastN(FrameTimeHistory, windowSize)
      && queueSizes == LastN(QueueSizeHistory, windowSize)
      && processingTimes == LastN(ProcessingTimeHistory, windowSize)
    }

    /** `Metrics::new`: three empty series, window 60. */
    constructor ()
      ensures Valid() && windowSize == 60
      ensures frameTimes == [] && queueSizes == [] && processingTimes == []
      ensures FrameTimeHistory == [] && QueueSizeHistory == [] && ProcessingTimeHistory == []
    {
      frameTimes := [];
      queueSizes := [];
      processingTimes := [];
      windowSize := 60;
      FrameTimeHistory := [];
      QueueSizeHistory := [];
      ProcessingTimeHistory := [];
    }

    /** `record_frame_time`: push, then drop the oldest once over the
        window. Only the frame-time series changes. */
    method RecordFrameTime(time: real)
      requires Valid()
      modifies this`frameTimes, this`FrameTimeHistory
      ensures Valid()
      ensures FrameTimeHistory == old(FrameTimeHistory) + [time]
      ensures frameTimes == Slide(old(frameTimes), time, windowSize)
      ensures |frameTimes| <= windowSize
    {
      SlideKeepsNewest(FrameTimeHistory, time, windowSize);
      frameTimes := frameTimes + [time];
      if |frameTimes| > windowSize {
        frameTimes := frameTimes[1..];
      }
      FrameTimeHistory := FrameTimeHistory + [time];
    }

    /** `record_queue_size`: the same window logic on the queue-size series. */
    method RecordQueueSize(size: nat)
      requires Valid()
      modifies this`queueSizes, this`QueueSizeHistory
      ensures Valid()
      ensures QueueSizeHistory == old(QueueSizeHistory) + [size]
      ensures queueSizes == Slide(old(queueSizes), size, windowSize)
      ensures |queueSizes| <= windowSize
    {
      SlideKeepsNewest(QueueSizeHistory, size, windowSize);
      queueSizes := queueSizes + [size];
      if |queueSizes| > windowSize {
        queueSizes := queueSizes[1..];
      }
      QueueSizeHistory := QueueSizeHistory + [size];
    }

    /** `record_processing_time`: the same window logic on the
        processing-time series. */
    method RecordProcessingTime(time: real)
      requires Valid()
      modifies this`processingTimes, this`ProcessingTimeHistory
      ensures Valid()
      ensures ProcessingTimeHistory == old(ProcessingTimeHistory) + [time]
      ensures processingTimes == Slide(old(processingTimes), time, windowSize)
      ensures |processingTimes| <= windowSize
    {
      SlideKeepsNewest(ProcessingTimeHistory, time, windowSize);
      processingTimes := processingTimes + [time];
      if |processingTimes| > windowSize {
        processingTimes := processingTimes[1..];
      }
      ProcessingTimeHistory := ProcessingTimeHistory + [time];
    }

    /** `get_average_fps`: 0 with no samples, otherwise 1000 over the mean
        frame time. A mean of 0 makes the f64 division non-finite, which is
        reported as None. */
    function AverageFps(): (fps: Option<real>)
      reads this
      ensures frameTimes == [] ==> fps == Some(0.0)
      ensures frameTimes != [] && Sum(frameTimes) != 0.0 ==>
        fps.Some? && fps.value * Sum(frameTimes) == 1000.0 * (|frameTimes| as real)
      ensures fps.None? <==> frameTimes != [] && Sum(frameTimes) == 0.0
    {
      if frameTimes == [] then Some(0.0)
      else if Sum(frameTimes) == 0.0 then None
      else Some(1000.0 / (Sum(frameTimes) / (|frameTimes| as real)))
    }
  }

  /** Recording 61 frame times from new keeps exactly the newest 60, oldest
      first. */
  method WindowScenario() returns (kept: seq<real>)
    ensures |kept| == 60 && kept[0] == 1.0 && kept[59] == 60.0
  {
    var m := new Metrics();
    var i := 0;
    while i < 61
      invariant 0 <= i <= 61
      invariant m.Valid() && m.windowSize == 60
      invariant m.FrameTimeHistory == seq(i, k requires 0 <= k < i => k as real)
    {
      m.RecordFrameTime(i as real);
      i := i + 1;
    }
    kept := m.frameTimes;
    assert kept == m.FrameTimeHistory[1..];
  }
}

=== FILE: neural_codec.dfy ===
/** Bookkeeping of the streaming neural codec client
    (src/components/NeuralVideoCodec.ts): shape detection and the flat to
    4-D reshape of reference features, and the playback state that the
    frame buffer, the processing queue and the frame-step logic update.
    Model inference, canvas drawing and the socket are parameters. */
module NeuralCodec {
  import opened Common

  // ---------------------------------------------------------------------
  // Shapes of nested arrays

  /** The lengths along the first-element chain: an array contributes its
      length and then the shape of its first element (`undefined` for an
      empty array), anything else ends the chain. */
  function ShapeOf(v: Js): (shape: seq<nat>)
    ensures v.Arr? <==> shape != []
    ensures v.Arr? ==> shape[0] == |v.items|
    ensures v == Arr([]) ==> shape == [0]
  {
    match v
    case Arr(items) => if items == [] then [0] else [|items|] + ShapeOf(items[0])
    case _ => []
  }

  /** `getShape`: walks the first-element chain with a loop. */
  method GetShape(arr: Js) returns (shape: seq<nat>)
    ensures shape == ShapeOf(arr)
  {
    shape := [];
    var current := arr;
    while current.Arr?
      invariant shape + ShapeOf(current) == ShapeOf(arr)
      decreases |ShapeOf(current)|
    {
      var items := current.items;
      shape := shape + [|items|];
      current := if items == [] then Undefined else items[0];
    }
  }

  /** `verifyShape`: same rank and the same length on every axis. */
  function VerifyShape(data: Js, shape: seq<nat>): (ok: bool)
    ensures ok <==> ShapeOf(data) == shape
  {
    var actual := ShapeOf(data);
    |actual| == |shape| && forall i :: 0 <= i < |actual| ==> actual[i] == shape[i]
  }

  // ---------------------------------------------------------------------
  // Flat to 4-D reshape

  /** `Array.prototype.flat(depth)` on a list of items: arrays are spliced
      in, recursively up to `depth` levels; other values are kept. */
  function Flatten(items: seq<Js>, depth: nat): seq<Js>
    decreases items, depth
  {
    if items == [] then []
    else
      (if depth > 0 && items[0].Arr? then Flatten(items[0].items, depth - 1) else [items[0]])
      + Flatten(items[1..], depth)
  }

  /** The flat data `reshapeFeatureData` reads from: `data.flat(3)` when the
      first element is itself an array, the data as it is otherwise. */
  function FlatData(items: seq<Js>): seq<Js>
  {
    if items != [] && items[0].Arr? then Flatten(items, 3) else items
  }

  /** `flatData[i]`: `undefined` past the end. */
  function At(flat: seq<Js>, i: nat): (v: Js)
    ensures i < |flat| ==> v == flat[i]
    ensures i >= |flat| ==> v == Undefined
  {
    if i < |flat| then flat[i] else Undefined
  }

  /** The running index of the nested loops at position (b, c, h, w). */
  function Offset(b: nat, c: nat, h: nat, w: nat, channels: nat, height: nat, width: nat): nat
  {
    ((b * channels + c) * height + h) * width + w
  }

  /** A finished row of the result. */
  function Row(flat: seq<Js>, b: nat, c: nat, h: nat, channels: nat, height: nat, width: nat): Js
  {
    Arr(seq(width, w requires 0 <= w < width => At(flat, Offset(b, c, h, w, channels, height, width))))
  }

  /** A finished channel of the result. */
  function Channel(flat: seq<Js>, b: nat, c: nat, channels: nat, height: nat, width: nat): Js
  {
    Arr(seq(height, h requires 0 <= h < height => Row(flat, b, c, h, channels, height, width)))
  }

  /** A finished batch entry of the result. */
  function Batch(flat: seq<Js>, b: nat, channels: nat, height: nat, width: nat): Js
  {
    Arr(seq(channels, c requires 0 <= c < channels => Channel(flat, b, c, channels, height, width)))
  }

  /** The B x C x H x W array the reshape builds from `flat`. */
  function Build4D(flat: seq<Js>, batch: nat, channels: nat, height: nat, width: nat): Js
  {
    Arr(seq(batch, b requires 0 <= b < batch => Batch(flat, b, channels, height, width)))
  }

  /** Element (b, c, h, w) of the built array is element
      ((b*C + c)*H + h)*W + w of the flat data. */
  lemma Build4DAt(flat: seq<Js>, dims: seq<nat>, b: nat, c: nat, h: nat, w: nat)
    requires |dims| == 4 && b < dims[0] && c < dims[1] && h < dims[2] && w < dims[3]
    ensures var r := Build4D(flat, dims[0], dims[1], dims[2], dims[3]);
      && r.Arr? && |r.items| == dims[0]
      && r.items[b].Arr? && |r.items[b].items| == dims[1]
      && r.items[b].items[c].Arr? && |r.items[b].items[c].items| == dims[2]
      && r.items[b].items[c].items[h].Arr? && |r.items[b].items[c].items[h].items| == dims[3]
      && r.items[b].items[c].items[h].items[w] == At(flat, ((b * dims[1] + c) * dims[2] + h) * dims[3] + w)
  {
  }

  /** The built array has the target shape whenever every axis is
      non-empty and the first flat element is not itself an array, so a
      second reshape returns it unchanged. */
  lemma Build4DHasTargetShape(flat: seq<Js>, dims: seq<nat>)
    requires |dims| == 4 && dims[0] > 0 && dims[1] > 0 && dims[2] > 0 && dims[3] > 0
    requires !At(flat, 0).Arr?
    ensures VerifyShape(Build4D(flat, dims[0], dims[1], dims[2], dims[3]), dims)
  {
    var r := Build4D(flat, dims[0], dims[1], dims[2], dims[3]);
    var bt := Batch(flat, 0, dims[1], dims[2], dims[3]);
    var ch := Channel(flat, 0, 0, dims[1], dims[2], dims[3]);
    var rw := Row(flat, 0, 0, 0, dims[1], dims[2], dims[3]);
    assert r.items[0] == bt && bt.items[0] == ch && ch.items[0] == rw;
    assert rw.items[0] == At(flat, 0);
    assert ShapeOf(rw) == [dims[3]];
    assert ShapeOf(ch) == [dims[2], dims[3]];
    assert ShapeOf(bt) == [dims[1], dims[2], dims[3]];
    assert ShapeOf(r) == dims;
  }

  lemma NextRowOffset(b: nat, c: nat, h: nat, channels: nat, height: nat, width: nat)
    ensures Offset(b, c, h, width, channels, height, width) == Offset(b, c, h + 1, 0, channels, height, width)
  {
    var base := (b * channels + c) * height + h;
    assert base * width + width == (base + 1) * width;
  }

  lemma NextChannelOffset(b: nat, c: nat, channels: nat, height: nat, width: nat)
    ensures Offset(b, c, height, 0, channels, height, width) == Offset(b, c + 1, 0, 0, channels, height, width)
  {
    var base := b * channels + c;
    assert base * height + height == (base + 1) * height;
  }

  lemma NextBatchOffset(b: nat, channels: nat, height: nat, width: nat)
    ensures Offset(b, channels, 0, 0, channels, height, width) == Offset(b + 1, 0, 0, 0, channels, height, width)
  {
    assert b * channels + channels == (b + 1) * channels;
  }

  /** `reshapeFeatureData`: the input itself when it already has the target
      shape; otherwise four nested loops that read the flat data with one
      running index. The target always has four axes (the only caller
      passes one of four fixed 4-D shapes). */
  method ReshapeFeatureData(data: Js, target: seq<nat>) returns (result: Js)
    requires data.Arr? && |target| == 4
    ensures VerifyShape(data, target) ==> result == data
    ensures !VerifyShape(data, target) ==>
      result == Build4D(FlatData(data.items), target[0], target[1], target[2], target[3])
  {
    if VerifyShape(data, target) {
      return data;
    }
    var batch, channels, height, width := target[0], target[1], target[2], target[3];
    var flat := FlatData(data.items);
    var batches: seq<Js> := [];
    var index := 0;
    var b := 0;
    while b < batch
      invariant 0 <= b <= batch
      invariant index == Offset(b, 0, 0, 0, channels, height, width)
      invariant batches == seq(b, k requires 0 <= k < b => Batch(flat, k, channels, height, width))
    {
      var channelArrays: seq<Js> := [];
      var c := 0;
      while c < channels
        invariant 0 <= c <= channels
        invariant index == Offset(b, c, 0, 0, channels, height, width)
        invariant channelArrays == seq(c, k requires 0 <= k < c => Channel(flat, b, k, channels, height, width))
      {
        var rows: seq<Js> := [];
        var h := 0;
        while h < height
          invariant 0 <= h <= height
          invariant index == Offset(b, c, h, 0, channels, height, width)
          invariant rows == seq(h, k requires 0 <= k < h => Row(flat, b, c, k, channels, height, width))
        {
          var row: seq<Js> := [];
          var w := 0;
          while w < width
            invariant 0 <= w <= width
            invariant index == Offset(b, c, h, w, channels, height, width)
            invariant row == seq(w, k requires 0 <= k < w => At(flat, Offset(b, c, h, k, channels, height, width)))
          {
            row := row + [At(flat, index)];
            index := index + 1;
            w := w + 1;
          }
          NextRowOffset(b, c, h, channels, height, width);
          rows := rows + [Arr(row)];
          h := h + 1;
        }
        NextChannelOffset(b, c, channels, height, width);
        channelArrays := channelArrays + [Arr(rows)];
        c := c + 1;
      }
      NextBatchOffset(b, channels, height, width);
      batches := batches + [Arr(channelArrays)];
      b := b + 1;
    }
    result := Arr(batches);
  }

  // ---------------------------------------------------------------------
  // Playback state

  /** A buffered frame: its data URL and whether it came from the token
      cache. The wall-clock timestamp is not modelled. */
  datatype BufferedFrame = BufferedFrame(data: string, processed: bool)

  /** An entry of the per-frame token cache. */
  datatype CachedFrame = CachedFrame(tokens: Option<seq<real>>)

  /** How processing one frame turns out: the token the server returns when
      it is asked (None when the response carries none), and whether model
      inference and drawing succeed. */
  datatype FrameAttempt = FrameAttempt(serverToken: Option<seq<real>>, renderOk: bool)

  /** `config.bufferSize || 30`: a missing or zero size means 30. */
  function DefaultBufferSize(configured: Option<int>): (size: int)
    ensures configured.Some? && configured.value != 0 ==> size == configured.value
    ensures configured.None? || configured.value == 0 ==> size == 30
  {
    if configured.Some? && configured.value != 0 then configured.value else 30
  }

  /** The buffer after eviction: exactly the entries at or above `minFrame`. */
  function Evict(frames: map<int, BufferedFrame>, minFrame: int): (kept: map<int, BufferedFrame>)
    ensures forall k :: k in kept <==> k in frames && k >= minFrame
    ensures forall k :: k in kept ==> kept[k] == frames[k]
  {
    map k | k in frames && k >= minFrame :: frames[k]
  }

  /** The largest element of a non-empty set of frame indices. */
  ghost function MaxOf(s: set<int>): (m: int)
    requires s != {}
    ensures m in s && forall x :: x in s ==> x <= m
    decreases |s|
  {
    if forall y :: y !in s then assert false; 0
    else
    var x :| x in s;
    assert s == (s - {x}) + {x};
    if s - {x} == {} then x
    else
      var rest := MaxOf(s - {x});
      if x >= rest then x else rest
  }

  /** The frame `maintainBuffer` wants next: one past the highest buffered
      index, or the current frame when nothing is buffered. */
  ghost function NextToBuffer(frames: map<int, BufferedFrame>, currentFrame: int): (next: int)
    ensures frames == map[] ==> next == currentFrame
    ensures frames != map[] ==> next - 1 in frames && forall k :: k in frames ==> k < next
  {
    if frames.Keys == {} then
      assert frames == map[];
      currentFrame
    else MaxOf(frames.Keys) + 1
  }

  /** Whether `index` lies in one of the inclusive cached ranges. */
  predicate InCachedRange(ranges: seq<(int, int)>, index: int)
  {
    exists i :: 0 <= i < |ranges| && ranges[i].0 <= index <= ranges[i].1
  }

  /** When `processNextFrame` stops playback, as written: with an empty
      queue at or past frame `frameCount - 1`. */
  function StopsAsWritten(currentFrame: int, frameCount: int): bool
  {
    currentFrame >= frameCount - 1
  }

  /** The evidently intended stop rule: only once every frame
      `0 .. frameCount - 1` has been stepped past. */
  function Stops(currentFrame: int, frameCount: int): bool
  {
    currentFrame >= frameCount
  }

  /** The frames a run of successful steps processes from `currentFrame`,
      under one of the two stop rules. */
  function StepsProcessed(currentFrame: int, frameCount: int, asWritten: bool): seq<int>
    decreases frameCount - currentFrame
  {
    if (if asWritten then StopsAsWritten(currentFrame, frameCount) else Stops(currentFrame, frameCount)) then []
    else [currentFrame] + StepsProcessed(currentFrame + 1, frameCount, asWritten)
  }

  /** With the intended rule, successful steps from `start` process every
      frame `start .. frameCount - 1` once, in order. */
  lemma {:induction false} IntendedStepsProcessEveryFrame(start: int, frameCount: int)
    ensures StepsProcessed(start, frameCount, false) ==
      seq(if start < frameCount then frameCount - start else 0, i => start + i)
    decreases frameCount - start
  {
    if start < frameCount {
      IntendedStepsProcessEveryFrame(start + 1, frameCount);
    }
  }

  /** As written, the last frame is never processed: from `start`, only
      `start .. frameCount - 2` are. */
  lemma {:induction false} AsWrittenStepsSkipLastFrame(start: int, frameCount: int)
    ensures StepsProcessed(start, frameCount, true) ==
      seq(if start < frameCount - 1 then frameCount - 1 - start else 0, i => start + i)
    ensures frameCount - 1 !in StepsProcessed(start, frameCount, true)
    decreases frameCount - start
  {
    if start < frameCount - 1 {
      AsWrittenStepsSkipLastFrame(start + 1, frameCount);
    }
  }

  /** The smallest input that shows it: a one-frame video stops at once
      without ever processing frame 0. */
  lemma OneFrameVideoIsNeverShown()
    ensures StopsAsWritten(0, 1) && StepsProcessed(0, 1, true) == []
    ensures !Stops(0, 1) && StepsProcessed(0, 1, false) == [0]
  {
  }

  class NeuralVideoCodec {
    var frames: map<int, BufferedFrame>
    var capacity: int
    var bufferSize: int
    var currentFrame: int
    var isPlaying: bool
    var processingQueue: seq<int>
    var droppedFrames: nat
    var cachedFrames: map<int, CachedFrame>
    var cachedRanges: seq<(int, int)>
    var frameCount: int
    /** `frameReady` events emitted: frame index and whether a cache entry existed. */
    var emitted: seq<(int, bool)>
    /** How many times `playbackLoop` has been started. */
    var loopStarts: nat

    /** The buffer capacity follows the buffer size. */
    ghost predicate Valid()
      reads this
    {
      capacity == bufferSize
    }

    /** The constructor's state: an empty buffer whose capacity and size
        are `config.bufferSize || 30`, frame 0, not playing. */
    constructor (configuredBufferSize: Option<int>)
      ensures Valid() && bufferSize == DefaultBufferSize(configuredBufferSize)
      ensures frames == map[] && processingQueue == [] && currentFrame == 0 && !isPlaying
      ensures droppedFrames == 0 && cachedFrames == map[] && cachedRanges == [] && frameCount == 0
      ensures emitted == [] && loopStarts == 0
    {
      frames := map[];
      capacity := DefaultBufferSize(configuredBufferSize);
      bufferSize := DefaultBufferSize(configuredBufferSize);
      currentFrame := 0;
      isPlaying := false;
      processingQueue := [];
      droppedFrames := 0;
      cachedFrames := map[];
      cachedRanges := [];
      frameCount := 0;
      emitted := [];
      loopStarts := 0;
    }

    /** The server-limit step of `initializeConnection`: when the server
        sends a configuration, the buffer size becomes the smaller of the
        two and the capacity follows. */
    method ApplyServerConfig(serverBufferSize: Option<int>)
      requires Valid()
      modifies this`bufferSize, this`capacity
      ensures Valid()
      ensures serverBufferSize.Some? ==> bufferSize == Min(old(bufferSize), serverBufferSize.value)
      ensures serverBufferSize.None? ==> bufferSize == old(bufferSize)
      ensures bufferSize <= old(bufferSize)
    {
      if serverBufferSize.Some? {
        bufferSize := Min(bufferSize, serverBufferSize.value);
        capacity := bufferSize;
      }
    }

    /** `pause`. */
    method Pause()
      modifies this`isPlaying
      ensures !isPlaying
    {
      isPlaying := false;
    }

    /** `resume`: starts the playback loop only when not already playing. */
    method Resume()
      modifies this`isPlaying, this`loopStarts
      ensures isPlaying
      ensures loopStarts == if old(isPlaying) then old(loopStarts) else old(loopStarts) + 1
    {
      if !isPlaying {
        isPlaying := true;
        loopStarts := loopStarts + 1;
      }
    }

    /** `stop`: not playing, buffer and queue emptied. */
    method Stop()
      modifies this`isPlaying, this`frames, this`processingQueue
      ensures !isPlaying && frames == map[] && processingQueue == []
    {
      isPlaying := false;
      frames := map[];
      processingQueue := [];
    }

    /** `ensureFrameLoaded`: a buffered frame is returned as it is; otherwise
        the fetched data (None when the fetch failed) is stored and returned
        when it is a non-empty string. An existing entry is never replaced. */
    method EnsureFrameLoaded(frameIndex: int, fetched: Option<string>) returns (r: Option<string>)
      modifies this`frames
      ensures frameIndex in old(frames) ==> r == Some(old(frames)[frameIndex].data) && frames == old(frames)
      ensures frameIndex !in old(frames) && fetched.Some? && fetched.value != "" ==>
        r == fetched && frames == old(frames)[frameIndex := BufferedFrame(fetched.value, false)]
      ensures frameIndex !in old(frames) && (fetched.None? || fetched.value == "") ==>
        r == None && frames == old(frames)
    {
      if frameIndex in frames {
        return Some(frames[frameIndex].data);
      }
      if fetched.Some? && fetched.value != "" {
        frames := frames[frameIndex := BufferedFrame(fetched.value, false)];
        return fetched;
      }
      r := None;
    }

    /** `handleFrameData`: stores pushed frame data only for an index that is
        not buffered yet. */
    method HandleFrameData(frameIndex: int, data: string)
      modifies this`frames
      ensures frames == if frameIndex in old(frames) then old(frames)
                        else old(frames)[frameIndex := BufferedFrame(data, false)]
    {
      if frameIndex !in frames {
        frames := frames[frameIndex := BufferedFrame(data, false)];
      }
    }

    /** `prefetchFrames`: for the next `count` indices from the current
        frame, insert a cache-rendered frame for each unbuffered index that
        lies in a cached range and has a token-cache entry; fetch the others
        directly and discard what the fetch returns (`fetchFrame` catches
        its own errors). `render` stands for `processWithCache`, None where
        it throws: the exception leaves the loop, so the indices from that
        one on are not visited, and `failedAt` is the index it threw at. */
    method PrefetchFrames(count: int, render: int -> Option<string>) returns (failedAt: Option<int>)
      modifies this`frames
      ensures failedAt.Some? ==>
        && currentFrame <= failedAt.value < currentFrame + count
        && failedAt.value !in old(frames) && InCachedRange(cachedRanges, failedAt.value)
        && failedAt.value in cachedFrames && render(failedAt.value).None?
      ensures forall k :: k in old(frames) ==> k in frames && frames[k] == old(frames)[k]
      ensures var stop := if failedAt.Some? then failedAt.value else currentFrame + count;
        forall k :: k in frames && k !in old(frames) ==>
          && currentFrame <= k < stop
          && InCachedRange(cachedRanges, k) && k in cachedFrames
          && render(k).Some? && frames[k] == BufferedFrame(render(k).value, true)
      ensures var stop := if failedAt.Some? then failedAt.value else currentFrame + count;
        forall k :: (currentFrame <= k < stop && k !in old(frames)
                     && InCachedRange(cachedRanges, k) && k in cachedFrames) ==> k in frames
    {
      var i := 0;
      failedAt := None;
      while i < count && failedAt.None?
        invariant if count <= 0 then i == 0 else 0 <= i <= count
        invariant failedAt.Some? ==>
          && failedAt.value == currentFrame + i && i < count
          && failedAt.value !in old(frames) && InCachedRange(cachedRanges, failedAt.value)
          && failedAt.value in cachedFrames && render(failedAt.value).None?
        invariant forall k :: k in old(frames) ==> k in frames && frames[k] == old(frames)[k]
        invariant forall k :: k in frames && k !in old(frames) ==>
          && currentFrame <= k < currentFrame + i
          && InCachedRange(cachedRanges, k) && k in cachedFrames
          && render(k).Some? && frames[k] == BufferedFrame(render(k).value, true)
        invariant forall k :: (currentFrame <= k < currentFrame + i && k !in old(frames)
                               && InCachedRange(cachedRanges, k) && k in cachedFrames) ==> k in frames
        decreases count - i, if failedAt.None? then 1 else 0
      {
        var frameIndex := currentFrame + i;
        if frameIndex !in frames {
          var inRange := false;
          var j := 0;
          while j < |cachedRanges|
            invariant 0 <= j <= |cachedRanges|
            invariant inRange <==> exists r :: 0 <= r < j && cachedRanges[r].0 <= frameIndex <= cachedRanges[r].1
          {
            if cachedRanges[j].0 <= frameIndex <= cachedRanges[j].1 {
              inRange := true;
            }
            j := j + 1;
          }
          if inRange && frameIndex in cachedFrames {
            var data := render(frameIndex);
            if data.None? {
              // processWithCache threw: the loop is left here.
              failedAt := Some(frameIndex);
              continue;
            }
            frames := frames[frameIndex := BufferedFrame(data.value, true)];
          }
          // Otherwise fetchFrame(frameIndex) is started and its result dropped.
        }
        i := i + 1;
      }
    }

    /** The eviction half of `maintainBuffer`: every buffered frame below
        `minFrame` is deleted, the rest are kept as they are. */
    method EvictBelow(minFrame: int)
      modifies this`frames
      ensures frames == Evict(old(frames), minFrame)
    {
      var pending := frames.Keys;
      while pending != {}
        invariant pending <= frames.Keys
        invariant forall k :: k in frames <==> k in old(frames) && (k in pending || k >= minFrame)
        invariant forall k :: k in frames ==> frames[k] == old(frames)[k]
        decreases |pending|
      {
        if forall x :: x !in pending { assert false; }
        var k :| k in pending;
        if k < minFrame {
          frames := frames - {k};
        }
        pending := pending - {k};
      }
      forall k | k in old(frames) && k >= minFrame ensures k in frames { }
      forall k | k in frames ensures k >= minFrame { assert k !in pending; }
    }

    /** `Math.max(...this.frameBuffer.keys()) + 1`, or the current frame
        when the buffer is empty: the frame to load next. */
    method NextFrameToBuffer() returns (next: int)
      ensures next == NextToBuffer(frames, currentFrame)
      ensures frames != map[] ==> next - 1 in frames && forall k :: k in frames ==> k < next
    {
      next := currentFrame;
      if frames.Keys != {} {
        var keys := frames.Keys;
        if forall x :: x !in keys { assert false; }
        var first :| first in keys;
        var highest := first;
        keys := keys - {first};
        while keys != {}
          invariant keys <= frames.Keys && highest in frames
          invariant forall k :: k in frames && k !in keys ==> k <= highest
          decreases |keys|
        {
          if forall x :: x !in keys { assert false; }
          var k :| k in keys;
          if k > highest {
            highest := k;
          }
          keys := keys - {k};
        }
        next := highest + 1;
      }
    }

    /** `maintainBuffer`: evict every frame below `currentFrame - 5`; then,
        unless the end of the video is reached, load the next frame when it
        is within `capacity` frames of the current one. `fetched` is what
        fetching that frame would give. */
    method MaintainBuffer(fetched: Option<string>) returns (loaded: Option<int>)
      modifies this`frames
      ensures var kept := Evict(old(frames), currentFrame - 5);
        var next := NextToBuffer(kept, currentFrame);
        && (loaded.Some? <==> next < frameCount && next < currentFrame + capacity && fetched.Some? && fetched.value != "")
        && (loaded.Some? ==> loaded.value == next && frames == kept[next := BufferedFrame(fetched.value, false)])
        && (loaded.None? ==> frames == kept)
      ensures forall k :: k in frames ==> k >= currentFrame - 5
    {
      EvictBelow(currentFrame - 5);
      ghost var kept := frames;
      var next := NextFrameToBuffer();
      assert next !in kept && next >= currentFrame - 5;
      // End of the video: nothing to load.
      if next >= frameCount {
        return None;
      }
      loaded := None;
      if next < currentFrame + capacity {
        var r := EnsureFrameLoaded(next, fetched);
        if r.Some? {
          loaded := Some(next);
        }
      }
    }

    /** `processNextFrame`, with the stop rule as written: with an empty
        queue at or past frame `frameCount - 1`, playback stops, so the last
        frame is never processed (`AsWrittenStepsSkipLastFrame`). Otherwise the current frame is
        queued if the queue is empty, and its head is processed from cached
        tokens or, failing that, from a token the server is asked for (then
        cached). Success emits `frameReady`, dequeues and advances the
        current frame; failure counts a dropped frame and dequeues. */
    method ProcessNextFrame(attempt: FrameAttempt)
      modifies this`isPlaying, this`frames, this`processingQueue, this`cachedFrames
      modifies this`emitted, this`currentFrame, this`droppedFrames
      ensures old(processingQueue) == [] && StopsAsWritten(old(currentFrame), old(frameCount)) ==>
        && !isPlaying && frames == map[] && processingQueue == []
        && currentFrame == old(currentFrame) && droppedFrames == old(droppedFrames)
        && emitted == old(emitted) && cachedFrames == old(cachedFrames)
      ensures !(old(processingQueue) == [] && StopsAsWritten(old(currentFrame), old(frameCount))) ==>
        var queue := if old(processingQueue) == [] then [old(currentFrame)] else old(processingQueue);
        var head := queue[0];
        var cached := head in old(cachedFrames) && old(cachedFrames)[head].tokens.Some?;
        var ok := attempt.renderOk && (cached || attempt.serverToken.Some?);
        && processingQueue == queue[1..]
        && frames == old(frames) && isPlaying == old(isPlaying)
        && (ok ==> currentFrame == old(currentFrame) + 1 && droppedFrames == old(droppedFrames)
                   && emitted == old(emitted) + [(head, head in old(cachedFrames))])
        && (!ok ==> currentFrame == old(currentFrame) && droppedFrames == old(droppedFrames) + 1
                    && emitted == old(emitted))
        && (ok && !cached ==> cachedFrames == old(cachedFrames)[head := CachedFrame(attempt.serverToken)])
        && ((ok ==> cached) ==> cachedFrames == old(cachedFrames))
      ensures frameCount == old(frameCount) && capacity == old(capacity) && bufferSize == old(bufferSize)
      ensures cachedRanges == old(cachedRanges) && loopStarts == old(loopStarts)
    {
      if processingQueue == [] {
        if StopsAsWritten(currentFrame, frameCount) {
          Stop();
          return;
        }
        processingQueue := processingQueue + [currentFrame];
      }
      var frameIndex := processingQueue[0];
      var hadEntry := frameIndex in cachedFrames;
      var ok: bool;
      if hadEntry && cachedFrames[frameIndex].tokens.Some? {
        // processWithFeatures on the cached tokens.
        ok := attempt.renderOk;
      } else if attempt.serverToken.None? {
        // "No token data in response".
        ok := false;
      } else if !attempt.renderOk {
        ok := false;
      } else {
        cachedFrames := cachedFrames[frameIndex := CachedFrame(attempt.serverToken)];
        ok := true;
      }
      if ok {
        emitted := emitted + [(frameIndex, hadEntry)];
        processingQueue := processingQueue[1..];
        currentFrame := currentFrame + 1;
      } else {
        droppedFrames := droppedFrames + 1;
        processingQueue := processingQueue[1..];
      }
    }
  }
}

=== FILE: performance_monitor.dfy ===
/** The client-side performance monitor
    (imf-decoder/js/utils/performance-monitor.ts): four bounded sample
    series keyed by name, the time of the previous frame, and averages over
    the non-empty series. The clock and the tensor library's memory report
    enter as parameters. */
module PerformanceMonitoring {
  import opened RollingWindow

  datatype MetricKey = Fps | InferenceTime | MemoryUsage | TensorCount

  /** A JavaScript number as far as these series need: a finite value, or
      the `Infinity` that dividing by a zero interval yields. */
  datatype Number = Finite(value: real) | Infinity

  const MAX_SAMPLES: nat := 60

  const ALL_KEYS: set<MetricKey> := {Fps, InferenceTime, MemoryUsage, TensorCount}

  /** `1000 / (now - lastFrameTime)`. */
  function FpsSample(now: real, last: real): (n: Number)
    ensures n.Infinity? <==> now == last
    ensures n.Finite? ==> n.value * (now - last) == 1000.0
  {
    if now == last then Infinity else Finite(1000.0 / (now - last))
  }

  function FiniteSum(s: seq<Number>): real
  {
    if s == [] then 0.0 else FiniteSum(s[..|s| - 1]) + (if s[|s| - 1].Finite? then s[|s| - 1].value else 0.0)
  }

  /** The mean of a non-empty series; `Infinity` absorbs every finite sum. */
  function Mean(s: seq<Number>): (m: Number)
    requires s != []
    ensures m.Infinity? <==> exists i :: 0 <= i < |s| && s[i].Infinity?
  {
    if exists i :: 0 <= i < |s| && s[i].Infinity? then Infinity
    else Finite(FiniteSum(s) / (|s| as real))
  }

  /** Every series is present, and each is the newest `MAX_SAMPLES` of
      its history. */
  ghost predicate WindowsMatch(metrics: map<MetricKey, seq<Number>>, history: map<MetricKey, seq<Number>>)
  {
    && metrics.Keys == ALL_KEYS && history.Keys == ALL_KEYS
    && forall k :: k in metrics ==> metrics[k] == LastN(history[k], MAX_SAMPLES)
  }

  /** Pushing one sample onto one series keeps every series the newest
      `MAX_SAMPLES` of its history, and the new sample is kept. */
  lemma PushKeepsWindows(metrics: map<MetricKey, seq<Number>>, history: map<MetricKey, seq<Number>>, key: MetricKey, value: Number)
    requires WindowsMatch(metrics, history)
    ensures WindowsMatch(metrics[key := Slide(metrics[key], value, MAX_SAMPLES)], history[key := history[key] + [value]])
    ensures |Slide(metrics[key], value, MAX_SAMPLES)| <= MAX_SAMPLES
    ensures Slide(metrics[key], value, MAX_SAMPLES)[|Slide(metrics[key], value, MAX_SAMPLES)| - 1] == value
  {
    assert key in metrics && key in history;
    SlideKeepsNewest(history[key], value, MAX_SAMPLES);
    SlideBounded(metrics[key], value, MAX_SAMPLES);
    var m := metrics[key := Slide(metrics[key], value, MAX_SAMPLES)];
    var h := history[key := history[key] + [value]];
    assert m.Keys == metrics.Keys && h.Keys == history.Keys;
    assert m[key] == LastN(h[key], MAX_SAMPLES);
    forall k | k in m
      ensures m[k] == LastN(h[k], MAX_SAMPLES)
    {
      if k != key {
        assert m[k] == metrics[k] && h[k] == history[k];
      }
    }
  }

  class PerformanceMonitor {
    var metrics: map<MetricKey, seq<Number>>
    var lastFrameTime: real

    /** Every sample ever pushed, per series, since creation or `reset`. */
    ghost var History: map<MetricKey, seq<Number>>

    ghost predicate Valid()
      reads this
    {
      WindowsMatch(metrics, History)
    }

    /** A new monitor: four empty series and no previous frame. */
    constructor ()
      ensures Valid() && lastFrameTime == 0.0
      ensures forall k :: k in metrics ==> metrics[k] == [] && History[k] == []
    {
      metrics := map[Fps := [], InferenceTime := [], MemoryUsage := [], TensorCount := []];
      History := map[Fps := [], InferenceTime := [], MemoryUsage := [], TensorCount := []];
      lastFrameTime := 0.0;
    }

    /** `pushMetric`: append to the named series and shift off the oldest
        once it holds more than 60; the other series are untouched. */
    method PushMetric(key: MetricKey, value: Number)
      requires Valid()
      modifies this`metrics, this`History
      ensures Valid()
      ensures metrics == old(metrics)[key := Slide(old(metrics)[key], value, MAX_SAMPLES)]
      ensures History == old(History)[key := old(History)[key] + [value]]
      ensures |metrics[key]| <= MAX_SAMPLES && metrics[key][|metrics[key]| - 1] == value
    {
      PushKeepsWindows(metrics, History, key, value);
      var series := metrics[key] + [value];
      if |series| > MAX_SAMPLES {
        series := series[1..];
      }
      metrics := metrics[key := series];
      History := History[key := History[key] + [value]];
    }

    /** `recordMetrics`: an fps sample only when a previous frame time is
        recorded (`lastFrameTime > 0`); `lastFrameTime` always becomes `now`;
        then exactly one inference-time, one memory and one tensor-count
        sample. `now` is `performance.now()`, `numBytes` and `numTensors`
        are what `tf.memory()` reports. */
    method RecordMetrics(inferenceTime: real, now: real, numBytes: nat, numTensors: nat)
      requires Valid()
      modifies this
      ensures Valid() && lastFrameTime == now
      ensures metrics[Fps] ==
        if old(lastFrameTime) > 0.0 then Slide(old(metrics)[Fps], FpsSample(now, old(lastFrameTime)), MAX_SAMPLES)
        else old(metrics)[Fps]
      ensures metrics[InferenceTime] == Slide(old(metrics)[InferenceTime], Finite(inferenceTime), MAX_SAMPLES)
      ensures metrics[MemoryUsage] == Slide(old(metrics)[MemoryUsage], Finite(numBytes as real), MAX_SAMPLES)
      ensures metrics[TensorCount] == Slide(old(metrics)[TensorCount], Finite(numTensors as real), MAX_SAMPLES)
    {
      if lastFrameTime > 0.0 {
        PushMetric(Fps, FpsSample(now, lastFrameTime));
      }
      lastFrameTime := now;
      PushMetric(InferenceTime, Finite(inferenceTime));
      RecordMemoryUsage(numBytes, numTensors);
    }

    /** `recordMemoryUsage`: one memory and one tensor-count sample. */
    method RecordMemoryUsage(numBytes: nat, numTensors: nat)
      requires Valid()
      modifies this`metrics, this`History
      ensures Valid()
      ensures metrics == old(metrics)[MemoryUsage := Slide(old(metrics)[MemoryUsage], Finite(numBytes as real), MAX_SAMPLES)]
                                     [TensorCount := Slide(old(metrics)[TensorCount], Finite(numTensors as real), MAX_SAMPLES)]
    {
      PushMetric(MemoryUsage, Finite(numBytes as real));
      PushMetric(TensorCount, Finite(numTensors as real));
    }

    /** `getAverageMetrics`: a key exactly for each non-empty series, mapped
        to that series' mean. */
    function GetAverageMetrics(): (averages: map<MetricKey, Number>)
      reads this
      requires Valid()
      ensures forall k :: k in averages <==> k in metrics && metrics[k] != []
      ensures forall k :: k in averages ==> (averages[k].Infinity? <==> Infinity in metrics[k])
    {
      map k | k in metrics && metrics[k] != [] :: Mean(metrics[k])
    }

    /** `reset`: four empty series and no previous frame. */
    method Reset()
      requires Valid()
      modifies this
      ensures Valid() && lastFrameTime == 0.0
      ensures forall k :: k in metrics ==> metrics[k] == []
      ensures GetAverageMetrics() == map[]
    {
      metrics := map[Fps := [], InferenceTime := [], MemoryUsage := [], TensorCount := []];
      History := map[Fps := [], InferenceTime := [], MemoryUsage := [], TensorCount := []];
      lastFrameTime := 0.0;
    }
  }

  /** The first `recordMetrics` after construction records no fps sample;
      the second records one. */
  method FirstFrameScenario() returns (afterFirst: nat, afterSecond: nat, inference: nat)
    ensures afterFirst == 0 && afterSecond == 1 && inference == 2
  {
    var m := new PerformanceMonitor();
    m.RecordMetrics(5.0, 100.0, 1024, 3);
    afterFirst := |m.metrics[Fps]|;
    m.RecordMetrics(6.0, 116.0, 1024, 3);
    afterSecond := |m.metrics[Fps]|;
    inference := |m.metrics[InferenceTime]|;
  }
}

=== FILE: player.dfy ===
/** The main-thread player (imf-decoder/src/player.rs): a status enum, an
    optional worker handle, and guarded commands that post string messages
    to the worker. Whether posting succeeds is decided by the host and
    enters as a parameter; the log holds the messages that were delivered. */
module Player {
  import opened Common

  datatype PlayerStatus = Idle | Ready | Playing | Pause | Destroyed

  datatype PlayerError = NotReady | NotPlaying | PostFailed

  datatype PlayerCommand = InitializeCmd | StartCmd | PauseCmd

  /** One command: the status afterwards, the message delivered (if any),
      and whether it returned Ok. */
  datatype PlayerOutcome = PlayerOutcome(status: PlayerStatus, delivered: seq<string>, ok: bool)

  /** The transition function of the player's methods, given whether a
      worker is attached and whether posting to it succeeds. */
  function Step(s: PlayerStatus, hasWorker: bool, c: PlayerCommand, postOk: bool): (o: PlayerOutcome)
    ensures !o.ok ==> o.status == s && o.delivered == []
    ensures o.status != s ==> o.ok && hasWorker && postOk
  {
    match c
    case InitializeCmd =>
      if !hasWorker then PlayerOutcome(s, [], true)
      else if !postOk then PlayerOutcome(s, [], false)
      else PlayerOutcome(Ready, ["initialize"], true)
    case StartCmd =>
      if s != Ready then PlayerOutcome(s, [], false)
      else if !hasWorker then PlayerOutcome(s, [], true)
      else if !postOk then PlayerOutcome(s, [], false)
      else PlayerOutcome(Playing, ["start"], true)
    case PauseCmd =>
      if s != Playing then PlayerOutcome(s, [], false)
      else if !hasWorker then PlayerOutcome(s, [], true)
      else if !postOk then PlayerOutcome(s, [], false)
      else PlayerOutcome(Pause, ["pause"], true)
  }

  /** One command together with the host's answer to its post. */
  datatype Call = Call(command: PlayerCommand, postOk: bool)

  /** The status after running `calls` from `s` with a worker attached. */
  function Run(s: PlayerStatus, calls: seq<Call>): PlayerStatus
    decreases |calls|
  {
    if calls == [] then s else Run(Step(s, true, calls[0].command, calls[0].postOk).status, calls[1..])
  }

  /** No command assigns `Destroyed`: a player that is not destroyed never
      becomes so. */
  lemma {:induction false} NeverDestroyed(s: PlayerStatus, calls: seq<Call>)
    requires s != Destroyed
    ensures Run(s, calls) != Destroyed
    decreases |calls|
  {
    if calls != [] {
      NeverDestroyed(Step(s, true, calls[0].command, calls[0].postOk).status, calls[1..]);
    }
  }

  /** Each status is entered by exactly one command from exactly one
      source status: `Playing` only by `start` from `Ready`, `Pause` only by
      `pause` from `Playing`, `Ready` only by `initialize`; and `Pause` is
      left only through `initialize`. */
  lemma TransitionsAreGuarded(s: PlayerStatus, hasWorker: bool, c: PlayerCommand, postOk: bool)
    ensures var t := Step(s, hasWorker, c, postOk).status;
      && (t == Playing && s != Playing ==> c == StartCmd && s == Ready)
      && (t == Pause && s != Pause ==> c == PauseCmd && s == Playing)
      && (t == Ready && s != Ready ==> c == InitializeCmd)
      && (s == Pause && t != Pause ==> c == InitializeCmd)
  {
  }

  class Player {
    var status: PlayerStatus
    var hasWorker: bool
    var posted: seq<string>
    const width: nat
    const height: nat

    /** `Player::new` once `Worker::new` has succeeded: status `Idle`, a
        worker attached, nothing posted. */
    constructor (width: nat, height: nat)
      ensures status == Idle && hasWorker && posted == []
      ensures this.width == width && this.height == height
    {
      this.width := width;
      this.height := height;
      status := Idle;
      hasWorker := true;
      posted := [];
    }

    /** `initialize`: no status guard. With a worker, post "initialize" and
        become `Ready`; a failed post returns the error before the status
        changes. */
    method Initialize(postOk: bool) returns (r: Result<(), PlayerError>)
      modifies this`status, this`posted
      ensures hasWorker && postOk ==> r.Ok? && status == Ready && posted == old(posted) + ["initialize"]
      ensures hasWorker && !postOk ==> r == Err(PostFailed) && status == old(status) && posted == old(posted)
      ensures !hasWorker ==> r.Ok? && status == old(status) && posted == old(posted)
      ensures PlayerOutcome(status, posted[|old(posted)|..], r.Ok?) == Step(old(status), hasWorker, InitializeCmd, postOk)
    {
      if hasWorker {
        if !postOk {
          return Err(PostFailed);
        }
        posted := posted + ["initialize"];
        status := Ready;
      }
      r := Ok(());
    }

    /** `start`: "Player not ready" unless `Ready`; then post "start" and
        become `Playing`. */
    method Start(postOk: bool) returns (r: Result<(), PlayerError>)
      modifies this`status, this`posted
      ensures old(status) != Ready ==> r == Err(NotReady) && status == old(status) && posted == old(posted)
      ensures old(status) == Ready && hasWorker && postOk ==>
        r.Ok? && status == Playing && posted == old(posted) + ["start"]
      ensures old(posted) <= posted
      ensures PlayerOutcome(status, posted[|old(posted)|..], r.Ok?) == Step(old(status), hasWorker, StartCmd, postOk)
    {
      if status != Ready {
        return Err(NotReady);
      }
      if hasWorker {
        if !postOk {
          return Err(PostFailed);
        }
        posted := posted + ["start"];
        status := Playing;
      }
      r := Ok(());
    }

    /** `pause`: "Player not playing" unless `Playing`; then post "pause"
        and become `Pause`. */
    method Pause(postOk: bool) returns (r: Result<(), PlayerError>)
      modifies this`status, this`posted
      ensures old(status) != Playing ==> r == Err(NotPlaying) && status == old(status) && posted == old(posted)
      ensures old(status) == Playing && hasWorker && postOk ==>
        r.Ok? && status == PlayerStatus.Pause && posted == old(posted) + ["pause"]
      ensures old(posted) <= posted
      ensures PlayerOutcome(status, posted[|old(posted)|..], r.Ok?) == Step(old(status), hasWorker, PauseCmd, postOk)
    {
      if status != Playing {
        return Err(NotPlaying);
      }
      if hasWorker {
        if !postOk {
          return Err(PostFailed);
        }
        posted := posted + ["pause"];
        status := PlayerStatus.Pause;
      }
      r := Ok(());
    }
  }
}

=== FILE: queue.dfy ===
/** The staged frame queue of imf-decoder/src/decoder/queue.rs: three FIFO
    stages (input, processing, output), a capacity limit on the input stage
    only, and the metrics the queue keeps about itself. */
module FrameQueue {
  import opened Common
  import opened Frames
  import RollingWindow

  /** How many processing-time samples the metrics keep. */
  const PROCESSING_WINDOW: nat := 100

  /** `QueueStats`, the snapshot `get_metrics` returns. The f32 utilization is
      reported as its numerator: the frame total over all three stages, to be
      divided by `3 * maxSize`. */
  datatype QueueStats = QueueStats(
    framesProcessed: nat,
    framesDropped: nat,
    averageProcessingTime: real,
    utilizationFrames: nat,
    inputSize: nat,
    processingSize: nat,
    outputSize: nat,
    lastProcessTime: real,
    maxSize: nat,
    batchSize: nat)

  /** `get_average_processing_time`: 0 for an empty window, else the mean. */
  function Average(s: seq<real>): real
  {
    if |s| == 0 then 0.0 else Sum(s) / (|s| as real)
  }

  /** The processing times a batch of `n` calls records: the measured value
      of each call that had one, in call order. */
  function Recorded(timing: nat -> Option<real>, n: nat): (samples: seq<real>)
    ensures |samples| <= n
  {
    if n == 0 then []
    else Recorded(timing, n - 1) + (if timing(n - 1).Some? then [timing(n - 1).value] else [])
  }

  /** `last_process_time` after a batch of `n` calls that started from
      `before`: the latest measured value, or `before` when none was. */
  function LastRecorded(timing: nat -> Option<real>, n: nat, before: real): (t: real)
    ensures Recorded(timing, n) == [] ==> t == before
    ensures Recorded(timing, n) != [] ==> t == Recorded(timing, n)[|Recorded(timing, n)| - 1]
  {
    if n == 0 then before
    else if timing(n - 1).Some? then timing(n - 1).value
    else LastRecorded(timing, n - 1, before)
  }

  class Queue {
    var input: seq<FrameValue>
    var processing: seq<FrameValue>
    var output: seq<FrameValue>
    const maxSize: nat
    const batchSize: nat

    // QueueMetrics
    var framesProcessed: nat
    var framesDropped: nat
    var processingTimes: seq<real>
    /** Numerator of `queue_utilization` as last recomputed. */
    var utilizationFrames: nat
    var lastProcessTime: real

    /** Every frame admitted by `push` since creation or the last `clear`. */
    ghost var Admitted: seq<FrameValue>
    /** Every processing time recorded since creation or the last `clear`. */
    ghost var TimeHistory: seq<real>

    /** The queue invariant: the input stage is within capacity, the
        processing stage is empty between public calls, output followed by
        input is exactly what was admitted (FIFO end to end, nothing lost),
        the utilization numerator is current, and the time window holds the
        newest samples. */
    ghost predicate Valid()
      reads this
    {
      && |input| <= maxSize
      && processing == []
      && output + input == Admitted
      && utilizationFrames == |input| + |processing| + |output|
      && processingTimes == RollingWindow.LastN(TimeHistory, PROCESSING_WINDOW)
    }

    /** `Queue::new`: three empty stages and default metrics. */
    constructor (maxSize: nat, batchSize: nat)
      ensures Valid()
      ensures this.maxSize == maxSize && this.batchSize == batchSize
      ensures input == [] && processing == [] && output == [] && Admitted == []
      ensures framesProcessed == 0 && framesDropped == 0
      ensures processingTimes == [] && utilizationFrames == 0 && lastProcessTime == 0.0
    {
      this.maxSize := maxSize;
      this.batchSize := batchSize;
      input, processing, output := [], [], [];
      framesProcessed, framesDropped := 0, 0;
      processingTimes, utilizationFrames, lastProcessTime := [], 0, 0.0;
      Admitted, TimeHistory := [], [];
    }

    /** `push`: admit at the back of input iff input is below capacity;
        otherwise reject the newest frame and count it as dropped. A rejection
        never evicts anything. */
    method Push(frame: FrameValue) returns (admitted: bool)
      requires Valid()
      modifies this
      ensures Valid()
      ensures admitted <==> old(|input|) < maxSize
      ensures admitted ==> input == old(input) + [frame] && framesDropped == old(framesDropped)
      ensures !admitted ==> input == old(input) && framesDropped == old(framesDropped) + 1
      ensures Admitted == if admitted then old(Admitted) + [frame] else old(Admitted)
      ensures processing == old(processing) && output == old(output)
      ensures framesProcessed == old(framesProcessed)
      ensures processingTimes == old(processingTimes) && lastProcessTime == old(lastProcessTime)
      ensures TimeHistory == old(TimeHistory)
    {
      if |input| < maxSize {
        input := input + [frame];
        Admitted := Admitted + [frame];
        UpdateMetrics();
        admitted := true;
      } else {
        framesDropped := framesDropped + 1;
        admitted := false;
      }
    }

    /** `process_frame`: move the head of processing to the back of output and
        hand back that frame. */
    method ProcessFrame() returns (r: Option<FrameValue>)
      modifies this`processing, this`output
      ensures old(processing) == [] ==> r == None && processing == [] && output == old(output)
      ensures old(processing) != [] ==>
        && r == Some(old(processing)[0])
        && processing == old(processing)[1..]
        && output == old(output) + [old(processing)[0]]
    {
      if |processing| > 0 {
        var frame := processing[0];
        processing := processing[1..];
        output := output + [frame];
        r := Some(frame);
      } else {
        r := None;
      }
    }

    /** `update_metrics`: recompute the utilization from the stage sizes. */
    method UpdateMetrics()
      modifies this`utilizationFrames
      ensures utilizationFrames == |input| + |processing| + |output|
    {
      utilizationFrames := |input| + |processing| + |output|;
    }

    /** `process_next`. The head of input passes through processing into
        output, and a copy is returned; processing is empty again afterwards.
        `elapsed` is the time the host clock measured for the call, or None
        when the host has no `window.performance` (in a worker), in which case
        nothing is recorded. */
    method ProcessNext(elapsed: Option<real>) returns (r: Option<FrameValue>)
      requires Valid()
      modifies this`input, this`processing, this`output, this`framesProcessed
      modifies this`processingTimes, this`utilizationFrames, this`lastProcessTime, this`TimeHistory
      ensures Valid()
      ensures old(input) == [] ==> r == None && input == [] && output == old(output)
      ensures old(input) != [] ==>
        && r == Some(old(input)[0])
        && input == old(input)[1..]
        && output == old(output) + [old(input)[0]]
      ensures framesProcessed == if r.Some? then old(framesProcessed) + 1 else old(framesProcessed)
      ensures framesDropped == old(framesDropped) && Admitted == old(Admitted)
      ensures elapsed.None? ==> processingTimes == old(processingTimes) && lastProcessTime == old(lastProcessTime)
      ensures elapsed.Some? ==>
        && processingTimes == RollingWindow.Slide(old(processingTimes), elapsed.value, PROCESSING_WINDOW)
        && lastProcessTime == elapsed.value
      ensures TimeHistory == if elapsed.Some? then old(TimeHistory) + [elapsed.value] else old(TimeHistory)
    {
      var result: Option<FrameValue>;
      if |input| > 0 {
        var frame := input[0];
        input := input[1..];
        processing := processing + [frame];
        result := ProcessFrame();
      } else {
        result := None;
      }

      if elapsed.Some? {
        RollingWindow.SlideKeepsNewest(TimeHistory, elapsed.value, PROCESSING_WINDOW);
        processingTimes := processingTimes + [elapsed.value];
        lastProcessTime := elapsed.value;
        if |processingTimes| > PROCESSING_WINDOW {
          processingTimes := processingTimes[1..];
        }
        TimeHistory := TimeHistory + [elapsed.value];
      }

      if result.Some? {
        framesProcessed := framesProcessed + 1;
      }

      UpdateMetrics();
      r := result;
    }

    /** `process_batch`: call `process_next` while fewer than `batchSize`
        frames have been produced and input is not empty. `timing(i)` is what
        the host clock measured for the i-th call. Exactly
        min(batchSize, |input|) frames come out, oldest first, and stay
        behind in output. */
    method ProcessBatch(timing: nat -> Option<real>) returns (batch: seq<FrameValue>)
      requires Valid()
      modifies this`input, this`processing, this`output, this`framesProcessed
      modifies this`processingTimes, this`utilizationFrames, this`lastProcessTime, this`TimeHistory
      ensures Valid()
      ensures |batch| == Min(batchSize, |old(input)|)
      ensures batch == old(input)[..|batch|]
      ensures input == old(input)[|batch|..]
      ensures output == old(output) + batch
      ensures framesProcessed == old(framesProcessed) + |batch|
      ensures framesDropped == old(framesDropped) && Admitted == old(Admitted)
      ensures TimeHistory == old(TimeHistory) + Recorded(timing, |batch|)
      ensures processingTimes == RollingWindow.LastN(old(TimeHistory) + Recorded(timing, |batch|), PROCESSING_WINDOW)
      ensures lastProcessTime == LastRecorded(timing, |batch|, old(lastProcessTime))
    {
      batch := [];
      while |batch| < batchSize && |input| > 0
        invariant Valid()
        invariant |batch| <= batchSize || batch == []
        invariant |batch| <= |old(input)| && batch == old(input)[..|batch|] && input == old(input)[|batch|..]
        invariant output == old(output) + batch
        invariant framesProcessed == old(framesProcessed) + |batch|
        invariant framesDropped == old(framesDropped) && Admitted == old(Admitted)
        invariant TimeHistory == old(TimeHistory) + Recorded(timing, |batch|)
        invariant lastProcessTime == LastRecorded(timing, |batch|, old(lastProcessTime))
        decreases |input|
      {
        var frame := ProcessNext(timing(|batch|));
        if frame.Some? {
          batch := batch + [frame.value];
        }
      }
    }

    /** `get_size`: the input length, never above capacity. */
    function Size(): (n: nat)
      reads this
      requires Valid()
      ensures n <= maxSize
    {
      |input|
    }

    /** `remaining_capacity`: what input can still admit; with the invariant
        the usize subtraction cannot underflow. */
    function RemainingCapacity(): (n: nat)
      reads this
      requires Valid()
      ensures n + Size() == maxSize
    {
      maxSize - |input|
    }

    /** `is_full`: the next push would be rejected. */
    function IsFull(): (full: bool)
      reads this
      requires Valid()
      ensures full <==> RemainingCapacity() == 0
    {
      |input| >= maxSize
    }

    /** `is_empty`: all three stages are empty, that is, nothing has been
        admitted since creation or the last `clear`. */
    function IsEmpty(): (empty: bool)
      reads this
      requires Valid()
      ensures empty <==> Admitted == []
    {
      |input| == 0 && |processing| == 0 && |output| == 0
    }

    /** `get_queue_sizes`: (input, processing, output). */
    function QueueSizes(): (sizes: (nat, nat, nat))
      reads this
      requires Valid()
      ensures sizes.0 <= maxSize && sizes.1 == 0
      ensures sizes.0 + sizes.1 + sizes.2 == |Admitted|
    {
      (|input|, |processing|, |output|)
    }

    /** `get_metrics`. */
    function GetMetrics(): (stats: QueueStats)
      reads this
      requires Valid()
      ensures stats.inputSize <= stats.maxSize && stats.processingSize == 0
      ensures stats.utilizationFrames == stats.inputSize + stats.outputSize == |Admitted|
      ensures stats.framesProcessed == framesProcessed && stats.framesDropped == framesDropped
      ensures |processingTimes| == 0 ==> stats.averageProcessingTime == 0.0
    {
      QueueStats(
        framesProcessed,
        framesDropped,
        Average(processingTimes),
        utilizationFrames,
        |input|,
        |processing|,
        |output|,
        lastProcessTime,
        maxSize,
        batchSize)
    }

    /** `clear` (also what `Drop` does): empty all three stages and reset the
        metrics to their defaults; discarded frames are not counted as
        dropped. */
    method Clear()
      requires Valid()
      modifies this
      ensures Valid()
      ensures input == [] && processing == [] && output == [] && Admitted == []
      ensures framesProcessed == 0 && framesDropped == 0
      ensures processingTimes == [] && utilizationFrames == 0 && lastProcessTime == 0.0
    {
      input, processing, output := [], [], [];
      framesProcessed, framesDropped := 0, 0;
      processingTimes, utilizationFrames, lastProcessTime := [], 0, 0.0;
      Admitted, TimeHistory := [], [];
    }
  }

  /** The `test_queue_overflow` scenario: capacity 2, three pushes. */
  method OverflowScenario() returns (first: bool, second: bool, third: bool, full: bool, dropped: nat)
    ensures first && second && !third && full && dropped == 1
  {
    var q := new Queue(2, 1);
    var f := ZeroFrame(640, 480);
    first := q.Push(f);
    second := q.Push(f);
    third := q.Push(f);
    full := q.IsFull();
    dropped := q.framesDropped;
  }

  /** The `test_batch_processing` scenario: capacity 10, batch 3, five pushes,
      one batch; and the continuation in which two more batches drain input. */
  method BatchScenario() returns (sizes: seq<nat>, processed: nat, left: nat)
    ensures sizes == [3, 2, 0] && processed == 5 && left == 0
  {
    var q := new Queue(10, 3);
    var f := ZeroFrame(640, 480);
    var i := 0;
    while i < 5
      invariant 0 <= i <= 5
      invariant q.Valid() && |q.input| == i && q.maxSize == 10 && q.batchSize == 3
      invariant q.framesProcessed == 0
    {
      var _ := q.Push(f);
      i := i + 1;
    }
    var b1 := q.ProcessBatch(_ => None);
    var b2 := q.ProcessBatch(_ => None);
    var b3 := q.ProcessBatch(_ => None);
    sizes := [|b1|, |b2|, |b3|];
    processed := q.framesProcessed;
    left := q.Size();
  }

  /** The `test_queue_metrics` scenario: utilization is zero on a fresh queue
      and positive after one admitted push, with no frame processed or dropped. */
  method MetricsScenario() returns (before: nat, after: nat, processed: nat, dropped: nat)
    ensures before == 0 && after > 0 && processed == 0 && dropped == 0
  {
    var q := new Queue(5, 2);
    before := q.GetMetrics().utilizationFrames;
    var _ := q.Push(ZeroFrame(640, 480));
    var stats := q.GetMetrics();
    after, processed, dropped := stats.utilizationFrames, stats.framesProcessed, stats.framesDropped;
  }
}

=== FILE: rtc_codec.dfy ===
/** Bookkeeping of the WebRTC neural codec client
    (src/components/RTCNeuralCodec.ts): the index arithmetic that splits a
    large reference tensor, the reference-feature check, token filtering
    and chunking, the reconnect retry counter, and the playback state.
    Sockets, the peer connection, audio, timers and model inference enter as
    parameters that say how each of those turned out. */
module RtcCodec {
  import opened Common
  import NeuralCodec

  const MAX_RETRY_ATTEMPTS: nat := 5
  const INITIAL_RETRY_DELAY: nat := 1000
  const MAX_RETRY_DELAY: nat := 30000
  const MAX_TENSOR_SIZE: nat := 1024 * 1024 * 1024
  const TOKEN_LENGTH: nat := 32
  const TOKEN_CHUNK_SIZE: nat := 10

  // ---------------------------------------------------------------------
  // splitTensor4D: slice ranges along the first axis

  /** How many slices a tensor of `size` elements is cut into:
      `max(1, floor(size * 4 / MAX_TENSOR_SIZE))`. */
  function SplitCount(size: nat): (d: nat)
    ensures d >= 1
    ensures size * 4 < 2 * MAX_TENSOR_SIZE ==> d == 1
    ensures d > 1 ==> d * MAX_TENSOR_SIZE <= size * 4 < (d + 1) * MAX_TENSOR_SIZE
  {
    Max(1, size * 4 / MAX_TENSOR_SIZE)
  }

  /** `Math.ceil(n / d)`: the smallest slice length with `d` slices covering `n`. */
  function SliceLength(n: nat, d: nat): nat
    requires d >= 1
  {
    (n + d - 1) / d
  }

  /** `SliceLength` is the ceiling of `n / d`. */
  lemma SliceLengthIsCeiling(n: nat, d: nat)
    requires d >= 1
    ensures SliceLength(n, d) * d >= n
    ensures SliceLength(n, d) * d < n + d
  {
    var s := SliceLength(n, d);
    var r := (n + d - 1) % d;
    assert s * d + r == n + d - 1;
  }

  /** Slice `i` as (begin, extent): begin `i * s`, end `min(begin + s, n)`. */
  function Slice(i: nat, n: nat, d: nat): (int, int)
    requires d >= 1
  {
    var s := SliceLength(n, d);
    (i * s, Min(i * s + s, n) - i * s)
  }

  /** The slicing loop of `splitTensor4D` for a tensor of `size` elements
      whose first axis has length `n`. */
  method SplitTensor4D(size: nat, n: nat) returns (splitDim: nat, slices: seq<(int, int)>)
    ensures splitDim == SplitCount(size) && |slices| == splitDim
    ensures forall i :: 0 <= i < splitDim ==> slices[i] == Slice(i, n, splitDim)
  {
    splitDim := Max(1, size * 4 / MAX_TENSOR_SIZE);
    var splitSize := (n + splitDim - 1) / splitDim;
    slices := [];
    var i := 0;
    while i < splitDim
      invariant 0 <= i <= splitDim
      invariant |slices| == i
      invariant forall k :: 0 <= k < i ==> slices[k] == Slice(k, n, splitDim)
    {
      var start := i * splitSize;
      var end := Min(start + splitSize, n);
      slices := slices + [(start, end - start)];
      i := i + 1;
    }
  }

  /** Whether index `x` of the first axis lies in slice `i`. */
  predicate InSlice(x: int, i: nat, n: nat, d: nat)
    requires d >= 1
  {
    Slice(i, n, d).0 <= x < Slice(i, n, d).0 + Slice(i, n, d).1
  }

  /** Multiplying by a slice length keeps the order of slice numbers. */
  lemma MulStep(a: nat, b: nat, s: nat)
    requires a <= b
    ensures a * s <= b * s
  {
    var k := b - a;
    assert b * s == a * s + k * s;
  }

  /** Integer division brackets `x` between two multiples of `s`. */
  lemma DivBounds(x: nat, s: nat)
    requires s > 0
    ensures (x / s) * s <= x < (x / s) * s + s
  {
  }
  /** A slice that starts at or before an index of the axis has a number
      below the slice count. */
  lemma SliceNumberBelowCount(i: nat, s: nat, d: nat, x: nat, n: nat)
    requires i * s <= x < n <= s * d
    ensures i < d
  {
    if i >= d {
      assert s * d == d * s;
      MulStep(d, i, s);
    }
  }
  /** Two slices of length `s` that both hold `x` are the same slice. */
  lemma SameSlice(i: nat, j: nat, s: nat, x: int)
    requires i * s <= x < i * s + s
    requires j * s <= x < j * s + s
    ensures i == j
  {
    if j < i {
      assert (j + 1) * s == j * s + s;
      MulStep(j + 1, i, s);
    } else if j > i {
      assert (i + 1) * s == i * s + s;
      MulStep(i + 1, j, s);
    }
  }
  /** Every index of the first axis lies in exactly one slice: slice
      `x / s`. */
  lemma SlicesPartitionAxis(n: nat, d: nat, x: nat)
    requires d >= 1 && x < n
    ensures x / SliceLength(n, d) < d && InSlice(x, x / SliceLength(n, d), n, d)
    ensures forall j :: 0 <= j < d && InSlice(x, j, n, d) ==> j == x / SliceLength(n, d)
  {
    var s := SliceLength(n, d);
    SliceLengthIsCeiling(n, d);
    var i := x / s;
    DivBounds(x, s);
    SliceNumberBelowCount(i, s, d, x, n);
    forall j | 0 <= j < d && InSlice(x, j, n, d)
      ensures j == i
    {
      SameSlice(i, j, s, x);
    }
  }

  /** Consecutive slices are adjacent while they start inside the axis. */
  lemma SlicesAreAdjacent(n: nat, d: nat, i: nat)
    requires d >= 1 && i + 1 < d && Slice(i + 1, n, d).0 <= n
    ensures Slice(i, n, d).0 + Slice(i, n, d).1 == Slice(i + 1, n, d).0
  {
    var s := SliceLength(n, d);
    assert (i + 1) * s == i * s + s;
  }

  /** A slice's extent is negative exactly when it starts past the end of
      the axis, and 0 when it starts at the end. */
  lemma SliceExtentSign(n: nat, d: nat, i: nat)
    requires d >= 1
    ensures Slice(i, n, d).1 < 0 <==> Slice(i, n, d).0 > n
    ensures Slice(i, n, d).0 == n ==> Slice(i, n, d).1 == 0
  {
  }

  /** One axis of length 1 cut three ways: the last slice starts past the
      end with extent -1, which `tensor.slice` reads as "to the end". */
  lemma ThreeWaySplitOfOneRow()
    ensures Slice(2, 1, 3) == (2, -1)
  {
    assert SliceLength(1, 3) == 1;
  }

  // ---------------------------------------------------------------------
  // validateReferenceFeatures

  /** A reference tensor handle: only whether it has been disposed matters. */
  datatype TensorHandle = TensorHandle(isDisposed: bool)

  /** A reference feature slot; its tensor may be missing. */
  datatype ReferenceFeature = ReferenceFeature(tensor: Option<TensorHandle>)

  /** Four features, each present with a live tensor. */
  predicate FeaturesUsable(features: Option<seq<Option<ReferenceFeature>>>)
  {
    && features.Some? && |features.value| == 4
    && forall i :: 0 <= i < |features.value| ==>
         features.value[i].Some? && features.value[i].value.tensor.Some?
         && !features.value[i].value.tensor.value.isDisposed
  }

  /** `validateReferenceFeatures`: missing features or a count other than 4
      fail; then the loop fails at the first missing feature, missing
      tensor or disposed tensor. */
  method ValidateReferenceFeatures(features: Option<seq<Option<ReferenceFeature>>>) returns (ok: bool)
    ensures ok <==> FeaturesUsable(features)
  {
    if features.None? || |features.value| != 4 {
      return false;
    }
    var list := features.value;
    var i := 0;
    while i < |list|
      invariant 0 <= i <= |list|
      invariant forall k :: 0 <= k < i ==>
        list[k].Some? && list[k].value.tensor.Some? && !list[k].value.tensor.value.isDisposed
    {
      if list[i].None? || list[i].value.tensor.None? || list[i].value.tensor.value.isDisposed {
        return false;
      }
      i := i + 1;
    }
    return true;
  }

  // ---------------------------------------------------------------------
  // processTokenBatch

  /** A token ready for inference, with the frame it belongs to. */
  datatype FrameToken = FrameToken(frameIndex: int, token: seq<Js>)

  /** `Array.isArray(token[0]) ? token.flat() : token`. */
  function FormatToken(token: seq<Js>): seq<Js>
  {
    if token != [] && token[0].Arr? then NeuralCodec.Flatten(token, 1) else token
  }

  /** The tokens the first loop keeps, in map order: those whose formatted
      length is 32. */
  function KeptTokens(entries: seq<(int, seq<Js>)>): seq<FrameToken>
  {
    if entries == [] then []
    else
      var last := entries[|entries| - 1];
      KeptTokens(entries[..|entries| - 1])
      + (if |FormatToken(last.1)| == TOKEN_LENGTH then [FrameToken(last.0, FormatToken(last.1))] else [])
  }

  /** Every kept token has 32 values, and the filter keeps the order of the
      map: filtering a concatenation filters each part. */
  lemma {:induction false} KeptTokensConcat(a: seq<(int, seq<Js>)>, b: seq<(int, seq<Js>)>)
    ensures KeptTokens(a + b) == KeptTokens(a) + KeptTokens(b)
    decreases |b|
  {
    if b == [] {
      assert a + b == a;
    } else {
      var b' := b[..|b| - 1];
      assert (a + b)[..|a + b| - 1] == a + b';
      KeptTokensConcat(a, b');
    }
  }

  /** Kept tokens all have the expected length, and nothing is dropped when
      every entry has it. */
  lemma {:induction false} KeptTokensWellFormed(entries: seq<(int, seq<Js>)>)
    ensures forall k :: 0 <= k < |KeptTokens(entries)| ==> |KeptTokens(entries)[k].token| == TOKEN_LENGTH
    ensures |KeptTokens(entries)| <= |entries|
    ensures (forall i :: 0 <= i < |entries| ==> |FormatToken(entries[i].1)| == TOKEN_LENGTH) ==>
      KeptTokens(entries) == seq(|entries|, i requires 0 <= i < |entries| => FrameToken(entries[i].0, FormatToken(entries[i].1)))
    decreases |entries|
  {
    if entries != [] {
      KeptTokensWellFormed(entries[..|entries| - 1]);
    }
  }

  /** The chunks of at most 10 tokens the second loop hands to inference. */
  function Chunks(batch: seq<FrameToken>): seq<seq<FrameToken>>
    decreases |batch|
  {
    if batch == [] then []
    else if |batch| <= TOKEN_CHUNK_SIZE then [batch]
    else [batch[..TOKEN_CHUNK_SIZE]] + Chunks(batch[TOKEN_CHUNK_SIZE..])
  }

  function Concat(chunks: seq<seq<FrameToken>>): seq<FrameToken>
  {
    if chunks == [] then [] else chunks[0] + Concat(chunks[1..])
  }

  /** The chunks are non-empty, hold at most 10 tokens each, there are
      `ceil(n / 10)` of them, and together they are the batch in order. */
  lemma {:induction false} ChunksPartitionBatch(batch: seq<FrameToken>)
    ensures Concat(Chunks(batch)) == batch
    ensures |Chunks(batch)| == (|batch| + TOKEN_CHUNK_SIZE - 1) / TOKEN_CHUNK_SIZE
    ensures forall k :: 0 <= k < |Chunks(batch)| ==> 0 < |Chunks(batch)[k]| <= TOKEN_CHUNK_SIZE
    decreases |batch|
  {
    if |batch| > TOKEN_CHUNK_SIZE {
      ChunksPartitionBatch(batch[TOKEN_CHUNK_SIZE..]);
      var c := Chunks(batch);
      assert c[1..] == Chunks(batch[TOKEN_CHUNK_SIZE..]);
      assert batch == batch[..TOKEN_CHUNK_SIZE] + batch[TOKEN_CHUNK_SIZE..];
    } else if batch != [] {
      assert Chunks(batch)[1..] == [];
      assert batch + [] == batch;
    }
  }

  /** The progress report after chunk `k`: tokens handled so far out of all. */
  function Progress(k: nat, total: nat): (nat, nat)
  {
    (Min(TOKEN_CHUNK_SIZE * (k + 1), total), total)
  }

  /** The first loop of `processTokenBatch`: format each token and keep
      those of length 32, in map order. */
  method KeepWellFormedTokens(videoTokens: seq<(int, seq<Js>)>) returns (batch: seq<FrameToken>)
    ensures batch == KeptTokens(videoTokens)
  {
    batch := [];
    var j := 0;
    while j < |videoTokens|
      invariant 0 <= j <= |videoTokens|
      invariant batch == KeptTokens(videoTokens[..j])
    {
      var entry := videoTokens[j];
      var formatted := FormatToken(entry.1);
      assert videoTokens[..j + 1][..j] == videoTokens[..j];
      if |formatted| == TOKEN_LENGTH {
        batch := batch + [FrameToken(entry.0, formatted)];
      }
      j := j + 1;
    }
    assert videoTokens[..j] == videoTokens;
  }

  /** `processTokenBatch`: keep the well-formed tokens, then hand them to
      inference (`infer`; false means it threw) chunk by chunk, reporting
      progress after each chunk. A failing chunk ends the call with an
      error and no report for that chunk. */
  method ProcessTokenBatch(videoTokens: seq<(int, seq<Js>)>, infer: seq<FrameToken> -> bool)
    returns (batch: seq<FrameToken>, processed: seq<seq<FrameToken>>, reports: seq<(nat, nat)>, ok: bool)
    ensures batch == KeptTokens(videoTokens)
    ensures processed <= Chunks(batch)
    ensures ok <==> forall k :: 0 <= k < |Chunks(batch)| ==> infer(Chunks(batch)[k])
    ensures ok ==> processed == Chunks(batch)
    ensures !ok ==> processed != [] && !infer(processed[|processed| - 1])
    ensures forall k :: 0 <= k < |processed| - 1 ==> infer(processed[k])
    ensures |reports| == if ok then |processed| else |processed| - 1
    ensures forall k :: 0 <= k < |reports| ==> reports[k] == Progress(k, |batch|)
  {
    batch := KeepWellFormedTokens(videoTokens);
    processed, reports, ok := InferChunks(batch, infer);
  }

  /** The second loop of `processTokenBatch`: inference on each chunk in
      turn, a progress report after each one that passes, and an early
      return at the first one that fails. */
  method InferChunks(batch: seq<FrameToken>, infer: seq<FrameToken> -> bool)
    returns (processed: seq<seq<FrameToken>>, reports: seq<(nat, nat)>, ok: bool)
    ensures processed <= Chunks(batch)
    ensures ok <==> forall k :: 0 <= k < |Chunks(batch)| ==> infer(Chunks(batch)[k])
    ensures ok ==> processed == Chunks(batch)
    ensures !ok ==> processed != [] && !infer(processed[|processed| - 1])
    ensures forall k :: 0 <= k < |processed| - 1 ==> infer(processed[k])
    ensures |reports| == if ok then |processed| else |processed| - 1
    ensures forall k :: 0 <= k < |reports| ==> reports[k] == Progress(k, |batch|)
  {
    processed := [];
    reports := [];
    var i := 0;
    while i < |batch|
      invariant i == TOKEN_CHUNK_SIZE * |processed|
      invariant processed + Chunks(batch[Min(i, |batch|)..]) == Chunks(batch)
      invariant forall k :: 0 <= k < |processed| ==> infer(processed[k])
      invariant |reports| == |processed|
      invariant forall k :: 0 <= k < |reports| ==> reports[k] == Progress(k, |batch|)
      decreases |batch| - i
    {
      var end := Min(i + TOKEN_CHUNK_SIZE, |batch|);
      var chunk := batch[i..end];
      ChunkLoopStep(batch, processed, i);
      processed := processed + [chunk];
      if !infer(chunk) {
        ok := false;
        FailingChunkStopsBatch(batch, processed, Chunks(batch[end..]), infer);
        return;
      }
      reports := reports + [(i + |chunk|, |batch|)];
      i := i + TOKEN_CHUNK_SIZE;
    }
    ok := true;
    assert batch[Min(i, |batch|)..] == [];
    assert processed + [] == processed;
  }

  /** One pass of the chunk loop: the chunk taken at `i` extends the
      processed prefix, and the tokens handled so far are the progress
      report for that chunk. */
  lemma ChunkLoopStep(batch: seq<FrameToken>, processed: seq<seq<FrameToken>>, i: nat)
    requires i < |batch| && i == TOKEN_CHUNK_SIZE * |processed|
    requires processed + Chunks(batch[Min(i, |batch|)..]) == Chunks(batch)
    ensures var end := Min(i + TOKEN_CHUNK_SIZE, |batch|);
      && (processed + [batch[i..end]]) + Chunks(batch[end..]) == Chunks(batch)
      && i + |batch[i..end]| == Progress(|processed|, |batch|).0
  {
    ChunkStep(batch, i);
    var end := Min(i + TOKEN_CHUNK_SIZE, |batch|);
    assert (processed + [batch[i..end]]) + Chunks(batch[end..]) == processed + ([batch[i..end]] + Chunks(batch[end..]));
  }

  /** A processed prefix of the chunks that ends in a failing chunk means
      not every chunk passes. */
  lemma FailingChunkStopsBatch(batch: seq<FrameToken>, processed: seq<seq<FrameToken>>, rest: seq<seq<FrameToken>>,
                                infer: seq<FrameToken> -> bool)
    requires processed != [] && !infer(processed[|processed| - 1])
    requires processed + rest == Chunks(batch)
    ensures processed <= Chunks(batch)
    ensures !forall k :: 0 <= k < |Chunks(batch)| ==> infer(Chunks(batch)[k])
  {
    assert Chunks(batch)[|processed| - 1] == processed[|processed| - 1];
  }

  /** One step of the chunk loop: the chunk at `i` is the head of the chunks
      of the rest. */
  lemma ChunkStep(batch: seq<FrameToken>, i: nat)
    requires i < |batch|
    ensures var end := Min(i + TOKEN_CHUNK_SIZE, |batch|);
      Chunks(batch[i..]) == [batch[i..end]] + Chunks(batch[Min(i + TOKEN_CHUNK_SIZE, |batch|)..])
  {
    var rest := batch[i..];
    if |rest| > TOKEN_CHUNK_SIZE {
      assert rest[..TOKEN_CHUNK_SIZE] == batch[i..i + TOKEN_CHUNK_SIZE];
      assert rest[TOKEN_CHUNK_SIZE..] == batch[i + TOKEN_CHUNK_SIZE..];
    } else {
      assert batch[i..|batch|] == rest;
      assert batch[|batch|..] == [];
      assert [rest] + [] == [rest];
    }
  }

  // ---------------------------------------------------------------------
  // Reconnect retries

  function Pow2(k: nat): (p: nat)
    ensures p >= 1
  {
    if k == 0 then 1 else 2 * Pow2(k - 1)
  }

  lemma {:induction false} Pow2Monotone(a: nat, b: nat)
    requires a <= b
    ensures Pow2(a) <= Pow2(b)
    decreases b
  {
    if a < b {
      Pow2Monotone(a, b - 1);
    }
  }

  /** `getRetryDelay` before its random jitter:
      `min(1000 * 2^retryCount, 30000)`. */
  function RetryDelay(retryCount: nat): (delay: nat)
    ensures INITIAL_RETRY_DELAY <= delay <= MAX_RETRY_DELAY
  {
    Min(INITIAL_RETRY_DELAY * Pow2(retryCount), MAX_RETRY_DELAY)
  }

  /** The delay never shrinks as the retry count grows. */
  lemma RetryDelayGrows(a: nat, b: nat)
    requires a <= b
    ensures RetryDelay(a) <= RetryDelay(b)
  {
    Pow2Monotone(a, b);
  }

  /** `handleReconnect` increments the count before asking for the delay, so
      the five attempts wait 2, 4, 8, 16 and (capped) 30 seconds. */
  lemma RetryDelaysOfFiveAttempts()
    ensures RetryDelay(1) == 2000 && RetryDelay(2) == 4000 && RetryDelay(3) == 8000
    ensures RetryDelay(4) == 16000 && RetryDelay(5) == MAX_RETRY_DELAY
  {
    assert Pow2(5) == 32 by {
      assert Pow2(1) == 2 && Pow2(2) == 4 && Pow2(3) == 8 && Pow2(4) == 16;
    }
  }

  /** The retry bookkeeping: attempts made, whether a reconnect is in
      progress, and the pre-jitter delay of the scheduled retry timer. */
  datatype RetryState = RetryState(retryCount: nat, isReconnecting: bool, pendingDelay: Option<nat>)

  /** What the code keeps: at most five attempts, and a reconnect in
      progress always has a retry timer pending. The converse fails: the
      timer's `finally` clears `isReconnecting` while the retry scheduled
      during its run is still pending. */
  predicate RetryInvariant(s: RetryState)
  {
    s.retryCount <= MAX_RETRY_ATTEMPTS && (s.isReconnecting ==> s.pendingDelay.Some?)
  }

  /** The pairing the flag is meant to have: a retry timer is pending
      exactly while a reconnect is in progress. */
  predicate PendingIffReconnecting(s: RetryState)
  {
    s.pendingDelay.Some? <==> s.isReconnecting
  }

  /** `handleReconnect`: the new state, and whether the "maximum retries"
      error is emitted. A pending timer is replaced (`clearTimeout`). */
  function Reconnect(s: RetryState): (r: (RetryState, bool))
    ensures r.1 <==> s.retryCount >= MAX_RETRY_ATTEMPTS
    ensures r.0.retryCount <= s.retryCount + 1
  {
    if s.isReconnecting || s.retryCount >= MAX_RETRY_ATTEMPTS then (s, s.retryCount >= MAX_RETRY_ATTEMPTS)
    else (RetryState(s.retryCount + 1, true, Some(RetryDelay(s.retryCount + 1))), false)
  }

  /** How `reconnect()` goes when the retry timer fires: the signaling
      socket is missing or not CLOSED, so nothing is done; or `connect()`
      opens a new socket whose signaling or data-channel setup throws in
      `onopen`; or the new socket errors or times out; or it connects, and
      `playbackOk` says whether a restored `startPlayback` would succeed. */
  datatype ReconnectOutcome = SocketNotClosed | SetupFailed | SocketFailed | Connected(playbackOk: bool)

  /** The retry state once `connect()` has settled: the count reset and
      `cleanup(true)` (skipped when a cleanup is already running), then the
      new socket's own handlers. */
  function ConnectSettled(fired: RetryState, outcome: ReconnectOutcome, cleaningUp: bool): RetryState
  {
    var connecting := if cleaningUp then fired.(retryCount := 0) else RetryState(0, false, None);
    match outcome
      case SocketNotClosed => connecting
      case SetupFailed => Reconnect(connecting.(retryCount := 0, isReconnecting := false)).0
      case SocketFailed => Reconnect(connecting).0
      case Connected(_) => connecting.(retryCount := 0, isReconnecting := false)
  }

  /** The retry timer firing, as written. `cleaningUp` is whether a
      `cleanup` is already running (its guard then skips it), `videoKept`
      whether a video id survives `connect()`'s `cleanup(true)`, so that
      `reconnect()` restores playback.
      - `connect()` sets the count to 0 and calls `cleanup(true)`, which
        clears the timer, the flag and the count.
      - A failing new socket calls `handleReconnect` from its own handlers
        (`onopen`'s catch after resetting count and flag, `onerror`, the
        connection timeout) before the rejection reaches the timer.
      - The timer's catch calls `handleReconnect` below five attempts, and
        `finally` clears `isReconnecting`. */
  function RetryFired(s: RetryState, outcome: ReconnectOutcome, cleaningUp: bool, videoKept: bool): RetryState
  {
    var fired := s.(pendingDelay := None);
    if outcome.SocketNotClosed? then fired.(isReconnecting := false)
    else
      var settled := ConnectSettled(fired, outcome, cleaningUp);
      var threw := !outcome.Connected? || (videoKept && !outcome.playbackOk);
      var afterCatch := if threw && settled.retryCount < MAX_RETRY_ATTEMPTS then Reconnect(settled).0 else settled;
      afterCatch.(isReconnecting := false)
  }

  /** What a firing retry timer leaves, by outcome (no cleanup running):
      a retry that reaches `connect()` and fails always leaves attempt 1
      scheduled with the flag already cleared, whatever the count was; a
      success resets the count; a socket that is not CLOSED only clears
      the timer and the flag. */
  lemma RetryFiredOutcomes(s: RetryState, outcome: ReconnectOutcome, videoKept: bool)
    ensures outcome.SocketNotClosed? ==>
      RetryFired(s, outcome, false, videoKept) == RetryState(s.retryCount, false, None)
    ensures (outcome.SetupFailed? || outcome.SocketFailed? || (outcome.Connected? && !outcome.playbackOk && videoKept)) ==>
      && RetryFired(s, outcome, false, videoKept) == RetryState(1, false, Some(RetryDelay(1)))
      && !PendingIffReconnecting(RetryFired(s, outcome, false, videoKept))
    ensures outcome.Connected? && (outcome.playbackOk || !videoKept) ==>
      RetryFired(s, outcome, false, videoKept) == RetryState(0, false, None)
  {
  }

  /** The retry timer firing as the catch block's comment ("Continue retry
      cycle if we haven't reached max attempts") intends: a failed attempt
      keeps its count, the next one is scheduled with the flag kept set,
      and a successful connection resets the count as `onopen` does. */
  function RetryFiredIntended(s: RetryState, reconnected: bool): RetryState
  {
    var fired := s.(pendingDelay := None, isReconnecting := false);
    if reconnected then RetryState(0, false, None)
    else if s.retryCount < MAX_RETRY_ATTEMPTS then Reconnect(fired).0
    else fired
  }

  /** A failed intended retry below five attempts schedules the next one
      with the grown delay; the fifth failure or a success ends the cycle;
      both invariants hold throughout. */
  lemma IntendedRetryContinuesCycle(s: RetryState, reconnected: bool)
    requires RetryInvariant(s) && PendingIffReconnecting(s) && s.pendingDelay.Some?
    ensures RetryInvariant(RetryFiredIntended(s, reconnected))
    ensures PendingIffReconnecting(RetryFiredIntended(s, reconnected))
    ensures !reconnected && s.retryCount < MAX_RETRY_ATTEMPTS ==>
      RetryFiredIntended(s, reconnected) == RetryState(s.retryCount + 1, true, Some(RetryDelay(s.retryCount + 1)))
    ensures !reconnected && s.retryCount >= MAX_RETRY_ATTEMPTS ==>
      RetryFiredIntended(s, reconnected) == RetryState(s.retryCount, false, None)
    ensures reconnected ==> RetryFiredIntended(s, reconnected) == RetryState(0, false, None)
  {
  }

  /** `k` consecutive failed retries under the intended rule, while one is
      pending. */
  function FailRetriesIntended(s: RetryState, k: nat): RetryState
    decreases k
  {
    if k == 0 || s.pendingDelay.None? then s else FailRetriesIntended(RetryFiredIntended(s, false), k - 1)
  }

  /** Under the intended rule one scheduled retry keeps the cycle going
      through failures until five attempts have been made, then stops. */
  lemma {:induction false} IntendedRetriesReachMaximum(n: nat, k: nat)
    requires 1 <= n <= MAX_RETRY_ATTEMPTS
    ensures FailRetriesIntended(RetryState(n, true, Some(RetryDelay(n))), k) ==
      if n + k <= MAX_RETRY_ATTEMPTS then RetryState(n + k, true, Some(RetryDelay(n + k)))
      else RetryState(MAX_RETRY_ATTEMPTS, false, None)
    decreases k
  {
    if k > 0 {
      var s := RetryState(n, true, Some(RetryDelay(n)));
      if n < MAX_RETRY_ATTEMPTS {
        assert RetryFiredIntended(s, false) == RetryState(n + 1, true, Some(RetryDelay(n + 1)));
        IntendedRetriesReachMaximum(n + 1, k - 1);
      } else {
        var t := RetryState(MAX_RETRY_ATTEMPTS, false, None);
        assert RetryFiredIntended(s, false) == t;
        assert FailRetriesIntended(t, k - 1) == t;
      }
    }
  }

  /** `k` consecutive retry timers as written whose new socket fails, while
      one is pending (no cleanup running, no video to restore). */
  function FailRetriesAsWritten(s: RetryState, k: nat): RetryState
    decreases k
  {
    if k == 0 || s.pendingDelay.None? then s else FailRetriesAsWritten(RetryFired(s, SocketFailed, false, false), k - 1)
  }

  /** As written, failed retries never end: after any number of them the
      count is back at 1, below the cap, and another retry is pending. */
  lemma {:induction false} AsWrittenRetriesNeverEnd(s: RetryState, k: nat)
    requires s.pendingDelay.Some? && k >= 1
    ensures FailRetriesAsWritten(s, k) == RetryState(1, false, Some(RetryDelay(1)))
    decreases k
  {
    var t := RetryState(1, false, Some(RetryDelay(1)));
    RetryFiredOutcomes(s, SocketFailed, false);
    if k > 1 {
      AsWrittenRetriesNeverEnd(t, k - 1);
    }
  }

  /** The emitted events the retry logic and playback produce. */
  datatype RtcEvent =
    | MaxRetriesExceeded
    | SignalingFailure(code: Option<int>)
    | PausedMetrics
    | PlaybackStartFailed

  /** `handleSignalingError`: 1000 does nothing; 1001 and 1006 reconnect;
      any other code (or none) emits the error and reconnects only below
      5 attempts. */
  function SignalingError(s: RetryState, code: Option<int>): (RetryState, seq<RtcEvent>)
  {
    if code == Some(1000) then (s, [])
    else if code == Some(1001) || code == Some(1006) then
      var r := Reconnect(s);
      (r.0, if r.1 then [MaxRetriesExceeded] else [])
    else if s.retryCount < MAX_RETRY_ATTEMPTS then (Reconnect(s).0, [SignalingFailure(code)])
    else (s, [SignalingFailure(code)])
  }

  /** Every retry step keeps the invariant the code maintains. */
  lemma RetryStepsKeepInvariant(s: RetryState, code: Option<int>, outcome: ReconnectOutcome, cleaningUp: bool, videoKept: bool)
    requires RetryInvariant(s)
    ensures RetryInvariant(Reconnect(s).0)
    ensures RetryInvariant(SignalingError(s, code).0)
    ensures RetryInvariant(RetryFired(s, outcome, cleaningUp, videoKept))
    ensures !RetryFired(s, outcome, cleaningUp, videoKept).isReconnecting
    ensures PendingIffReconnecting(s) ==>
      PendingIffReconnecting(Reconnect(s).0) && PendingIffReconnecting(SignalingError(s, code).0)
  {
  }

  /** One abnormal closure on a fresh connection, then retries whose new
      socket fails: as written the cycle never ends and never passes
      attempt 1; as intended it makes five attempts and stops. */
  lemma OneClosureRetryCycle(k: nat)
    requires k >= 1
    ensures SignalingError(RetryState(0, false, None), Some(1006)).0 == RetryState(1, true, Some(RetryDelay(1)))
    ensures FailRetriesAsWritten(SignalingError(RetryState(0, false, None), Some(1006)).0, k)
         == RetryState(1, false, Some(RetryDelay(1)))
    ensures FailRetriesIntended(SignalingError(RetryState(0, false, None), Some(1006)).0, 5)
         == RetryState(MAX_RETRY_ATTEMPTS, false, None)
  {
    AsWrittenRetriesNeverEnd(RetryState(1, true, Some(RetryDelay(1))), k);
    IntendedRetriesReachMaximum(1, 5);
  }

  /** What one signaling error does to the retry state and which events it
      emits. */
  lemma SignalingErrorOutcomes(s: RetryState, code: Option<int>)
    requires RetryInvariant(s)
    ensures code == Some(1000) ==> SignalingError(s, code) == (s, [])
    ensures code != Some(1000) && !s.isReconnecting && s.retryCount < MAX_RETRY_ATTEMPTS ==>
      SignalingError(s, code).0 == RetryState(s.retryCount + 1, true, Some(RetryDelay(s.retryCount + 1)))
    ensures s.isReconnecting || s.retryCount >= MAX_RETRY_ATTEMPTS ==> SignalingError(s, code).0 == s
    ensures MaxRetriesExceeded in SignalingError(s, code).1 <==>
      (code == Some(1001) || code == Some(1006)) && s.retryCount >= MAX_RETRY_ATTEMPTS
    ensures SignalingFailure(code) in SignalingError(s, code).1 <==>
      code != Some(1000) && code != Some(1001) && code != Some(1006)
  {
  }

  /** One abnormal closure (code 1006) followed, when a retry was
      scheduled, by that retry timer firing with the given outcome. */
  function CloseThenFire(s: RetryState, outcome: ReconnectOutcome): RetryState
  {
    var t := SignalingError(s, Some(1006)).0;
    if t.pendingDelay.Some? then RetryFired(t, outcome, false, false) else t
  }

  function CloseThenFireTimes(s: RetryState, outcome: ReconnectOutcome, k: nat): RetryState
    decreases k
  {
    if k == 0 then s else CloseThenFireTimes(CloseThenFire(s, outcome), outcome, k - 1)
  }

  /** The cap works only where `reconnect()` stops short of `connect()`:
      repeated abnormal closures whose retries find no CLOSED socket make
      one attempt each until five have been made, and none after. */
  lemma {:induction false} ClosuresStopAfterFiveAttempts(n: nat, k: nat)
    requires n <= MAX_RETRY_ATTEMPTS
    ensures CloseThenFireTimes(RetryState(n, false, None), SocketNotClosed, k)
         == RetryState(Min(n + k, MAX_RETRY_ATTEMPTS), false, None)
    decreases k
  {
    if k > 0 {
      var s := RetryState(n, false, None);
      assert CloseThenFire(s, SocketNotClosed) == RetryState(Min(n + 1, MAX_RETRY_ATTEMPTS), false, None);
      ClosuresStopAfterFiveAttempts(Min(n + 1, MAX_RETRY_ATTEMPTS), k - 1);
    }
  }

  /** Where the retries reach `connect()` and its socket fails, repeated
      abnormal closures never accumulate attempts: after each round the
      count is back at 1 with a retry pending. */
  lemma {:induction false} ClosuresRestartAtOne(n: nat, k: nat)
    requires n < MAX_RETRY_ATTEMPTS && k >= 1
    ensures CloseThenFireTimes(RetryState(n, false, None), SocketFailed, k) == RetryState(1, false, Some(RetryDelay(1)))
    decreases k
  {
    var t := RetryState(1, false, Some(RetryDelay(1)));
    RetryFiredOutcomes(SignalingError(RetryState(n, false, None), Some(1006)).0, SocketFailed, false);
    assert CloseThenFire(RetryState(n, false, None), SocketFailed) == t;
    if k > 1 {
      ClosuresRestartAtOneFrom(k - 1);
    }
  }

  /** The round after the first: from attempt 1 with a retry pending, a
      closure replaces the timer and its failure restores the same state. */
  lemma {:induction false} ClosuresRestartAtOneFrom(k: nat)
    ensures CloseThenFireTimes(RetryState(1, false, Some(RetryDelay(1))), SocketFailed, k)
         == RetryState(1, false, Some(RetryDelay(1)))
    decreases k
  {
    var t := RetryState(1, false, Some(RetryDelay(1)));
    if k > 0 {
      RetryFiredOutcomes(SignalingError(t, Some(1006)).0, SocketFailed, false);
      assert CloseThenFire(t, SocketFailed) == t;
      ClosuresRestartAtOneFrom(k - 1);
    }
  }

  /** After five attempts, a further abnormal closure only emits the
      "maximum retries" error. */
  lemma SixthClosureReportsMaxRetries()
    ensures SignalingError(RetryState(5, false, None), Some(1006)) == (RetryState(5, false, None), [MaxRetriesExceeded])
  {
  }

  // ---------------------------------------------------------------------
  // Playback state

  datatype PlaybackState = Playing | Paused | Stopped

  /** `Math.ceil(capacity * 1.5)`. */
  function PrefetchSize(capacity: nat): (p: nat)
    ensures 2 * p >= 3 * capacity && 2 * p < 3 * capacity + 2
  {
    (3 * capacity + 1) / 2
  }

  class RtcNeuralCodec {
    var playbackState: PlaybackState
    var pausedAt: Option<real>
    var lastFrameIndex: Option<int>
    var currentVideoId: Option<int>
    /** The frame indices with an inference in flight (`processingQueue` keys). */
    var processingQueue: set<int>
    var retryCount: nat
    var isReconnecting: bool
    var retryTimer: Option<nat>
    var isCleaningUp: bool
    var modelLoaded: bool
    const bufferCapacity: nat
    var events: seq<RtcEvent>
    /** `fetchBulkTokens` requests: video, first and last frame. */
    var prefetches: seq<(int, int, int)>
    /** `startBackgroundTokenFetching` calls: video and start frame. */
    var backgroundStarts: seq<(int, int)>
    /** Videos whose reference tensors were released. */
    var releasedReferences: seq<int>

    function Retry(): RetryState
      reads this`retryCount, this`isReconnecting, this`retryTimer
    {
      RetryState(retryCount, isReconnecting, retryTimer)
    }

    ghost predicate Valid()
      reads this`retryCount, this`isReconnecting, this`retryTimer
    {
      RetryInvariant(Retry())
    }

    /** A stopped codec with no video, no retries, and a frame buffer of
        `config.bufferSize || 60`. */
    constructor (configuredBufferSize: Option<nat>)
      ensures Valid() && playbackState == Stopped && currentVideoId == None
      ensures pausedAt == None && lastFrameIndex == None && processingQueue == {}
      ensures Retry() == RetryState(0, false, None) && !isCleaningUp && !modelLoaded
      ensures bufferCapacity == if configuredBufferSize.Some? && configuredBufferSize.value != 0 then configuredBufferSize.value else 60
      ensures events == [] && prefetches == [] && backgroundStarts == [] && releasedReferences == []
    {
      playbackState := Stopped;
      pausedAt := None;
      lastFrameIndex := None;
      currentVideoId := None;
      processingQueue := {};
      retryCount := 0;
      isReconnecting := false;
      retryTimer := None;
      isCleaningUp := false;
      modelLoaded := false;
      bufferCapacity := if configuredBufferSize.Some? && configuredBufferSize.value != 0 then configuredBufferSize.value else 60;
      events := [];
      prefetches := [];
      backgroundStarts := [];
      releasedReferences := [];
    }

    /** `handleReconnect`. It is also called from inside the firing timer,
        before `isReconnecting` is cleared, so it asks only for the bound on
        the count. */
    method HandleReconnect()
      requires retryCount <= MAX_RETRY_ATTEMPTS
      modifies this`retryCount, this`isReconnecting, this`retryTimer, this`events
      ensures old(Valid()) ==> Valid()
      ensures Retry() == Reconnect(old(Retry())).0
      ensures events == old(events) + if Reconnect(old(Retry())).1 then [MaxRetriesExceeded] else []
    {
      if isReconnecting || retryCount >= MAX_RETRY_ATTEMPTS {
        if retryCount >= MAX_RETRY_ATTEMPTS {
          events := events + [MaxRetriesExceeded];
        }
        return;
      }
      isReconnecting := true;
      retryCount := retryCount + 1;
      var delay := Min(INITIAL_RETRY_DELAY * Pow2(retryCount), MAX_RETRY_DELAY);
      retryTimer := Some(delay);
    }

    /** The scheduled retry timer firing. Unless `reconnect()` finds no
        CLOSED socket, it runs `connect()` (`ConnectAttempt`) and, when a
        video id is left, a restored `startPlayback`. Then the timer's catch
        reconnects below five attempts and its `finally` clears
        `isReconnecting`. */
    method RetryTimerFired(outcome: ReconnectOutcome)
      requires Valid() && retryTimer.Some?
      modifies this`retryCount, this`isReconnecting, this`retryTimer, this`events
      modifies this`isCleaningUp, this`processingQueue, this`currentVideoId, this`releasedReferences, this`modelLoaded
      ensures Valid()
      ensures Retry() == RetryFired(old(Retry()), outcome, old(isCleaningUp),
                                    if old(isCleaningUp) then old(currentVideoId).Some? else old(currentVideoId) == Some(0))
      ensures events == old(events) && isCleaningUp == old(isCleaningUp)
      ensures outcome.SocketNotClosed? || old(isCleaningUp) ==>
        && processingQueue == old(processingQueue) && currentVideoId == old(currentVideoId)
        && releasedReferences == old(releasedReferences) && modelLoaded == old(modelLoaded)
      ensures !outcome.SocketNotClosed? && !old(isCleaningUp) ==>
        && processingQueue == {} && modelLoaded == old(modelLoaded)
        && (old(currentVideoId).Some? && old(currentVideoId).value != 0 ==>
              currentVideoId == None && releasedReferences == old(releasedReferences) + [old(currentVideoId).value])
        && (old(currentVideoId) == None || old(currentVideoId) == Some(0) ==>
              currentVideoId == old(currentVideoId) && releasedReferences == old(releasedReferences))
    {
      retryTimer := None;
      if outcome.SocketNotClosed? {
        isReconnecting := false;
        return;
      }
      ConnectAttempt(outcome);
      var threw := !outcome.Connected? || (currentVideoId.Some? && !outcome.playbackOk);
      if threw && retryCount < MAX_RETRY_ATTEMPTS {
        HandleReconnect();
      }
      isReconnecting := false;
    }

    /** `connect()` as a retry runs it: the count is reset and
        `cleanup(true)` runs; a new socket whose setup throws, errors or
        times out calls `handleReconnect` from its own handler; `onopen`
        resets the count and the flag. */
    method ConnectAttempt(outcome: ReconnectOutcome)
      requires retryCount <= MAX_RETRY_ATTEMPTS && !outcome.SocketNotClosed?
      modifies this`retryCount, this`isReconnecting, this`retryTimer, this`events
      modifies this`isCleaningUp, this`processingQueue, this`currentVideoId, this`releasedReferences, this`modelLoaded
      ensures Retry() == ConnectSettled(old(Retry()), outcome, old(isCleaningUp))
      ensures Retry().retryCount <= 1
      ensures events == old(events) && isCleaningUp == old(isCleaningUp)
      ensures old(isCleaningUp) ==>
        && processingQueue == old(processingQueue) && currentVideoId == old(currentVideoId)
        && releasedReferences == old(releasedReferences) && modelLoaded == old(modelLoaded)
      ensures !old(isCleaningUp) ==>
        && processingQueue == {} && modelLoaded == old(modelLoaded)
        && (old(currentVideoId).Some? && old(currentVideoId).value != 0 ==>
              currentVideoId == None && releasedReferences == old(releasedReferences) + [old(currentVideoId).value])
        && (old(currentVideoId) == None || old(currentVideoId) == Some(0) ==>
              currentVideoId == old(currentVideoId) && releasedReferences == old(releasedReferences))
    {
      retryCount := 0;
      Cleanup(true);
      match outcome {
        case SetupFailed =>
          retryCount := 0;
          isReconnecting := false;
          HandleReconnect();
        case SocketFailed =>
          HandleReconnect();
        case Connected(_) =>
          retryCount := 0;
          isReconnecting := false;
      }
    }

    /** `handleSignalingError`. */
    method HandleSignalingError(code: Option<int>)
      requires Valid()
      modifies this`retryCount, this`isReconnecting, this`retryTimer, this`events
      ensures Valid()
      ensures Retry() == SignalingError(old(Retry()), code).0
      ensures events == old(events) + SignalingError(old(Retry()), code).1
    {
      if code == Some(1000) {
        return;
      } else if code == Some(1001) || code == Some(1006) {
        HandleReconnect();
      } else {
        events := events + [SignalingFailure(code)];
        if retryCount < MAX_RETRY_ATTEMPTS {
          HandleReconnect();
        }
      }
    }

    /** `pause` (the later of the two definitions): only from PLAYING; the
        pause position is the audio time and the frame index
        `floor(audioTime * fps)`. */
    method Pause(audioTime: real, fps: real)
      modifies this`playbackState, this`pausedAt, this`lastFrameIndex, this`events
      ensures old(playbackState) != Playing ==>
        playbackState == old(playbackState) && pausedAt == old(pausedAt)
        && lastFrameIndex == old(lastFrameIndex) && events == old(events)
      ensures old(playbackState) == Playing ==>
        && playbackState == Paused && pausedAt == Some(audioTime)
        && lastFrameIndex == Some((audioTime * fps).Floor)
        && events == old(events) + [PausedMetrics]
    {
      if playbackState != Playing {
        return;
      }
      playbackState := Paused;
      pausedAt := Some(audioTime);
      lastFrameIndex := Some((audioTime * fps).Floor);
      events := events + [PausedMetrics];
    }

    /** `stop` (the later of the two definitions). */
    method Stop()
      modifies this`playbackState, this`pausedAt, this`lastFrameIndex, this`currentVideoId, this`processingQueue
      ensures playbackState == Stopped && pausedAt == None && lastFrameIndex == None
      ensures currentVideoId == None && processingQueue == {}
    {
      playbackState := Stopped;
      pausedAt := None;
      lastFrameIndex := None;
      currentVideoId := None;
      processingQueue := {};
    }

    /** `startPlayback`. The outcomes of the awaited steps are parameters:
        whether the model is available, whether loading the reference data
        threw, the stored features (None when there is no entry for the
        video), whether the prefetch and the audio start succeeded. Any
        failure resets to STOPPED with no video and emits an error. */
    method StartPlayback(videoId: int, modelOk: bool, referenceLoaded: bool,
                         features: Option<seq<Option<ReferenceFeature>>>, prefetchOk: bool, audioOk: bool)
      returns (ok: bool)
      modifies this`playbackState, this`currentVideoId, this`lastFrameIndex, this`events,
               this`prefetches, this`backgroundStarts
      ensures var resume := old(currentVideoId) == Some(videoId) && old(playbackState) == Paused;
        && (ok <==> modelOk && (resume || (referenceLoaded && FeaturesUsable(features) && prefetchOk && audioOk)))
        && (ok && resume ==> lastFrameIndex == old(lastFrameIndex)
                             && prefetches == old(prefetches) && backgroundStarts == old(backgroundStarts))
        && (ok && !resume ==>
              && lastFrameIndex == Some(0)
              && prefetches == old(prefetches) + [(videoId, 0, PrefetchSize(bufferCapacity) - 1)]
              && backgroundStarts == old(backgroundStarts) + [(videoId, PrefetchSize(bufferCapacity))])
      ensures ok ==> playbackState == Playing && currentVideoId == Some(videoId) && events == old(events)
      ensures !ok ==> playbackState == Stopped && currentVideoId == None && lastFrameIndex == None
                      && events == old(events) + [PlaybackStartFailed]
      ensures var resume := old(currentVideoId) == Some(videoId) && old(playbackState) == Paused;
        !ok && modelOk && !resume ==>
          && prefetches == old(prefetches) + (if referenceLoaded && FeaturesUsable(features)
                                              then [(videoId, 0, PrefetchSize(bufferCapacity) - 1)] else [])
          && backgroundStarts == old(backgroundStarts) + (if referenceLoaded && FeaturesUsable(features) && prefetchOk
                                                          then [(videoId, PrefetchSize(bufferCapacity))] else [])
      ensures !modelOk ==> prefetches == old(prefetches) && backgroundStarts == old(backgroundStarts)
    {
      ok := false;
      if modelOk {
        if currentVideoId == Some(videoId) && playbackState == Paused {
          playbackState := Playing;
          return true;
        }
        currentVideoId := Some(videoId);
        playbackState := Playing;
        lastFrameIndex := Some(0);
        if referenceLoaded {
          var valid := ValidateReferenceFeatures(features);
          if valid {
            var prefetchSize := PrefetchSize(bufferCapacity);
            prefetches := prefetches + [(videoId, 0, prefetchSize as int - 1)];
            if prefetchOk {
              backgroundStarts := backgroundStarts + [(videoId, prefetchSize)];
              ok := audioOk;
            }
          }
        }
      }
      if !ok {
        playbackState := Stopped;
        currentVideoId := None;
        lastFrameIndex := None;
        events := events + [PlaybackStartFailed];
      }
    }

    /** `cleanup`: guarded against re-entry; clears the retry state and the
        in-flight inferences; releases the current video's reference
        tensors and forgets the video when its id is truthy (so a video id
        of 0 is kept); drops the model unless asked to preserve it. */
    method Cleanup(preserveModel: bool)
      modifies this`isCleaningUp, this`retryTimer, this`isReconnecting, this`retryCount
      modifies this`processingQueue, this`currentVideoId, this`releasedReferences, this`modelLoaded
      ensures old(Valid()) ==> Valid()
      ensures old(isCleaningUp) ==>
        (isCleaningUp, Retry(), currentVideoId, processingQueue, modelLoaded, releasedReferences)
        == old((isCleaningUp, Retry(), currentVideoId, processingQueue, modelLoaded, releasedReferences))
      ensures !old(isCleaningUp) ==>
        Retry() == RetryState(0, false, None) && processingQueue == {} && !isCleaningUp
      ensures !old(isCleaningUp) && old(currentVideoId).Some? && old(currentVideoId).value != 0 ==>
        currentVideoId == None && releasedReferences == old(releasedReferences) + [old(currentVideoId).value]
      ensures !old(isCleaningUp) && (old(currentVideoId) == None || old(currentVideoId) == Some(0)) ==>
        currentVideoId == old(currentVideoId) && releasedReferences == old(releasedReferences)
      ensures !old(isCleaningUp) ==> modelLoaded == (old(modelLoaded) && preserveModel)
      ensures (playbackState, pausedAt, lastFrameIndex, events, prefetches, backgroundStarts)
           == old((playbackState, pausedAt, lastFrameIndex, events, prefetches, backgroundStarts))
    {
      if !isCleaningUp {
        isCleaningUp := true;
        retryTimer, isReconnecting, retryCount := None, false, 0;
        processingQueue := {};
        if currentVideoId.Some? && currentVideoId.value != 0 {
          releasedReferences := releasedReferences + [currentVideoId.value];
          currentVideoId := None;
        }
        if !preserveModel && modelLoaded {
          modelLoaded := false;
        }
        isCleaningUp := false;
      }
    }
  }

  /** Start, pause at 2.5 s of 24 fps audio, resume the same video, stop:
      the pause position survives the resume and `stop` clears it. */
  method PauseResumeScenario() returns (afterResume: (PlaybackState, Option<int>), afterStop: (PlaybackState, Option<int>, Option<int>))
    ensures afterResume == (Playing, Some(60))
    ensures afterStop == (Stopped, None, None)
  {
    var codec := new RtcNeuralCodec(None);
    var live := Some(ReferenceFeature(Some(TensorHandle(false))));
    var ok := codec.StartPlayback(7, true, true, Some([live, live, live, live]), true, true);
    codec.Pause(2.5, 24.0);
    ok := codec.StartPlayback(7, true, false, None, false, false);
    afterResume := (codec.playbackState, codec.lastFrameIndex);
    codec.Stop();
    afterStop := (codec.playbackState, codec.lastFrameIndex, codec.currentVideoId);
  }
}

=== FILE: service_worker.dfy ===
/** The model-caching service worker (public/service-worker.js): the list
    of model files to cache, the choice of stale caches to delete on
    activation, and the cache-first handling of model requests. The Cache
    API and the network are values passed in: the cache as a map from
    request path to stored response, a network fetch as its result. */
module ServiceWorker {
  import opened Common

  const MODEL_VERSION: string := "v1"
  const CACHE_PREFIX: string := "nvc-model-cache-"
  const CACHE_NAME: string := CACHE_PREFIX + MODEL_VERSION
  const MODEL_BASE_URL: string := "https://192.168.1.108:3001/graph_model_client"
  const SHARD_COUNT: nat := 60
  const MODEL_PATH_PREFIX: string := "/graph_model_client/"

  // ---------------------------------------------------------------------
  // Shard URLs

  function DigitChar(d: nat): (c: char)
    requires d < 10
    ensures '0' <= c <= '9'
  {
    "0123456789"[d]
  }

  /** The decimal spelling JavaScript template literals give a
      non-negative integer. */
  function NatToString(n: nat): (s: string)
    ensures |s| >= 1 && forall i :: 0 <= i < |s| ==> '0' <= s[i] <= '9'
    ensures n >= 10 ==> s[0] != '0'
    decreases n
  {
    if n < 10 then [DigitChar(n)] else NatToString(n / 10) + [DigitChar(n % 10)]
  }

  /** `${baseUrl}/group1-shard${i}of${shardCount}.bin`. */
  function ShardUrl(baseUrl: string, i: nat, shardCount: nat): string
  {
    baseUrl + "/group1-shard" + NatToString(i) + "of" + NatToString(shardCount) + ".bin"
  }

  /** The model manifest followed by shards 1 to `shardCount`. */
  function ShardUrls(baseUrl: string, shardCount: nat): (urls: seq<string>)
  {
    [baseUrl + "/model.json"] + seq(shardCount, k requires 0 <= k < shardCount => ShardUrl(baseUrl, k + 1, shardCount))
  }

  /** `generateShardUrls`: the manifest URL, then one push per shard. */
  method GenerateShardUrls(baseUrl: string, shardCount: nat) returns (urls: seq<string>)
    ensures urls == ShardUrls(baseUrl, shardCount)
    ensures |urls| == shardCount + 1 && urls[0] == baseUrl + "/model.json"
    ensures forall i :: 1 <= i <= shardCount ==> urls[i] == ShardUrl(baseUrl, i, shardCount)
  {
    urls := [baseUrl + "/model.json"];
    var i := 1;
    while i <= shardCount
      invariant 1 <= i <= shardCount + 1
      invariant |urls| == i
      invariant urls[0] == baseUrl + "/model.json"
      invariant forall k :: 1 <= k < i ==> urls[k] == ShardUrl(baseUrl, k, shardCount)
    {
      urls := urls + [ShardUrl(baseUrl, i, shardCount)];
      i := i + 1;
    }
  }

  /** Different numbers are spelled differently. */
  lemma {:induction false} NatToStringInjective(a: nat, b: nat)
    requires NatToString(a) == NatToString(b)
    ensures a == b
    decreases a
  {
    var s := NatToString(a);
    if a >= 10 && b >= 10 {
      var pa, pb := NatToString(a / 10), NatToString(b / 10);
      assert pa == s[..|s| - 1] && pb == s[..|s| - 1];
      assert DigitChar(a % 10) == DigitChar(b % 10);
      NatToStringInjective(a / 10, b / 10);
    } else if a < 10 && b < 10 {
      assert DigitChar(a) == DigitChar(b);
    }
  }

  /** The shard URLs for one model are pairwise distinct, and none is the
      manifest, so every file is cached once. */
  lemma ShardUrlsDistinct(baseUrl: string, shardCount: nat)
    ensures forall i, j :: 0 <= i < j < |ShardUrls(baseUrl, shardCount)| ==>
      ShardUrls(baseUrl, shardCount)[i] != ShardUrls(baseUrl, shardCount)[j]
  {
    var urls := ShardUrls(baseUrl, shardCount);
    forall i, j | 0 <= i < j < |urls|
      ensures urls[i] != urls[j]
    {
      assert urls[j] == ShardUrl(baseUrl, j, shardCount);
      if i == 0 {
        ManifestIsNotAShard(baseUrl, j, shardCount);
      } else {
        assert urls[i] == ShardUrl(baseUrl, i, shardCount);
        ShardUrlsDiffer(baseUrl, i, j, shardCount);
      }
    }
  }

  /** Different shard numbers give different shard URLs. */
  lemma ShardUrlsDiffer(baseUrl: string, i: nat, j: nat, shardCount: nat)
    requires i != j
    ensures ShardUrl(baseUrl, i, shardCount) != ShardUrl(baseUrl, j, shardCount)
  {
    var prefix := baseUrl + "/group1-shard";
    var tail := "of" + NatToString(shardCount) + ".bin";
    assert ShardUrl(baseUrl, i, shardCount) == prefix + NatToString(i) + tail;
    assert ShardUrl(baseUrl, j, shardCount) == prefix + NatToString(j) + tail;
    if ShardUrl(baseUrl, i, shardCount) == ShardUrl(baseUrl, j, shardCount) {
      DigitsBeforeSuffix(prefix, NatToString(i), NatToString(j), tail);
      NatToStringInjective(i, j);
    }
  }


  /** `prefix + a + tail == prefix + b + tail` means `a == b` when `a`, `b`
      are digit strings and `tail` starts with a letter. */
  lemma DigitsBeforeSuffix(prefix: string, a: string, b: string, tail: string)
    requires forall i :: 0 <= i < |a| ==> '0' <= a[i] <= '9'
    requires forall i :: 0 <= i < |b| ==> '0' <= b[i] <= '9'
    requires |tail| >= 1 && !('0' <= tail[0] <= '9')
    requires prefix + a + tail == prefix + b + tail
    ensures a == b
  {
    var x, y := prefix + a + tail, prefix + b + tail;
    assert |x| == |y|;
    assert |a| == |b|;
    forall k | 0 <= k < |a|
      ensures a[k] == b[k]
    {
      assert x[|prefix| + k] == a[k] && y[|prefix| + k] == b[k];
    }
  }

  /** The manifest URL differs from every shard URL: they differ right after
      the base URL. */
  lemma ManifestIsNotAShard(baseUrl: string, i: nat, shardCount: nat)
    ensures baseUrl + "/model.json" != ShardUrl(baseUrl, i, shardCount)
  {
    var m, s := baseUrl + "/model.json", ShardUrl(baseUrl, i, shardCount);
    if |m| <= |s| {
      assert m[|baseUrl| + 1] == 'm' && s[|baseUrl| + 1] == 'g';
    }
  }

  /** `MODEL_URLS` lists 61 files: the manifest and 60 shards. */
  lemma ModelUrlsHas61Entries()
    ensures |ShardUrls(MODEL_BASE_URL, SHARD_COUNT)| == 61
    ensures ShardUrls(MODEL_BASE_URL, SHARD_COUNT)[60] == MODEL_BASE_URL + "/group1-shard60of60.bin"
  {
    assert NatToString(60) == "60" by {
      assert NatToString(6) == "6";
    }
  }

  // ---------------------------------------------------------------------
  // Activation: stale caches

  /** The activation filter: a model cache of another version. */
  predicate IsStaleCache(name: string)
  {
    StartsWith(name, CACHE_PREFIX) && name != CACHE_NAME
  }

  /** The caches the activation handlers delete, in listing order. */
  function StaleCaches(names: seq<string>): (stale: seq<string>)
    ensures forall x :: x in stale <==> x in names && IsStaleCache(x)
    ensures |stale| <= |names|
  {
    if names == [] then []
    else (if IsStaleCache(names[0]) then [names[0]] else []) + StaleCaches(names[1..])
  }

  /** The current cache and every cache outside the model-cache prefix
      survive activation; an older model version does not. */
  lemma ActivationKeepsCurrentCache(names: seq<string>, other: string)
    ensures CACHE_NAME !in StaleCaches(names)
    ensures !StartsWith(other, CACHE_PREFIX) ==> other !in StaleCaches(names)
    ensures CACHE_PREFIX + "v0" in names ==> CACHE_PREFIX + "v0" in StaleCaches(names)
  {
    var old0 := CACHE_PREFIX + "v0";
    assert old0[..|CACHE_PREFIX|] == CACHE_PREFIX;
    assert old0 != CACHE_NAME by {
      assert old0[|old0| - 1] == '0' && CACHE_NAME[|CACHE_NAME| - 1] == '1';
    }
  }

  // ---------------------------------------------------------------------
  // Fetch interception

  /** A network response: ok for statuses 200 to 299. */
  datatype Response = Response(status: nat, body: string)
  {
    predicate Ok() { 200 <= status <= 299 }
  }

  /** How a fetch event ends: not intercepted (the browser fetches it), a
      response from the cache or from the network, or an error. */
  datatype FetchOutcome = PassThrough | FromCache(response: Response) | FromNetwork(response: Response) | FetchFailed

  /** Only model files are intercepted. */
  predicate ShouldIntercept(path: string)
  {
    StartsWith(path, MODEL_PATH_PREFIX)
  }

  /** The fetch handler for request `path`: cache first; otherwise the
      network result (`None` when the fetch itself threw), stored in the
      cache only when ok. Returns the outcome and the cache afterwards.
      `path` stands for the request URL: interception looks at its path,
      and the cache is keyed by the whole request, which the model takes
      to be determined by that one string. */
  function HandleFetch(path: string, cache: map<string, Response>, network: Option<Response>): (r: (FetchOutcome, map<string, Response>))
    ensures !ShouldIntercept(path) ==> r == (PassThrough, cache)
    ensures ShouldIntercept(path) && path in cache ==> r == (FromCache(cache[path]), cache)
    ensures r.0.FromNetwork? ==> r.0.response.Ok() && r.1 == cache[path := r.0.response]
    ensures r.0 == FetchFailed <==>
      ShouldIntercept(path) && path !in cache && (network.None? || !network.value.Ok())
    ensures r.0 == FetchFailed ==> r.1 == cache
    ensures ShouldIntercept(path) && path !in cache && network.Some? && network.value.Ok() ==>
      r == (FromNetwork(network.value), cache[path := network.value])
  {
    if !ShouldIntercept(path) then (PassThrough, cache)
    else if path in cache then (FromCache(cache[path]), cache)
    else if network.None? || !network.value.Ok() then (FetchFailed, cache)
    else (FromNetwork(network.value), cache[path := network.value])
  }

  /** A model file fetched once from the network is served from the cache
      afterwards, whatever the network does then; the network result is not
      even consulted on a hit. */
  lemma SecondFetchHitsCache(path: string, cache: map<string, Response>, first: Option<Response>, second: Option<Response>)
    requires HandleFetch(path, cache, first).0.FromNetwork?
    ensures var after := HandleFetch(path, cache, first);
      HandleFetch(path, after.1, second) == (FromCache(after.0.response), after.1)
  {
  }
}

=== FILE: tensor.dfy ===
/** The host-side tensor wrapper of imf-decoder/src/decoder/tensor.rs: a flat
    `f32` buffer with a shape that `reshape` may replace when the element
    counts agree. */
module Tensors {

  /** The number of elements a shape describes (`iter().product()`; the
      empty shape describes one element). */
  function Product(shape: seq<nat>): nat
  {
    if shape == [] then 1 else shape[0] * Product(shape[1..])
  }

  /** The element count of a concatenated shape is the product of the
      parts' counts, so splitting or merging axes preserves it. */
  lemma {:induction false} ProductConcat(a: seq<nat>, b: seq<nat>)
    ensures Product(a + b) == Product(a) * Product(b)
    decreases |a|
  {
    if a == [] {
      assert a + b == b;
    } else {
      assert (a + b)[1..] == a[1..] + b;
      ProductConcat(a[1..], b);
      calc {
        Product(a + b);
        a[0] * Product(a[1..] + b);
        a[0] * (Product(a[1..]) * Product(b));
        { MulAssoc(a[0], Product(a[1..]), Product(b)); }
        (a[0] * Product(a[1..])) * Product(b);
      }
    }
  }

  lemma MulAssoc(x: int, y: int, z: int)
    ensures x * (y * z) == (x * y) * z
  {
  }

  /** A shape holds no elements exactly when one of its axes is 0. */
  lemma {:induction false} ProductZero(shape: seq<nat>)
    ensures Product(shape) == 0 <==> exists i :: 0 <= i < |shape| && shape[i] == 0
    decreases |shape|
  {
    if shape != [] {
      ProductZero(shape[1..]);
      if Product(shape[1..]) == 0 {
        var i :| 0 <= i < |shape[1..]| && shape[1..][i] == 0;
        assert shape[i + 1] == 0;
      }
      if exists i :: 0 <= i < |shape| && shape[i] == 0 {
        var i :| 0 <= i < |shape| && shape[i] == 0;
        if i > 0 {
          assert shape[1..][i - 1] == 0;
        }
      }
    }
  }

  /** Merging two adjacent leading axes keeps the element count, so
      `reshape` always accepts the merged shape. */
  lemma MergeLeadingAxes(a: nat, b: nat, rest: seq<nat>)
    ensures Product([a * b] + rest) == Product([a, b] + rest)
  {
    ProductConcat([a * b], rest);
    ProductConcat([a, b], rest);
    assert Product([a, b]) == a * Product([b]);
    assert Product([b]) == b * Product([]);
  }

  class Tensor {
    var data: seq<real>
    var shape: seq<nat>

    /** `Tensor::new`: stores both as given; nothing checks that the shape
        describes `|data|` elements. */
    constructor (data: seq<real>, shape: seq<nat>)
      ensures this.data == data && this.shape == shape
    {
      this.data := data;
      this.shape := shape;
    }

    /** `reshape`: the new shape must describe exactly `|data|` elements
        (the source asserts it); only the shape changes. */
    method Reshape(newShape: seq<nat>)
      requires Product(newShape) == |data|
      modifies this`shape
      ensures shape == newShape
      ensures Product(shape) == |data|
      ensures |data| == 0 <==> exists i :: 0 <= i < |shape| && shape[i] == 0
    {
      shape := newShape;
      ProductZero(shape);
    }

    /** `get_data`: a copy equal to the data; the tensor is not changed. */
    method GetData() returns (copy: seq<real>)
      ensures copy == data
      ensures |copy| == |data|
    {
      copy := data;
    }
  }

  /** Reshaping a consistent tensor with at least two axes to the shape
      with its two leading axes merged, and then back, is accepted both times
      and leaves both the shape and the data as they were. */
  method MergeAndRestore(t: Tensor)
    requires |t.shape| >= 2 && Product(t.shape) == |t.data|
    modifies t
    ensures t.shape == old(t.shape) && t.data == old(t.data)
  {
    var original := t.shape;
    var merged := [original[0] * original[1]] + original[2..];
    MergeLeadingAxes(original[0], original[1], original[2..]);
    assert [original[0], original[1]] + original[2..] == original;
    t.Reshape(merged);
    t.Reshape(original);
  }
}

=== FILE: tf_layers.dfy ===
/** The configuration repair that the layers-model loader applies to a
    downloaded model description before loading it
    (src/utils/TensorFlowModelLoaderLayers.ts): every input layer gets the
    fixed batch input shape `[null, 3, 256, 256]`, and a single node-data
    object is wrapped into a list. */
module LayerConfigFix {
  import opened Common

  /** One dimension of a batch input shape: a size, or `null`. */
  type Dim = Option<nat>

  /** A layer of `model_config.config.layers`: its class name, its batch
      input shape when it has one, and the rest of its configuration. */
  datatype Layer = Layer(className: string, batchInputShape: Option<seq<Dim>>, rest: string)

  /** `modelTopology.nodeData` as far as the repair looks at it: a falsy
      value (absent, `null`, ...), an array, or another truthy value. */
  datatype NodeData = Falsy | List(items: seq<NodeData>) | Other(description: string)

  const INPUT_SHAPE: seq<Dim> := [None, Some(3), Some(256), Some(256)]

  /** A layer after the repair. */
  function FixLayer(layer: Layer): (fixed: Layer)
    ensures layer.className == "InputLayer" ==> fixed == layer.(batchInputShape := Some(INPUT_SHAPE))
    ensures layer.className != "InputLayer" ==> fixed == layer
  {
    if layer.className == "InputLayer" then layer.(batchInputShape := Some(INPUT_SHAPE)) else layer
  }

  function FixLayers(layers: seq<Layer>): (fixed: seq<Layer>)
    ensures |fixed| == |layers|
  {
    seq(|layers|, i requires 0 <= i < |layers| => FixLayer(layers[i]))
  }

  /** The node data after the repair: a truthy non-array becomes a list of
      itself. */
  function FixNodeData(nodeData: NodeData): (fixed: NodeData)
    ensures nodeData.Other? ==> fixed == List([nodeData])
    ensures !nodeData.Other? ==> fixed == nodeData
  {
    if nodeData.Other? then List([nodeData]) else nodeData
  }

  /** The parsed model description; the repair mutates it in place. */
  class ModelJson {
    var layers: seq<Layer>
    var nodeData: NodeData

    constructor (layers: seq<Layer>, nodeData: NodeData)
      ensures this.layers == layers && this.nodeData == nodeData
    {
      this.layers := layers;
      this.nodeData := nodeData;
    }

    /** `fixModelConfig`: the `forEach` over the layers, then the node-data
        wrap; the same object is returned. */
    method FixModelConfig() returns (result: ModelJson)
      modifies this
      ensures result == this
      ensures layers == FixLayers(old(layers))
      ensures nodeData == FixNodeData(old(nodeData))
    {
      var i := 0;
      while i < |layers|
        invariant 0 <= i <= |layers| == |old(layers)|
        invariant forall k :: 0 <= k < i ==> layers[k] == FixLayer(old(layers)[k])
        invariant forall k :: i <= k < |layers| ==> layers[k] == old(layers)[k]
        invariant nodeData == old(nodeData)
      {
        if layers[i].className == "InputLayer" {
          layers := layers[i := layers[i].(batchInputShape := Some(INPUT_SHAPE))];
        }
        i := i + 1;
      }
      if nodeData.Other? {
        nodeData := List([nodeData]);
      }
      return this;
    }
  }

  /** After the repair every input layer has the fixed shape, other layers
      are untouched, and the node data is never a bare truthy non-array. */
  lemma FixedModelIsWellShaped(layers: seq<Layer>, nodeData: NodeData)
    ensures forall i :: 0 <= i < |layers| && layers[i].className == "InputLayer" ==>
      FixLayers(layers)[i].batchInputShape == Some(INPUT_SHAPE)
    ensures forall i :: 0 <= i < |layers| && layers[i].className != "InputLayer" ==>
      FixLayers(layers)[i] == layers[i]
    ensures !FixNodeData(nodeData).Other?
  {
  }

  /** Applying the repair twice is the same as applying it once. */
  lemma FixIsIdempotent(layers: seq<Layer>, nodeData: NodeData)
    ensures FixLayers(FixLayers(layers)) == FixLayers(layers)
    ensures FixNodeData(FixNodeData(nodeData)) == FixNodeData(nodeData)
  {
  }
}

=== FILE: video_codec.dfy ===
/** The colour-inversion loop of the video-processing test page
    (test/video-codec.js, inside `processFrame`): in an RGBA pixel buffer,
    every red, green and blue byte becomes 255 minus itself; alpha is never
    written. Drawing, encoding and the frame objects are left out. */
module VideoCodecTest {
  import opened Common

  /** Whether position `i` of an RGBA buffer holds a colour channel. */
  predicate IsColour(i: nat)
  {
    i % 4 != 3
  }

  /** The buffer after the loop. */
  function Inverted(data: seq<byte>): (r: seq<byte>)
    ensures |r| == |data|
  {
    seq(|data|, i requires 0 <= i < |data| => if IsColour(i) then 255 - data[i] else data[i])
  }

  /** The loop walks the buffer with stride 4 and writes the three colour
      bytes of each pixel. A write past the end of a typed array is
      dropped, so a buffer whose length is not a multiple of 4 is handled
      the same way. */
  method InvertColors(data: array<byte>)
    modifies data
    ensures data[..] == Inverted(old(data[..]))
  {
    var i := 0;
    while i < data.Length
      invariant 0 <= i && i % 4 == 0
      invariant i >= data.Length ==> i < data.Length + 4
      invariant forall j :: 0 <= j < data.Length && j < i ==>
        data[j] == (if IsColour(j) then 255 - old(data[j]) else old(data[j]))
      invariant forall j :: i <= j < data.Length ==> data[j] == old(data[j])
    {
      data[i] := 255 - data[i];
      if i + 1 < data.Length {
        data[i + 1] := 255 - data[i + 1];
      }
      if i + 2 < data.Length {
        data[i + 2] := 255 - data[i + 2];
      }
      i := i + 4;
    }
  }

  /** Inverting twice restores the buffer. */
  lemma InvertedIsInvolution(data: seq<byte>)
    ensures Inverted(Inverted(data)) == data
  {
  }

  /** Alpha bytes are unchanged and every colour byte is mirrored around
      127.5; a black opaque pixel becomes white and opaque. */
  lemma InvertedKeepsAlpha(data: seq<byte>)
    ensures forall i :: 0 <= i < |data| && !IsColour(i) ==> Inverted(data)[i] == data[i]
    ensures forall i :: 0 <= i < |data| && IsColour(i) ==> Inverted(data)[i] + data[i] == 255
    ensures Inverted([0, 0, 0, 255]) == [255, 255, 255, 255]
  {
  }
}

=== FILE: window.dfy ===
/** The bounded sample window used by every metrics recorder in the system:
    append the new sample and, once the window holds more than its capacity,
    drop the oldest one. */
module RollingWindow {

  /** The newest `n` samples of `history` (all of them when there are fewer),
      oldest first: what a window of capacity `n` should hold. */
  function LastN<T>(history: seq<T>, n: nat): seq<T>
  {
    if |history| <= n then history else history[|history| - n..]
  }

  /** One recording step: push `x`, then remove the head if the window has
      grown past `cap`. */
  function Slide<T>(window: seq<T>, x: T, cap: nat): seq<T>
  {
    var pushed := window + [x];
    if |pushed| > cap then pushed[1..] else pushed
  }

  /** Sliding the window kept for `history` gives the window for
      `history + [x]`: after any number of recordings the window holds
      exactly the newest `cap` samples in arrival order. */
  lemma {:induction false} SlideKeepsNewest<T>(history: seq<T>, x: T, cap: nat)
    ensures Slide(LastN(history, cap), x, cap) == LastN(history + [x], cap)
    ensures |LastN(history + [x], cap)| == if |history| + 1 <= cap then |history| + 1 else cap
  {
    var h := history + [x];
    if |history| < cap {
      assert LastN(history, cap) == history;
      assert LastN(h, cap) == h;
    } else if |history| == cap {
      assert LastN(history, cap) == history;
      assert h[|h| - cap..] == h[1..];
    } else {
      var w := history[|history| - cap..];
      assert LastN(history, cap) == w;
      assert (w + [x])[1..] == h[|h| - cap..];
    }
  }

  /** The window never exceeds its capacity, and the newest sample is kept
      whenever the capacity is positive. */
  lemma SlideBounded<T>(window: seq<T>, x: T, cap: nat)
    requires |window| <= cap
    ensures |Slide(window, x, cap)| <= cap
    ensures cap > 0 ==> Slide(window, x, cap)[|Slide(window, x, cap)| - 1] == x
    ensures cap > 0 ==> Slide(window, x, cap)[..|Slide(window, x, cap)| - 1] == (if |window| == cap then window[1..] else window)
  {
  }
}

=== FILE: worker.dfy ===
/** The decode worker's lifecycle (imf-decoder/src/decoder/worker.rs): a
    closed status enum, guarded commands, and the messages posted to the
    worker's scope, kept as an append-only log. */
module Worker {
  import opened Common
  import opened Frames
  import opened FrameQueue
  import opened Bindings

  datatype DecoderStatus = Idle | Initializing | Inited | Ready | Open | Pause | Closed

  datatype DecodeMessage =
    | DecoderCreated | DecoderInit | DecoderInited | WasmLoaded | DecoderReady
    | DecoderOpenError | DecoderStart | DecoderStarted | DecoderPause | DecoderPaused
    | DecoderClose | DecoderClosed | DecodeVideoBuffer | DecodedVideoFrame

  datatype WorkerError = NotReady | NotRunning | DecodeFailed(cause: DecoderError)

  /** The worker's public commands; `ProcessFrameCmd(decoded)` carries whether
      the frame payload deserialized into tokens of the frame's length. */
  datatype Command = InitializeCmd | StartCmd | PauseCmd | ProcessFrameCmd(decoded: bool)

  /** What one command does: the status afterwards, the messages it posts in
      order, and whether it returned Ok. */
  datatype Outcome = Outcome(status: DecoderStatus, posted: seq<DecodeMessage>, ok: bool)

  /** The transition function the worker's methods implement. */
  function Step(s: DecoderStatus, c: Command): (o: Outcome)
    ensures !o.ok ==> o.status == s && o.posted == []
    ensures c.InitializeCmd? ==> o.ok && o.status == Inited
  {
    match c
    case InitializeCmd => Outcome(Inited, [DecoderInit, DecoderInited], true)
    case StartCmd => if s == Ready then Outcome(Open, [DecoderStarted], true) else Outcome(s, [], false)
    case PauseCmd => if s == Open then Outcome(Pause, [DecoderPaused], true) else Outcome(s, [], false)
    case ProcessFrameCmd(decoded) =>
      if s == Open && decoded then Outcome(s, [DecodedVideoFrame], true) else Outcome(s, [], false)
  }

  /** The status after running `cs` from `s`. */
  function Run(s: DecoderStatus, cs: seq<Command>): DecoderStatus
    decreases |cs|
  {
    if cs == [] then s else Run(Step(s, cs[0]).status, cs[1..])
  }

  /** No command assigns `Ready` or `Closed`: from a fresh worker only
      `Idle` and `Inited` are ever reached. */
  lemma {:induction false} OnlyIdleOrInitedReachable(s: DecoderStatus, cs: seq<Command>)
    requires s == Idle || s == Inited
    ensures Run(s, cs) == Idle || Run(s, cs) == Inited
    decreases |cs|
  {
    if cs != [] {
      OnlyIdleOrInitedReachable(Step(s, cs[0]).status, cs[1..]);
    }
  }

  /** Consequently, whatever a fresh worker has been asked to do, `start`,
      `pause` and `process_frame` fail and post nothing. */
  lemma StartNeverSucceeds(cs: seq<Command>, decoded: bool)
    ensures !Step(Run(Idle, cs), StartCmd).ok
    ensures !Step(Run(Idle, cs), PauseCmd).ok
    ensures !Step(Run(Idle, cs), ProcessFrameCmd(decoded)).ok
  {
    OnlyIdleOrInitedReachable(Idle, cs);
  }

  /** `Pause` is left only through `initialize`; `Closed` is never left. */
  lemma PauseLeftOnlyByInitialize(c: Command)
    ensures Step(Pause, c).status != Pause ==> c == InitializeCmd
    ensures Step(Closed, c).status != Closed ==> c == InitializeCmd
  {
  }

  class DecoderWorker {
    var status: DecoderStatus
    var posted: seq<DecodeMessage>
    const decoder: IMFDecoder

    ghost predicate Valid()
      reads this, decoder, decoder.frameQueue
    {
      decoder.Valid() && decoder.width == 1920 && decoder.height == 1080
    }

    /** `DecoderWorker::new`: a 1920x1080 decoder, status `Idle`, and exactly
        one message, `DecoderCreated`. */
    constructor ()
      ensures Valid() && fresh(decoder) && fresh(decoder.frameQueue)
      ensures status == Idle && posted == [DecoderCreated]
    {
      decoder := new IMFDecoder(1920, 1080);
      status := Idle;
      posted := [DecoderCreated];
    }

    /** `initialize`: no guard; passes through `Initializing` to `Inited`,
        posting `DecoderInit` then `DecoderInited`. */
    method Initialize() returns (r: Result<(), WorkerError>)
      modifies this`status, this`posted
      ensures r.Ok? && status == Inited
      ensures posted == old(posted) + [DecoderInit, DecoderInited]
      ensures Outcome(status, posted[|old(posted)|..], r.Ok?) == Step(old(status), InitializeCmd)
    {
      status := Initializing;
      posted := posted + [DecoderInit];
      // decoder.test() only logs.
      status := Inited;
      posted := posted + [DecoderInited];
      r := Ok(());
    }

    /** `start`: "Decoder not ready" and no effect unless `Ready`; from
        `Ready` to `Open`, posting `DecoderStarted`. */
    method Start() returns (r: Result<(), WorkerError>)
      modifies this`status, this`posted
      ensures old(status) != Ready ==> r == Err(NotReady) && status == old(status) && posted == old(posted)
      ensures old(status) == Ready ==> r.Ok? && status == Open && posted == old(posted) + [DecoderStarted]
      ensures Outcome(status, posted[|old(posted)|..], r.Ok?) == Step(old(status), StartCmd)
    {
      if status != Ready {
        return Err(NotReady);
      }
      status := Open;
      posted := posted + [DecoderStarted];
      r := Ok(());
    }

    /** `pause`: "Decoder not running" and no effect unless `Open`; from
        `Open` to `Pause`, posting `DecoderPaused`. */
    method Pause() returns (r: Result<(), WorkerError>)
      modifies this`status, this`posted
      ensures old(status) != Open ==> r == Err(NotRunning) && status == old(status) && posted == old(posted)
      ensures old(status) == Open ==> r.Ok? && status == DecoderStatus.Pause && posted == old(posted) + [DecoderPaused]
      ensures Outcome(status, posted[|old(posted)|..], r.Ok?) == Step(old(status), PauseCmd)
    {
      if status != Open {
        return Err(NotRunning);
      }
      status := DecoderStatus.Pause;
      posted := posted + [DecoderPaused];
      r := Ok(());
    }

    /** `process_frame`: "Decoder not running" unless `Open`; then the
        payload goes through the decoder's `process_tokens` and
        `process_batch`, and `DecodedVideoFrame` is posted only when both
        succeed. A token of the wrong length makes `set_data` panic inside
        `process_tokens`. The status never changes. */
    method ProcessFrame(tokens: Option<BulkTokenResponse>, timing: nat -> Option<real>) returns (r: Result<(), WorkerError>)
      requires Valid()
      modifies this`posted, decoder.frameQueue
      ensures Valid() && status == old(status)
      ensures old(status) != Open ==>
        r == Err(NotRunning) && posted == old(posted)
        && decoder.frameQueue.input == old(decoder.frameQueue.input)
      ensures old(status) == Open && tokens.None? ==> r == Err(DecodeFailed(DeserializeFailed)) && posted == old(posted)
      ensures old(status) == Open && tokens.Some? && !TokensFit(1920, 1080, tokens.value.tokens) ==>
        r == Err(DecodeFailed(DataLengthPanic)) && posted == old(posted)
      ensures old(status) == Open && tokens.Some? && TokensFit(1920, 1080, tokens.value.tokens) ==>
        r.Ok? && posted == old(posted) + [DecodedVideoFrame]
      ensures Outcome(status, posted[|old(posted)|..], r.Ok?) ==
        Step(old(status), ProcessFrameCmd(tokens.Some? && TokensFit(1920, 1080, tokens.value.tokens)))
      ensures old(status) != Open || tokens.None? ==>
        && decoder.frameQueue.input == old(decoder.frameQueue.input)
        && decoder.frameQueue.framesDropped == old(decoder.frameQueue.framesDropped)
        && decoder.frameQueue.output == old(decoder.frameQueue.output)
        && decoder.frameQueue.framesProcessed == old(decoder.frameQueue.framesProcessed)
        && decoder.frameQueue.TimeHistory == old(decoder.frameQueue.TimeHistory)
        && decoder.frameQueue.lastProcessTime == old(decoder.frameQueue.lastProcessTime)
      ensures old(status) == Open && tokens.Some? && !TokensFit(1920, 1080, tokens.value.tokens) ==>
        var entries := tokens.value.tokens;
        var frames := TokenFrames(1920, 1080, entries[..FitPrefix(1920, 1080, entries)]);
        var k := Min(|frames|, QUEUE_SIZE - |old(decoder.frameQueue.input)|);
        && decoder.frameQueue.input == old(decoder.frameQueue.input) + frames[..k]
        && decoder.frameQueue.framesDropped == old(decoder.frameQueue.framesDropped) + (|frames| - k)
        && decoder.frameQueue.output == old(decoder.frameQueue.output)
        && decoder.frameQueue.framesProcessed == old(decoder.frameQueue.framesProcessed)
        && decoder.frameQueue.TimeHistory == old(decoder.frameQueue.TimeHistory)
        && decoder.frameQueue.lastProcessTime == old(decoder.frameQueue.lastProcessTime)
      ensures old(status) == Open && tokens.Some? && TokensFit(1920, 1080, tokens.value.tokens) ==>
        // process_tokens pushes every token, then process_batch takes one batch.
        var entries := tokens.value.tokens;
        var frames := TokenFrames(1920, 1080, entries);
        var pushed := old(decoder.frameQueue.input) + frames[..Min(|frames|, QUEUE_SIZE - |old(decoder.frameQueue.input)|)];
        var k := Min(BATCH_SIZE, |pushed|);
        && decoder.frameQueue.input == pushed[k..]
        && decoder.frameQueue.framesDropped
           == old(decoder.frameQueue.framesDropped) + (|frames| - Min(|frames|, QUEUE_SIZE - |old(decoder.frameQueue.input)|))
        && decoder.frameQueue.output == old(decoder.frameQueue.output) + pushed[..k]
        && decoder.frameQueue.framesProcessed == old(decoder.frameQueue.framesProcessed) + k
        && decoder.frameQueue.TimeHistory == old(decoder.frameQueue.TimeHistory) + Recorded(timing, k)
        && decoder.frameQueue.lastProcessTime == LastRecorded(timing, k, old(decoder.frameQueue.lastProcessTime))
    {
      if status != Open {
        return Err(NotRunning);
      }
      var pushed := decoder.ProcessTokens(tokens);
      if pushed.Err? {
        return Err(DecodeFailed(pushed.error));
      }
      assert tokens.value.tokens[..FitPrefix(1920, 1080, tokens.value.tokens)] == tokens.value.tokens;
      ghost var afterPush := decoder.frameQueue.input;
      // process_batch always returns Ok, so its `?` never returns early.
      var _ := decoder.ProcessBatch(timing);
      assert decoder.frameQueue.input == afterPush[Min(BATCH_SIZE, |afterPush|)..];
      posted := posted + [DecodedVideoFrame];
      r := Ok(());
    }
  }
}
